=== FILE: README.md ===
# dassa1 event platform — a Dafny model of its business rules

dassa1 is a university event-management platform. Clubs (organizers) create
events of two kinds. A Normal event has a fee and an optional custom
registration form. A Merchandise event has variants with stock and price.
Events move through the statuses draft, published, ongoing, completed and
cancelled. Participants browse events, follow clubs, register and get a
ticket. At the venue the organizer checks tickets in by scanning them or
by a manual entry with a reason. Every check-in is written to an
append-only audit log.

This project models the rules behind those steps as pure Dafny functions
over immutable records. Each request handler becomes a function from the
stored collections (a sequence of events and a sequence of registrations)
and the request to a `Result`. The result is either the new collections
and the answer, or the error the handler sends, with its HTTP code.

The project has one module per area of the program:

- `Common`: `Option`/`Result`, ids, timestamps, JSON values and JavaScript truthiness.
- `Coerce`: JavaScript's conversion of a JSON value to a number, which `<` applies before comparing.
- `Text` and `Sorting`: `join`/`split`/`trim`/`indexOf`/`filter`, string `length` in UTF-16 code units, and a stable sort with its permutation and stability lemmas.
- `Models`: the event, registration and account documents and their schema defaults.
- `EventMiddleware`: the `ownevent` ownership check and the `caneditevent` edit gate.
- `Events`, `Browse` and `Trending`: the event controller.
- `Registrations` and `Attendance`: the registration and check-in controllers.
- `Csv`: the CSV writer and a reader for it.
- `Organizers` and `Users`: the account controllers.
- `Schemas`: the request schemas.
- `Calendar`: the iCalendar export (RFC 5545).
- `FormBuilder`, `CreatePage` and `ProfilePage`: the list editors and submit logic of the frontend.

The clock, the generated ticket id, the password hash and compare,
`toISOString` and e-mail syntax validity are parameters.

## Model

| member | source | states |
|---|---|---|
| Registrations.Register | backend/src/controllers/registration.ts:8-71 | The guards run in order: missing event 404, not published, deadline passed (strictly later than the deadline), full (regcount ≥ limit), already registered. The first failing guard decides the answer. A duplicate answers with the existing ticket. Success appends exactly one `Registered` registration with the form data and raises that event's regcount by one. Nothing else changes. |
| Registrations.RegisterKeepsCapacity | backend/src/controllers/registration.ts:29-31 | Sequential registrations never push any event's regcount above its limit. |
| Registrations.RegisterKeepsUniqueness | backend/src/controllers/registration.ts:33-52 | Registration keeps ticket ids unique and at most one `Registered` registration per user and event. |
| Registrations.SecondRegistrationReturnsTicket | backend/src/controllers/registration.ts:33-44 | Registering again for the same event never succeeds. Once the other guards pass, it answers with the first ticket id. |
| Registrations.ExistingIndex | backend/src/controllers/registration.ts:33-37 | Finds the first `Registered` registration of this user for this event, or reports that none exists. Other statuses do not block. |
| Registrations.RegisteredFor | backend/src/controllers/registration.ts:85 | Holds exactly the event's `Registered` registrations, oldest first, as many as satisfy the filter. |
| Registrations.Entries | backend/src/controllers/registration.ts:88-96 | One listing entry per registration, in order. |
| Registrations.EntriesMembers | backend/src/controllers/registration.ts:88-96 | An entry is listed exactly when it is the entry of a listed registration. |
| Registrations.ListParticipants | backend/src/controllers/registration.ts:73-101 | A missing event or a non-owner caller gets the `ownevent` error. Otherwise the entries are exactly those of the event's `Registered` registrations, in registration-time order. The total is the number of such registrations in the store. |
| Registrations.RegisterJoinsListing | backend/src/controllers/registration.ts:46-99 | After a successful registration the owner's listing grows by one: the total rises by one, the new registration's entry is listed, and every earlier entry is still listed. |
| Registrations.ParticipantRecord | backend/src/controllers/registration.ts:117-127 | One export row has one value per header column. |
| Registrations.ParticipantRecords | backend/src/controllers/registration.ts:117-127 | One row per registration, in order. |
| Registrations.ExportParticipants | backend/src/controllers/registration.ts:103-139 | Gives the `ownevent` error for a missing event or another owner. Otherwise it fails with 500 exactly when a listed registration's user is gone. |
| Registrations.ExportParticipantsReadsBack | backend/src/controllers/registration.ts:111-131 | For the export written with the corrected escape: reading it back gives the fixed header row, then one record per `Registered` registration, oldest first, with check-in written as `yes`/`no`. The export as written gives the same text whenever no value needs quoting (`Csv.PlainRowsAgree`). |
| Registrations.ParticipantCsvReadsBack | backend/src/controllers/registration.ts:129-131 | The CSV of any participant rows reads back as the header row followed by those rows. |
| Attendance.Scan | backend/src/controllers/attendance.ts:6-48 | The answers, in order: 400 with no ticket; 404 for an unknown ticket; a wrong event; a status other than Registered/Purchased; 409 with the first check-in time when already checked in. Each error case is an if-and-only-if. Success sets check-in and its time to now and appends one `scan` log entry. No other registration changes. |
| Attendance.Manual | backend/src/controllers/attendance.ts:50-81 | Ticket and reason are both required; then 404, then a wrong event. There is no status check. An earlier check-in time is kept, otherwise it becomes now. One entry is appended, carrying the reason; its action is override exactly when the ticket was already checked in. No other registration changes. |
| Attendance.ScanTwiceConflicts | backend/src/controllers/attendance.ts:26-32 | Scanning a ticket that was just scanned is refused with 409 and the first scan's time. |
| Attendance.ManualAfterScanOverrides | backend/src/controllers/attendance.ts:66-70 | A manual check-in after a scan succeeds, is an override and keeps the scan time. |
| Attendance.ScanLogAppendOnly | backend/src/controllers/attendance.ts:34-37 | After a scan every registration's log extends its old log, and the logs grow by exactly one entry in total. |
| Attendance.ManualLogAppendOnly | backend/src/controllers/attendance.ts:66-70 | The same append-only property for a manual check-in. |
| Attendance.ScanCountsOnce | backend/src/controllers/attendance.ts:34-37 | A scan raises the event's checked-in count by one and leaves its active total unchanged. |
| Attendance.ManualCounts | backend/src/controllers/attendance.ts:66-70 | A manual check-in raises the checked-in count by one exactly when the registration is active and was not checked in. The total is unchanged. |
| Attendance.ActiveRegs | backend/src/controllers/attendance.ts:94-97 | Holds exactly the event's Registered/Pending/Purchased registrations, oldest first. Its checked-in count equals the event's. |
| Attendance.StatsEntries | backend/src/controllers/attendance.ts:105-111 | One stats entry per registration, in order. |
| Attendance.StatsEntriesMembers | backend/src/controllers/attendance.ts:105-111 | An entry is listed exactly when it is the entry of one of the registrations. |
| Attendance.AttendanceStats | backend/src/controllers/attendance.ts:83-116 | Gives the `ownevent` error, or: total = the number of active registrations, checkedin = the number of those checked in, checkedin ≤ total. The participants are the entries of the event's active registrations, oldest first. Every active registration has its entry listed, and every listed entry is one of them. |
| Attendance.AttendanceRecord | backend/src/controllers/attendance.ts:134-143 | One attendance row has one value per header column. |
| Attendance.AttendanceRecords | backend/src/controllers/attendance.ts:134-143 | One row per registration, in order. |
| Attendance.ExportAttendance | backend/src/controllers/attendance.ts:118-154 | Gives the `ownevent` error, or fails with 500 exactly when a listed user is gone. |
| Attendance.ExportAttendanceReadsBack | backend/src/controllers/attendance.ts:130-147 | For the export written with the corrected escape: it reads back as its header row and one record per active registration, oldest first. The export as written gives the same text whenever no value needs quoting (`Csv.PlainRowsAgree`). |
| Attendance.AttendanceCsvReadsBack | backend/src/controllers/attendance.ts:145-147 | The CSV of any attendance rows reads back as header row plus rows. |
| EventMiddleware.OwnEvent | backend/src/middleware/event.ts:12-29 | A missing event gives 404. An event of another organizer gives 403. Otherwise the answer is the event, and the caller is its organizer. |
| EventMiddleware.CanEditEvent | backend/src/middleware/event.ts:31-82 | A draft accepts anything. A published event refuses: a key outside the whitelist; `dates` with a key other than `deadline`; a truthy limit that is below regcount after JavaScript's number conversion, which gets the error naming the regcount. Ongoing/completed accept only a single truthy `status` key. Any other status is refused. Every case is an if-and-only-if. |
| EventMiddleware.PublishedGateByKey | backend/src/middleware/event.ts:44-70 | For a published event, a body passes exactly when each of its keys, sent alone with its value, passes. |
| EventMiddleware.SingleKeyGate | backend/src/middleware/event.ts:44-70 | A single-key body passes a published event exactly when the key is whitelisted, a truthy `dates` names only `deadline`, and a truthy limit is not below regcount. |
| EventMiddleware.NumeralLimitGate | backend/src/middleware/event.ts:63-67 | A limit sent as the decimal string of n is compared as the number n: it passes exactly when n ≥ regcount, and otherwise gets the limit error that names regcount. |
| EventMiddleware.EmptyArrayLimitGate | backend/src/middleware/event.ts:63-67 | An empty array is truthy and converts to 0, so as a limit it passes exactly when regcount ≤ 0. |
| Coerce.StringToNumber | backend/src/middleware/event.ts:63 | A blank string converts to 0. |
| Coerce.ToNumber | backend/src/middleware/event.ts:63 | A number is itself, a string converts as a numeral, a plain object is NaN. |
| Coerce.IntTextReadsBack | backend/src/middleware/event.ts:63 | The decimal text of any integer converts back to that integer. |
| Coerce.PaddedNumeral | backend/src/middleware/event.ts:63 | Whitespace around a numeral does not change the number it converts to. |
| Coerce.FractionExponentLiteral | backend/src/middleware/event.ts:63 | A numeral `a.bec` with single digits converts to `a.b` times ten to the `c`. |
| Coerce.FifteenLiteral | backend/src/middleware/event.ts:63 | `"1.5e1"` converts to 15. |
| Coerce.ArrayReadsAsItsText | backend/src/middleware/event.ts:63 | An array of one number converts to that number, and the empty array to 0. |
| Events.CreateEvent | backend/src/controllers/event.ts:7-32 | The created event is a draft of the caller's, whatever the body says. Its other fields come from the body with model defaults. It is appended to the collection. It is refused (500) exactly when the name or eligibility is empty or a variant has an empty name, a negative stock or a negative price. A created event passes validation. |
| Events.CreatedEventSaves | backend/src/controllers/event.ts:156-195 | A created event saves unchanged under an empty update: the create and update validators agree. |
| Events.CreateIgnoresBodyStatus | backend/src/controllers/event.ts:15-19 | Changing the body's status or organizer does not change the result. |
| Models.MaterializeEvent | backend/src/models/event.ts:16-60 | Saving applies the defaults: status draft, regcount 0, fee 0, purchaseLimit 1, variant price 0. The kind is kept. It is refused exactly when the required `name` or `eligibility` is empty, or a variant has an empty name, a negative stock or a negative price. What it stores passes validation. |
| Models.MaterializedValid | backend/src/models/event.ts:54-58 | The stored variants are valid exactly when every input variant has a non-empty name and a non-negative stock and price. |
| Models.MaterializeVariants | backend/src/models/event.ts:53-60 | One stored variant per input, price defaulting to 0. |
| Models.NewRegistration | backend/src/models/registration.ts:23-36 | A new registration is not checked in, has no check-in time, an empty log and no payment. It carries the given user, event, status, ticket and form data. |
| Models.StatusNamePublished | backend/src/models/event.ts:33-37 | Only the published status is spelled `published`. |
| Models.EventIndex | backend/src/models/event.ts:33-38 | `findById`: the position of an event with this id, or -1 exactly when none has it. |
| Models.FindEvent | backend/src/models/event.ts:33-38 | Finds the event exactly when one has this id. |
| Models.TicketIndex | backend/src/models/registration.ts:28 | The first registration with this ticket id, or -1 exactly when none has it. |
| Models.ParticipantIndex | backend/src/models/user.ts:17-35 | The position of the participant with this id, or -1 exactly when none has it. |
| Events.Public | backend/src/controllers/event.ts:137-139 | `select('-formschema')`: hides the form of a Normal event and changes nothing else. |
| Events.GetEvent | backend/src/controllers/event.ts:134-153 | 404 for a missing event, and for a non-published event the viewer does not organize. 500 for a non-published event whose club account no longer exists, because its organizer then populates as null. Otherwise the public view of the event. For a well-formed id each outcome is an if-and-only-if. |
| Events.MergeDates | backend/src/controllers/event.ts:170-173 | Each date comes from the patch when it is given, otherwise it is the stored one. |
| Events.UpdateEvent | backend/src/controllers/event.ts:156-195 | Only description, dates (key-wise), limit and status change, plus fee for a Normal event or variants/purchaseLimit for a Merchandise one. All other fields stay as they were. `save()` revalidates the whole document, so it is refused (500) exactly when the name or eligibility is empty, a new variant has an empty name or a negative stock or price, or, when the variants are kept, a kept one is invalid. |
| Events.EmptyUpdateIsIdentity | backend/src/controllers/event.ts:176-186 | An empty body changes nothing. It is refused exactly when the stored document fails validation. |
| Events.UpdateIdempotent | backend/src/controllers/event.ts:176-186 | Applying the same body twice is applying it once. |
| Events.PublishedEditKeepsSchedule | backend/src/middleware/event.ts:44-70 | An edit that the gate accepts for a published event keeps the name, the start, the end and the purchase limit. A non-zero limit it sets is at least regcount. |
| Events.RunningEditOnlyStatus | backend/src/middleware/event.ts:72-79 | An accepted edit of an ongoing or completed event changes at most its status. It saves exactly when the stored document passes validation. |
| Events.DeleteEvent | backend/src/controllers/event.ts:197-206 | Gives the `ownevent` error, or removes the event and every registration for it. Nothing else is removed. |
| Events.DeletedEventIsGone | backend/src/controllers/event.ts:197-206 | After a delete, fetching the event answers 404 and registering for it is refused. |
| Events.FindNormal | backend/src/controllers/event.ts:210-214 | Finds the event exactly when it exists and is a Normal event. |
| Events.GetForm | backend/src/controllers/event.ts:208-224 | 404 unless a Normal event has the id; otherwise the saved form, or no fields when none was saved. |
| Events.UpdateForm | backend/src/controllers/event.ts:226-261 | 404 for no Normal event, then 403 for another owner, then refused while a registration is active. Otherwise only the form of that event is replaced. |
| Events.UpdateFormThenGet | backend/src/controllers/event.ts:254 | A saved form is what `getform` answers afterwards. |
| Events.RegistrationFreezesForm | backend/src/controllers/event.ts:243-252 | After a successful registration the owner's form update is refused. |
| Browse.EscapeRegex | backend/src/controllers/event.ts:86 | The escaped search is a literal pattern that stands for the search itself. A search with no special character is unchanged. |
| Browse.SearchIsLiteral | backend/src/controllers/event.ts:86-95 | The escaped pattern matches a name exactly when the name contains the search, case-insensitively. |
| Browse.EscapeRegexInjective | backend/src/controllers/event.ts:86 | Different searches give different patterns. |
| Browse.BuildQuery | backend/src/controllers/event.ts:52-80 | A non-organizer is always limited to published events; only an organizer's `status` parameter is honoured. `following` beats `organizer`, which beats the organizer's own-events default. Tags, type, eligibility and the date range are copied. |
| Browse.MergeById | backend/src/controllers/event.ts:110-118 | Keeps the accumulated list as a prefix. It appends each event of the second list whose id is new. Every id of the second list ends up present, and no id repeats. |
| Browse.FindSorted | backend/src/controllers/event.ts:91-95 | Holds exactly the events that pass the filter, by ascending start date. |
| Browse.SearchMerge | backend/src/controllers/event.ts:98-118 | Every merged event passes the filter and matches the search by its name or its organizer's name. Ids stay unique. |
| Browse.SearchMergeComplete | backend/src/controllers/event.ts:98-118 | Every such event is in the merge. |
| Browse.SearchMergeOrder | backend/src/controllers/event.ts:98-118 | The name matches come first, by ascending start. Everything after them, the organizer-only matches, is by ascending start too. |
| Browse.MergeTailOrder | backend/src/controllers/event.ts:110-118 | What the merge appends keeps the order of the second list. |
| Browse.Merged | backend/src/controllers/event.ts:88-118 | Without a search, the events that pass the filter, exactly. With a search, the search merge. |
| Browse.MergedComplete | backend/src/controllers/event.ts:88-118 | Every event that passes the filter and the search is in the merged list. |
| Browse.RelIndex | backend/src/controllers/event.ts:120-121 | A `slice` bound made absolute: negative values count from the end, and values are clamped to the length. |
| Browse.SliceJs | backend/src/controllers/event.ts:120-121 | `slice(start, end)` is the window between the absolute bounds, or empty. |
| Browse.PageWindow | backend/src/controllers/event.ts:120-121 | For a non-negative skip and limit, the page is the window [skip, skip+limit) clipped to the list. |
| Browse.PagesTile | backend/src/controllers/event.ts:120-121 | Consecutive pages concatenate to the combined window. |
| Browse.PublicAll | backend/src/controllers/event.ts:120-128 | Each listed event is replaced by its public view. |
| Browse.VisitorsSeePublishedOnly | backend/src/controllers/event.ts:52-59 | A visitor or a non-organizer never sees an unpublished event. |
| Browse.OrganizersSeeOwnEvents | backend/src/controllers/event.ts:61-80 | An organizer who names neither a club nor a followed list sees only their own events. |
| Browse.OrganizerParamWidensView | backend/src/controllers/event.ts:61-80 | The `organizer` parameter replaces the own-events default, so an organizer sees another club's matching events. |
| Browse.PageHasNoDuplicates | backend/src/controllers/event.ts:110-128 | With unique event ids, no page lists an event twice. |
| Trending.Recent | backend/src/controllers/event.ts:265-268 | Exactly the registrations created in the last day. |
| Trending.EventIds | backend/src/controllers/event.ts:269 | The event of each registration, in order. |
| Trending.FirstAppearances | backend/src/controllers/event.ts:269 | Each event id once, no repeats. |
| Trending.GroupsOf | backend/src/controllers/event.ts:269-270 | One group per key, with the number of its occurrences. |
| Trending.Take | backend/src/controllers/event.ts:272 | `$limit`: the prefix of length at most n. |
| Trending.RankedGroups | backend/src/controllers/event.ts:267-271 | The groups in order of descending count. |
| Trending.RankedGroupsSpec | backend/src/controllers/event.ts:267-271 | Exactly one group per recently registered event, carrying its true recent count. |
| Trending.TopGroups | backend/src/controllers/event.ts:267-272 | At most 20 groups, by descending count. |
| Trending.TopGroupsAreTop | backend/src/controllers/event.ts:270-272 | A group cut by the limit counts no more than the twentieth. |
| Trending.TopIdsDistinct | backend/src/controllers/event.ts:269-274 | The ranked groups name each event once. |
| Trending.Picks | backend/src/controllers/event.ts:275-284 | At most one pick per id. Every pick is a published event whose id is listed. |
| Trending.PicksComplete | backend/src/controllers/event.ts:281-284 | Every listed id that names a published event contributes that event to the picks. |
| Trending.PicksFollowOrder | backend/src/controllers/event.ts:281-284 | The picks keep the order of the ids. |
| Trending.PicksScoreBelow | backend/src/controllers/event.ts:281-284 | A bound on every id's score bounds every pick's score. |
| Trending.PicksDistinct | backend/src/controllers/event.ts:281-284 | Distinct ids give distinct picks. |
| Trending.BackfillPool | backend/src/controllers/event.ts:286-299 | Exactly the published events not already picked, by descending regcount. |
| Trending.Ordered | backend/src/controllers/event.ts:275-284 | At most five published events from the collection. |
| Trending.OrderedComplete | backend/src/controllers/event.ts:267-284 | With unique ids, a published event among the top 20 recent groups is in the ordered picks, unless those already hold five events whose recent counts are at least its own. |
| Trending.TopUp | backend/src/controllers/event.ts:286-301 | The picks, then the head of the pool, at most five in all. |
| Trending.TopUpShort | backend/src/controllers/event.ts:286-301 | A result shorter than five has taken the whole pool. |
| Trending.TopUpDistinct | backend/src/controllers/event.ts:286-301 | Topping up repeats no id when the pool holds only new ids. |
| Trending.TrendingChoice | backend/src/controllers/event.ts:263-301 | The stored events chosen: at most five published events of the collection, beginning with the ordered picks. |
| Trending.TrendingEvents | backend/src/controllers/event.ts:263-307 | The answer is the public view, without form, of each chosen event, in order. So it is at most five views of published events, beginning with the views of the ordered picks. |
| Trending.AnswerIds | backend/src/controllers/event.ts:275-298 | Hiding the form keeps the ids: the answer names an id exactly when the choice does. |
| Trending.PicksRankedByRecentCount | backend/src/controllers/event.ts:267-284 | The picks come by descending number of registrations in the last day. |
| Trending.AllPicksRanked | backend/src/controllers/event.ts:267-284 | The whole list of picks, before the cut to five, is by descending recent count. |
| Trending.TrendingLeftOutIsOutranked | backend/src/controllers/event.ts:263-307 | With unique ids, a published event left out of the answer means the answer holds five events. If it was among the top groups, five picks outrank it by recent count. Every backfilled event has at least its regcount. |
| Trending.BackfillOutranks | backend/src/controllers/event.ts:286-301 | An event of the pool left out by the top-up has no more regcount than any event the top-up took. |
| Trending.BackfillRankedAndNew | backend/src/controllers/event.ts:286-301 | After the picks come events not already picked, by descending regcount. |
| Trending.ShortListHasEveryPublished | backend/src/controllers/event.ts:286-301 | Fewer than five results means every published event is in the list. |
| Trending.TrendingHasNoDuplicates | backend/src/controllers/event.ts:263-307 | With unique event ids, no event is listed twice. |
| Csv.DoubleQuotes | backend/src/util/csv.ts:6 | Every quote ends up in a doubled pair, and undoubling gives back the value. |
| Csv.Escape | backend/src/util/csv.ts:2-9 | As written: a missing value is empty; a value without `,`, `"` or a newline is verbatim; otherwise an opening quote plus the value with quotes doubled, and no closing quote. |
| Csv.EscapeRfc | backend/src/util/csv.ts:2-9 | The corrected escape: the same, but with the closing quote. |
| Csv.Cells | backend/src/util/csv.ts:14 | One escaped cell per header, in header order; a missing key reads as empty. |
| Csv.RowLines | backend/src/util/csv.ts:12-16 | One line per data object, in order. |
| Csv.Lines | backend/src/util/csv.ts:11-18 | data.length + 1 lines: the unescaped headers joined by `,`, then the rows. |
| Csv.ParsePlain | backend/src/util/csv.ts:2-9 | A reader step: an unquoted field runs to the next separator. |
| Csv.ParseQuoted | backend/src/util/csv.ts:2-9 | A reader step: inside quotes `""` is one quote, and a lone `"` ends the field. |
| Csv.FieldRoundTrip | backend/src/util/csv.ts:2-9 | A field written by the corrected escape reads back as its value, whatever the value holds. |
| Csv.RecordRoundTrip | backend/src/util/csv.ts:14 | A row written by the corrected escape reads back as its values in header order. |
| Csv.HeaderRoundTrip | backend/src/util/csv.ts:11 | A header line reads back as the headers when none needs quoting. |
| Csv.LinesRoundTrip | backend/src/util/csv.ts:12-17 | All data lines read back as the table's values. |
| Csv.RfcTableRoundTrip | backend/src/util/csv.ts:11-18 | With the corrected escape, a reader recovers the headers and every row's values. |
| Csv.PlainRowsAgree | backend/src/util/csv.ts:5-8 | When no value needs quoting, the writer as written and the corrected writer produce the same text. |
| Csv.PlainTableRoundTrip | backend/src/util/csv.ts:11-18 | The export as written reads back correctly when no value needs quoting. |
| Csv.RecordsReadBack | backend/src/util/csv.ts:11-18 | An export of records under distinct plain headers reads back as the header row followed by the records. |
| Csv.RowsValues | backend/src/util/csv.ts:14 | Rows built from records under distinct headers give back those records in header order. |
| Csv.ValuesOfRow | backend/src/util/csv.ts:14 | Looking up a row literal's keys in header order gives its values. |
| Csv.SplitValueCollides | backend/src/util/csv.ts:5-7 | Without a closing quote, a quoted value containing a line feed is written exactly like two separate cells. |
| Csv.AsWrittenExportCollides | backend/src/util/csv.ts:5-7 | So two different tables give the same export text. |
| Csv.CollisionExample | backend/src/util/csv.ts:5-7 | The concrete case: the row `a,⏎b` and the rows `a,` and `b`. |
| Calendar.EscapeIcsText | frontend/lib/calendar.ts:77-79 | The escaped value is valid RFC 5545 TEXT and holds no line feed. |
| Calendar.EscapeIsOnePass | frontend/lib/calendar.ts:77-79 | The four global replacements, backslash first, act as a single per-character escape. |
| Calendar.EscapeCharsAreText | frontend/lib/calendar.ts:77-79 | Every escaped text is valid TEXT: a backslash only before `\`, `;`, `,` or `n`, and no bare `;`, `,` or line feed. |
| Calendar.EscapeRoundTrip | frontend/lib/calendar.ts:77-79 | Reading the TEXT value back gives the original text. |
| Calendar.FormatIcsDate | frontend/lib/calendar.ts:72-75 | The result ends with `Z`. |
| Calendar.FormatIcsDateDropsFraction | frontend/lib/calendar.ts:72-75 | The part before the first `.`, without dashes and colons, followed by `Z`. |
| Calendar.FormatIcsDateBasicForm | frontend/lib/calendar.ts:72-75 | `YYYY-MM-DDTHH:MM:SS.sssZ` becomes `YYYYMMDDTHHMMSSZ`. |
| Calendar.Uid | frontend/lib/calendar.ts:45 | `<id>@dass.events` when the event has an id, otherwise `<start>-<end>@dass.events`. |
| Calendar.IcsLines | frontend/lib/calendar.ts:31-70 | The document starts with the five header lines and ends with `END:VCALENDAR`. |
| Calendar.EventLinesShape | frontend/lib/calendar.ts:40-66 | A block opens with BEGIN:VEVENT and closes with END:VEVENT. It has a DESCRIPTION line only for a non-empty description, and a VALARM with `TRIGGER:-PT<n>M` exactly when the reminder is positive. |
| Calendar.EventLinesMarkers | frontend/lib/calendar.ts:40-66 | Within a block each VEVENT marker occurs once, and BEGIN:VALARM occurs once exactly when the reminder is on. |
| Calendar.BlocksAppend | frontend/lib/calendar.ts:40-66 | Blocks follow the input order. |
| Calendar.OneBlockPerEvent | frontend/lib/calendar.ts:40-66 | One BEGIN:VEVENT and one END:VEVENT per event, and one VALARM per event when the reminder is on. |
| Calendar.HeaderCounts | frontend/lib/calendar.ts:32-38 | The header and trailer hold no VEVENT marker. |
| Calendar.DocumentBlocks | frontend/lib/calendar.ts:31-70 | The document holds exactly one VEVENT block per event. |
| Calendar.IcsNoBreaks | frontend/lib/calendar.ts:31-70 | No content line contains a line feed, when the unescaped inputs contain none. |
| Calendar.JoinCrLf | frontend/lib/calendar.ts:69 | Joining with CRLF is joining, with LF, the lines that carry a trailing CR. |
| Calendar.DocumentLines | frontend/lib/calendar.ts:69 | Splitting the document at line feeds gives back each line, every line but the last ending in CR (section 3.1 of RFC 5545). |
| Organizers.Toggle | backend/src/controllers/organizer.ts:37-44 | An absent id is appended. A present id loses its first occurrence, and the entries before and after it stay as they were. |
| Organizers.ToggleCount | backend/src/controllers/organizer.ts:37-44 | The id's count drops by one, or becomes one. The id is followed afterwards exactly when it did not occur exactly once before. |
| Organizers.ToggleKeepsOtherCounts | backend/src/controllers/organizer.ts:37-44 | Other entries keep their number of occurrences. |
| Organizers.ToggleKeepsOtherOrder | backend/src/controllers/organizer.ts:37-44 | The other entries keep their relative order. |
| Organizers.ToggleTwiceAbsent | backend/src/controllers/organizer.ts:37-44 | Toggling an absent id twice restores the list. |
| Organizers.ToggleTwicePresent | backend/src/controllers/organizer.ts:37-44 | Toggling an id listed once twice restores membership, but the id moves to the end. |
| Organizers.ToggleFollow | backend/src/controllers/organizer.ts:29-52 | A missing participant gives 404. Otherwise the caller's list is toggled and returned. |
| Organizers.ToggleFollowOnlyFollowing | backend/src/controllers/organizer.ts:37-46 | Only the caller's following list changes. |
| Organizers.OrganizerIndex | backend/src/controllers/organizer.ts:71-89 | The organizer with this id, or -1 exactly when none has it. |
| Organizers.ApplyOrgUpdate | backend/src/controllers/organizer.ts:79-83 | The given fields are set and the others are kept. |
| Organizers.UpdateOwnProfile | backend/src/controllers/organizer.ts:63-89 | 400 exactly for an invalid body (empty name or category, contact under ten UTF-16 code units). Otherwise it updates and returns the caller, or answers `null` when there is no account. |
| Organizers.OrgUpdateIdempotent | backend/src/controllers/organizer.ts:79-83 | Applying the same update twice is applying it once. |
| Organizers.UpdateKeepsRequiredFields | backend/src/controllers/organizer.ts:63-68 | Accepted updates keep names and categories non-empty. |
| Users.ApplyProfile | backend/src/controllers/user.ts:40-44 | The given fields are set. Id, email, password and affiliation are kept. |
| Users.UpdateProfile | backend/src/controllers/user.ts:15-50 | 400 for an invalid body, then 404, then 403 exactly when an IIIT student asks for another college. Otherwise only the caller's record is updated. |
| Users.IiitCollegeIsFixed | backend/src/controllers/user.ts:36-38 | No accepted update changes an IIIT student's college, or anyone's affiliation, email or password. |
| Users.SameCollegeAccepted | backend/src/controllers/user.ts:36 | The same college for an IIIT student, and any college for a non-IIIT participant, passes the rule. |
| Users.ChangePassword | backend/src/controllers/user.ts:52-77 | 400 for a new password under eight UTF-16 code units, then 404, then 401 exactly when the current password does not match. Otherwise only the caller's hash changes, to the hash of the new password. |
| Users.NewPasswordIsCurrent | backend/src/controllers/user.ts:67-72 | With a hash the compare accepts, the new password is the one that now passes. |
| Users.ParticipantIndexSameIds | backend/src/controllers/user.ts:63 | Lookup by id depends only on the ids. |
| Schemas.LocalRun | backend/src/schemas/user.ts:3 | The longest prefix made of local-part characters. |
| Schemas.IiitEmailLanguage | backend/src/schemas/user.ts:3 | The pattern accepts exactly: a non-empty local part over `[A-Za-z0-9._%+-]`, `@`, and one of the three IIIT domains, up to the end. |
| Schemas.IiitEmailAccepts | backend/src/schemas/user.ts:3 | Every such address is accepted. |
| Schemas.SingleLetterLocal | backend/src/schemas/user.ts:3 | With a one-letter local part, acceptance depends on the domain alone. |
| Schemas.IiitEmailRejects | backend/src/schemas/user.ts:3 | Upper case, a longer domain, a subdomain and an empty local part are all rejected. |
| Schemas.CreateParticipant | backend/src/schemas/user.ts:7-30 | Accepts exactly: non-empty names and college, a password of eight or more UTF-16 code units, a contact of ten or more, and a valid e-mail; an `IIIT` body also needs an IIIT address. |
| Schemas.IiitBranchNarrowsEmail | backend/src/schemas/user.ts:19-29 | The two branches differ only in the address rule. |
| Schemas.ExternalIsNotStored | backend/src/models/user.ts:22 | The schema's `External` is not a stored affiliation name. |
| Schemas.CreateOrganizer | backend/src/schemas/user.ts:32-39 | Accepts exactly: a non-empty name and category, a valid e-mail, a contact of at least ten UTF-16 code units, and an optional password of at least eight. |
| Schemas.OrganizerPasswordOptional | backend/src/schemas/user.ts:32-39 | Leaving out the password never invalidates a body. A short password always does. |
| Schemas.CreateEvent | backend/src/schemas/event.ts:3-35 | Accepts exactly the valid bodies: non-empty name, positive integer limit, Normal fee ≥ 0, variants with integer stock ≥ 0. purchaseLimit defaults to 1. |
| Schemas.CreateEventRejects | backend/src/schemas/event.ts:12-29 | A fractional or non-positive limit, or any invalid variant, is refused. |
| FormBuilder.RegistrationLocksBuilder | frontend/components/form-builder.tsx:38 | After a successful registration the builder is locked. |
| FormBuilder.AddField | frontend/components/form-builder.tsx:46-49 | Appends a blank, optional text field. |
| FormBuilder.RemoveField | frontend/components/form-builder.tsx:51-54 | Removes exactly element i, keeping the order of the rest. Out of range it is a no-op. |
| FormBuilder.RemoveFieldMultiset | frontend/components/form-builder.tsx:51-54 | Loses that field and nothing else. |
| FormBuilder.AddThenRemove | frontend/components/form-builder.tsx:46-54 | Removing the field just added gives the list back. |
| FormBuilder.ApplyPatch | frontend/components/form-builder.tsx:56-59 | `{...f, ...u}`: the given keys are replaced and the others are kept. |
| FormBuilder.UpdateField | frontend/components/form-builder.tsx:56-59 | Only element i changes. |
| FormBuilder.UpdateFieldLaws | frontend/components/form-builder.tsx:56-59 | An empty update changes nothing, and an update is idempotent. |
| FormBuilder.MoveField | frontend/components/form-builder.tsx:61-68 | Swaps with the neighbour when it is in range, otherwise a no-op. The result is a permutation. |
| FormBuilder.MoveFieldBack | frontend/components/form-builder.tsx:61-68 | Moving back restores the list. |
| FormBuilder.AddOption | frontend/components/form-builder.tsx:70-73 | A blank option is appended to the targeted field only. |
| FormBuilder.UpdateOption | frontend/components/form-builder.tsx:75-80 | Only that option of that field changes. |
| FormBuilder.RemoveOption | frontend/components/form-builder.tsx:82-86 | Only that option of that field is removed. |
| FormBuilder.AddThenRemoveOption | frontend/components/form-builder.tsx:70-86 | Removing the option just added restores the options. |
| FormBuilder.FirstProblem | frontend/components/form-builder.tsx:89-98 | No problem exactly when every field is ready. Otherwise the problem of the first field that is not. |
| FormBuilder.CleanField | frontend/components/form-builder.tsx:102-106 | The label is trimmed. A dropdown keeps only its non-blank options; other types lose their options. |
| FormBuilder.CleanFields | frontend/components/form-builder.tsx:102-106 | Cleans each field in place. |
| FormBuilder.Save | frontend/components/form-builder.tsx:89-106 | Succeeds exactly when every label is non-blank and every dropdown has two non-blank options. The result is the cleaned list: a saved dropdown's options are exactly its non-blank input options, in order. A refusal reports the problem of the first field that is not ready. |
| FormBuilder.SavedFieldIsClean | frontend/components/form-builder.tsx:102-106 | A saved field is unchanged by cleaning and passes validation. |
| FormBuilder.SaveIdempotent | frontend/components/form-builder.tsx:89-106 | Saving what was saved sends the same list. |
| CreatePage.TagList | frontend/app/organizer/create/page.tsx:95 | Every tag is trimmed and non-empty. |
| CreatePage.Submit | frontend/app/organizer/create/page.tsx:58-105 | Refused exactly when a date is missing. Otherwise: limit 100 for a missing or zero limit, description `''`, tags split/trimmed/filtered, and fee (default 0) only for Normal events. |
| CreatePage.SubmittedTags | frontend/app/organizer/create/page.tsx:95 | The tags sent are the tag list of the input. |
| CreatePage.TagListJoin | frontend/app/organizer/create/page.tsx:95 | Trimmed, non-empty, comma-free tags survive joining and splitting. |
| CreatePage.BlankTagsSendNothing | frontend/app/organizer/create/page.tsx:95 | A blank input sends no tags. |
| ProfilePage.FollowingIds | frontend/app/profile/page.tsx:23-26 | Empty without a profile or a list. Otherwise one id per entry, in order. |
| ProfilePage.BareIdsRoundTrip | frontend/app/profile/page.tsx:23-26 | Unpopulated references give back the stored ids. |
| ProfilePage.FollowedOrgs | frontend/app/profile/page.tsx:103-104 | Exactly the listed clubs whose id is followed. |
| ProfilePage.UnfollowHidesClub | frontend/app/profile/page.tsx:103-104 | After a follow toggle, the page shows the club exactly when the list still has it. |
| ProfilePage.ToggleInterest | frontend/app/profile/page.tsx:85-94 | Removes every occurrence of a listed interest, or appends an unlisted one. |
| ProfilePage.ToggleInterestFlips | frontend/app/profile/page.tsx:85-94 | The interest is listed afterwards exactly when it was not before. Other interests keep their counts. |
| ProfilePage.ToggleInterestTwice | frontend/app/profile/page.tsx:85-94 | Toggling an unlisted interest twice restores the list. Toggling a listed one twice moves it to the end. |
| ProfilePage.InterestToggleMatchesFollowToggle | frontend/app/profile/page.tsx:85-94 | On lists without repeats, the page's toggle is the follow toggle. |
| ProfilePage.HandleSubmit | frontend/app/profile/page.tsx:277-305 | The mismatch check comes first, then the length check in UTF-16 code units; either stops the request. On success all three fields are reset. A server error is shown. |
| ProfilePage.SentPasswordPassesServerRule | frontend/app/profile/page.tsx:285-296 | A password that the page sends never fails the server's length rule. |
| ProfilePage.MismatchReportedFirst | frontend/app/profile/page.tsx:281-288 | A short mismatched password is reported as a mismatch. |
| Text.RemoveAllSpec | frontend/app/profile/page.tsx:87 | `filter(v => v !== x)` drops every `x` and keeps every other element as often as the input has it; the result is shorter by the number of `x`s. |
| Text.RemoveAllAppend | frontend/app/profile/page.tsx:87 | The filter distributes over concatenation, so the kept elements stay in input order. |
| Text.TrimEmptyIffBlank | frontend/components/form-builder.tsx:91 | A string trims to empty exactly when it is all whitespace. |
| Text.Utf16Length | frontend/app/profile/page.tsx:285 | A string's `length` counts UTF-16 code units: between one and two per character. |
| Text.Utf16LengthAppend | backend/src/schemas/user.ts:7-39 | Lengths add up over concatenation. |
| Text.BmpUtf16Length | backend/src/schemas/user.ts:7-39 | Below U+10000 every character is one unit, so the length is the character count. |
| Text.EmojiCountTwice | backend/src/schemas/user.ts:11 | Four emoji are four characters but eight units, so they meet an eight-character minimum. |
| Text.SplitJoin | frontend/app/organizer/create/page.tsx:95 | `split` undoes `join` when no piece contains the separator. |
| Sorting.SortBy | backend/src/controllers/registration.ts:85 | The result is in ascending key order. |
| Sorting.SortByStable | backend/src/controllers/registration.ts:85 | Stability: the elements with any one key come out in their input order. |
| Sorting.InsertStable | backend/src/controllers/registration.ts:85 | Inserting into a sorted list puts the new element ahead of every element with the same key, and keeps their order. |
| Sorting.SortByMembers | backend/src/controllers/registration.ts:85 | Sorting only permutes: the same elements go in and come out. |
| Sorting.CountWherePermutation | backend/src/controllers/attendance.ts:99-100 | Counting does not depend on order. |

## Left out

- The I/O and infrastructure are not part of this model: the HTTP layer, Mongoose, JWT, GridFS, the routes and the database connection. `populate` becomes a map from organizer id to club name, or from user id to account.
- Concurrency is left out. `registerevent` reads regcount and writes it in separate steps (registration.ts:29 and :54), so two parallel registrations can overrun the limit. The model is sequential.
- Payment upload and payment status, per-variant stock, `getticket`, `getmyregistrations` and `exportallregistrations` are not part of this model. The routes import them, but backend/src/controllers/registration.ts does not define them.
- The imported schemas `createventschema`, `updateventschema`, `formschema` and `registerschema` are not part of this model. The bodies are taken as already validated. `Schemas` models only the schemas that backend/src/schemas/user.ts and backend/src/schemas/event.ts define.
- The participant schema says `External` where the stored enum says `Non-IIIT`. Both are kept as written, and `Schemas.ExternalIsNotStored` records the difference.
- Ids are well-formed ObjectIds (`Id` is any string). A malformed id in a route parameter, a body or a filter makes Mongoose throw a CastError, which each handler's catch answers with 500; this path is not modelled, so for such an id the model answers 404, an empty list or Ok where the server answers 500.
- E-mail syntax (`z.email()`), bcrypt hash/compare, the clock, the ticket generator and `toISOString` are parameters.
- The regex search is modelled as case-insensitive substring search with ASCII case folding only. The full Unicode folding of `i` regexes is left out.
- Browse: `Number(limit)`/`Number(skip)` of a non-numeric string (NaN) is left out. The parameters arrive as optional integers.
- Trending: `$group` output order is unspecified in MongoDB. It is modelled as the order of first appearance, and the sort is stable.
- Schema numbers are reals, so `int()` is a test of integrality. Event documents store integers.
- Calendar: `downloadIcs` (DOM), the Google/Outlook link builders and `formatGoogleDate` are left out. The export takes one DTSTAMP string as a parameter instead of calling `new Date()` per event.
- Create page: `setHours` and time-zone handling of dates are left out. The dates arrive as optional timestamps.
- FormBuilder.MoveField: requires an in-range index and a direction of ±1. The page only calls it from a rendered field's buttons.
- FormBuilder.AddOption, FormBuilder.UpdateOption and FormBuilder.RemoveOption: require an in-range field index, for the same reason.
- FormBuilder.UpdateOption: also requires an in-range option index. The page only calls it from a rendered option's input, and the model does not promise what writing past the end of the options array would give.
- EventMiddleware.CanEditEvent: JSON numbers are integers and converted strings are exact rationals, not doubles. Rounding of long numerals and overflow to `Infinity` are not modelled, so a numeral that a double would round across regcount may be judged differently.
- Registrations.ExportParticipants and Attendance.ExportAttendance: write with the corrected escape `Csv.EscapeRfc`, not the escape as written (see Findings). When no value needs quoting the two writers give the same text (`Csv.PlainRowsAgree`).
- Text.RemoveAll: its contract is the separate lemma `Text.RemoveAllSpec`.
- Browse.BrowseEvents and Browse.Paginate carry no contract of their own. Their properties are stated by the page lemmas `Browse.VisitorsSeePublishedOnly`, `Browse.OrganizersSeeOwnEvents` and `Browse.PageHasNoDuplicates`, and by `Browse.PageWindow`/`Browse.PagesTile` over the slice.
- The rest of the frontend (other pages, layouts, hooks, type declarations) is not part of this model, and neither is the password-reset workflow.

## Findings

| source | as written | input that shows it | evidently intended | confidence | as-written member | corrected member |
|---|---|---|---|---|---|---|
| backend/src/util/csv.ts:5-7 | a value containing `,`, `"` or a newline is written as `"` + value with quotes doubled, with no closing quote | a one-column export of the single row `a,⏎b` gives the same text as one of the two rows `a,` and `b` | the field is enclosed in a pair of quotes (section 2 of RFC 4180), so the export reads back as its data | not executed | Csv.Escape, Csv.AsWrittenExportCollides, Csv.CollisionExample | Csv.EscapeRfc, Csv.RfcTableRoundTrip |

=== FILE: attendance.dfy ===
/** The attendance controller: scanning a ticket, the manual check-in and
    override with its reason, the statistics of an event and the attendance
    export. The clock (`now`) and the acting organizer are inputs. */
module Attendance {
  import opened Common
  import opened Models
  import opened Sorting
  import Csv
  import opened EventMiddleware
  import opened Registrations

  /** The refusals of the two check-in handlers. */
  datatype CheckinError =
    | TicketRequired                            // 400 scan: no ticket id
    | TicketAndReasonRequired                   // 400 manual: ticket id or reason missing
    | TicketNotFound                            // 404
    | WrongEvent                                // 400 ticket does not belong to this event
    | BadStatus(status: RegStatus)              // 400 scan: neither Registered nor Purchased
    | AlreadyCheckedIn(checkinat: Option<Timestamp>) // 409 scan: with the first check-in time
  {
    function Code(): int
    {
      match this
      case TicketNotFound => 404
      case AlreadyCheckedIn(_) => 409
      case _ => 400
    }
  }

  /** A successful check-in: the updated registrations, the ticket, its
      check-in time, and whether it overrode an earlier check-in. */
  datatype CheckedIn = CheckedIn(regs: seq<Registration>, ticketid: string, checkinat: Timestamp, isOverride: bool)

  /** A scan admits `Registered` and `Purchased` tickets only. */
  predicate Scannable(s: RegStatus)
  {
    s == Registered || s == Purchased
  }

  /** `checkinticket`: the first check-in of a valid ticket of this event. */
  function Scan(regs: seq<Registration>, eventId: Id, ticketid: Option<string>, caller: Id, now: Timestamp): (r: Result<CheckedIn, CheckinError>)
    ensures !GivenText(ticketid) <==> r == Err(TicketRequired)
    ensures GivenText(ticketid) ==>
      var i := TicketIndex(regs, ticketid.value);
      && (i == -1 <==> r == Err(TicketNotFound))
      && (i >= 0 ==>
            && (r == Err(WrongEvent) <==> regs[i].event != eventId)
            && (r.Err? && r.error.BadStatus? <==> regs[i].event == eventId && !Scannable(regs[i].status))
            && (r.Err? && r.error.AlreadyCheckedIn? <==> regs[i].event == eventId && Scannable(regs[i].status) && regs[i].checkin)
            && (r.Err? && r.error.AlreadyCheckedIn? ==> r.error.checkinat == regs[i].checkinat)
            && (r.Ok? <==> regs[i].event == eventId && Scannable(regs[i].status) && !regs[i].checkin))
    ensures r.Ok? ==>
      var i := TicketIndex(regs, ticketid.value);
      && |r.value.regs| == |regs|
      && (forall k :: 0 <= k < |regs| && k != i ==> r.value.regs[k] == regs[k])
      && r.value.regs[i].checkin && r.value.regs[i].checkinat == Some(now)
      && r.value.regs[i].checkinlog == regs[i].checkinlog + [CheckinEntry(CheckinAction.Scan, None, caller, now)]
      && r.value.regs[i] == regs[i].(checkin := true, checkinat := Some(now), checkinlog := r.value.regs[i].checkinlog)
      && r.value.ticketid == ticketid.value && r.value.checkinat == now && !r.value.isOverride
  {
    if !GivenText(ticketid) then Err(TicketRequired)
    else
      var i := TicketIndex(regs, ticketid.value);
      if i == -1 then Err(TicketNotFound)
      else
        var reg := regs[i];
        if reg.event != eventId then Err(WrongEvent)
        else if !Scannable(reg.status) then Err(BadStatus(reg.status))
        else if reg.checkin then Err(AlreadyCheckedIn(reg.checkinat))
        else
          var reg' := reg.(checkin := true, checkinat := Some(now),
                           checkinlog := reg.checkinlog + [CheckinEntry(CheckinAction.Scan, None, caller, now)]);
          Ok(CheckedIn(regs[i := reg'], reg.ticketid, now, false))
  }

  /** `manualcheckin`: checks in whatever the status, keeps an earlier
      check-in time, and logs the reason as a check-in or, for a ticket
      already checked in, an override. */
  function Manual(regs: seq<Registration>, eventId: Id, ticketid: Option<string>, reason: Option<string>, caller: Id, now: Timestamp): (r: Result<CheckedIn, CheckinError>)
    ensures !(GivenText(ticketid) && GivenText(reason)) <==> r == Err(TicketAndReasonRequired)
    ensures GivenText(ticketid) && GivenText(reason) ==>
      var i := TicketIndex(regs, ticketid.value);
      && (i == -1 <==> r == Err(TicketNotFound))
      && (i >= 0 ==> (r == Err(WrongEvent) <==> regs[i].event != eventId))
      && (r.Ok? <==> i >= 0 && regs[i].event == eventId)
    ensures r.Ok? ==>
      var i := TicketIndex(regs, ticketid.value);
      var action := if regs[i].checkin then ManualOverride else ManualCheckin;
      && |r.value.regs| == |regs|
      && (forall k :: 0 <= k < |regs| && k != i ==> r.value.regs[k] == regs[k])
      && r.value.regs[i].checkin
      && (regs[i].checkinat.Some? ==> r.value.regs[i].checkinat == regs[i].checkinat)
      && (regs[i].checkinat.None? ==> r.value.regs[i].checkinat == Some(now))
      && r.value.regs[i].checkinlog == regs[i].checkinlog + [CheckinEntry(action, reason, caller, now)]
      && r.value.regs[i] == regs[i].(checkin := true, checkinat := r.value.regs[i].checkinat, checkinlog := r.value.regs[i].checkinlog)
      && r.value.isOverride == regs[i].checkin
      && Some(r.value.checkinat) == r.value.regs[i].checkinat
  {
    if !GivenText(ticketid) || !GivenText(reason) then Err(TicketAndReasonRequired)
    else
      var i := TicketIndex(regs, ticketid.value);
      if i == -1 then Err(TicketNotFound)
      else
        var reg := regs[i];
        if reg.event != eventId then Err(WrongEvent)
        else
          var at := if reg.checkinat.Some? then reg.checkinat.value else now;
          var action := if reg.checkin then ManualOverride else ManualCheckin;
          var reg' := reg.(checkin := true, checkinat := Some(at),
                           checkinlog := reg.checkinlog + [CheckinEntry(action, reason, caller, now)]);
          Ok(CheckedIn(regs[i := reg'], reg.ticketid, at, reg.checkin))
  }

  /** Both handlers leave the ticket ids where they were, so lookups by
      ticket find the same registration afterwards. */
  lemma {:induction false} SameTicketsSameIndex(a: seq<Registration>, b: seq<Registration>, t: string)
    requires |a| == |b|
    requires forall k :: 0 <= k < |a| ==> a[k].ticketid == b[k].ticketid
    ensures TicketIndex(a, t) == TicketIndex(b, t)
  {
    if |a| > 0 {
      SameTicketsSameIndex(a[1..], b[1..], t);
    }
  }

  /** A ticket scans once: scanning it again is refused with 409 and the time
      of the first scan. */
  lemma ScanTwiceConflicts(regs: seq<Registration>, eventId: Id, ticketid: Option<string>, c1: Id, t1: Timestamp, c2: Id, t2: Timestamp)
    requires Scan(regs, eventId, ticketid, c1, t1).Ok?
    ensures Scan(Scan(regs, eventId, ticketid, c1, t1).value.regs, eventId, ticketid, c2, t2) == Err(AlreadyCheckedIn(Some(t1)))
  {
    var regs' := Scan(regs, eventId, ticketid, c1, t1).value.regs;
    SameTicketsSameIndex(regs, regs', ticketid.value);
  }

  /** A manual entry after a scan is an override that keeps the scan time. */
  lemma ManualAfterScanOverrides(regs: seq<Registration>, eventId: Id, ticketid: Option<string>, reason: Option<string>,
                                 c1: Id, t1: Timestamp, c2: Id, t2: Timestamp)
    requires Scan(regs, eventId, ticketid, c1, t1).Ok?
    requires GivenText(reason)
    ensures var m := Manual(Scan(regs, eventId, ticketid, c1, t1).value.regs, eventId, ticketid, reason, c2, t2);
      m.Ok? && m.value.isOverride && m.value.checkinat == t1
  {
    var regs' := Scan(regs, eventId, ticketid, c1, t1).value.regs;
    SameTicketsSameIndex(regs, regs', ticketid.value);
  }

  /** The check-in log is append-only: a scan keeps every earlier entry of
      every registration and adds exactly one. */
  lemma ScanLogAppendOnly(regs: seq<Registration>, eventId: Id, ticketid: Option<string>, caller: Id, now: Timestamp)
    requires Scan(regs, eventId, ticketid, caller, now).Ok?
    ensures var regs' := Scan(regs, eventId, ticketid, caller, now).value.regs;
      && |regs'| == |regs|
      && (forall k :: 0 <= k < |regs| ==> regs[k].checkinlog <= regs'[k].checkinlog)
      && SumLog(regs') == SumLog(regs) + 1
  {
    var regs' := Scan(regs, eventId, ticketid, caller, now).value.regs;
    LogGrowsByOne(regs, regs', TicketIndex(regs, ticketid.value));
  }

  /** The same holds for a manual check-in or override. */
  lemma ManualLogAppendOnly(regs: seq<Registration>, eventId: Id, ticketid: Option<string>, reason: Option<string>, caller: Id, now: Timestamp)
    requires Manual(regs, eventId, ticketid, reason, caller, now).Ok?
    ensures var regs' := Manual(regs, eventId, ticketid, reason, caller, now).value.regs;
      && |regs'| == |regs|
      && (forall k :: 0 <= k < |regs| ==> regs[k].checkinlog <= regs'[k].checkinlog)
      && SumLog(regs') == SumLog(regs) + 1
  {
    var regs' := Manual(regs, eventId, ticketid, reason, caller, now).value.regs;
    LogGrowsByOne(regs, regs', TicketIndex(regs, ticketid.value));
  }

  lemma LogGrowsByOne(regs: seq<Registration>, regs': seq<Registration>, i: int)
    requires 0 <= i < |regs| == |regs'|
    requires forall k :: 0 <= k < |regs| && k != i ==> regs'[k] == regs[k]
    requires |regs'[i].checkinlog| == |regs[i].checkinlog| + 1 && regs[i].checkinlog <= regs'[i].checkinlog
    ensures forall k :: 0 <= k < |regs| ==> regs[k].checkinlog <= regs'[k].checkinlog
    ensures SumLog(regs') == SumLog(regs) + 1
  {
    assert regs' == regs[i := regs'[i]];
    SumLogUpdate(regs, i, regs'[i]);
  }

  /** The number of log entries across all registrations. */
  function SumLog(regs: seq<Registration>): nat
  {
    if |regs| == 0 then 0 else |regs[0].checkinlog| + SumLog(regs[1..])
  }

  lemma {:induction false} SumLogUpdate(regs: seq<Registration>, i: nat, x: Registration)
    requires i < |regs|
    ensures SumLog(regs[i := x]) == SumLog(regs) - |regs[i].checkinlog| + |x.checkinlog|
  {
    if i > 0 {
      assert regs[i := x][1..] == regs[1..][i - 1 := x];
      SumLogUpdate(regs[1..], i - 1, x);
    }
  }

  // ---------------------------------------------------------------------
  // Statistics and export

  function CheckedInFor(eventId: Id): Registration -> bool
  {
    (r: Registration) => r.event == eventId && Active(r.status) && r.checkin
  }

  function IsCheckedIn(r: Registration): bool
  {
    r.checkin
  }

  /** `find({ event, status: { $in: active } }).sort({ createdAt: 1 })`. */
  function ActiveRegs(regs: seq<Registration>, eventId: Id): (r: seq<Registration>)
    ensures forall x :: x in r <==> x in regs && x.event == eventId && Active(x.status)
    ensures forall i, j :: 0 <= i < j < |r| ==> r[i].createdAt <= r[j].createdAt
    ensures |r| == CountWhere(regs, ActiveFor(eventId))
    ensures CountWhere(r, IsCheckedIn) == CountWhere(regs, CheckedInFor(eventId))
  {
    var kept := Filter(regs, ActiveFor(eventId));
    var sorted := SortBy(kept, (x: Registration) => x.createdAt);
    CountWhereFilterSize(regs, ActiveFor(eventId));
    assert forall x :: x in sorted <==> x in kept by {
      forall x { SortByMembers(kept, (x: Registration) => x.createdAt, x); }
    }
    CountWherePermutation(sorted, kept, IsCheckedIn);
    CountWhereFilter(regs, ActiveFor(eventId), IsCheckedIn, CheckedInFor(eventId));
    sorted
  }

  datatype StatsEntry = StatsEntry(ticketid: string, user: Id, checkin: bool, checkinat: Option<Timestamp>, status: RegStatus)

  datatype Stats = Stats(total: nat, checkedin: nat, participants: seq<StatsEntry>)

  function StatsEntryOf(r: Registration): StatsEntry
  {
    StatsEntry(r.ticketid, r.user, r.checkin, r.checkinat, r.status)
  }

  function StatsEntries(regs: seq<Registration>): (r: seq<StatsEntry>)
    ensures |r| == |regs|
    ensures forall i :: 0 <= i < |regs| ==> r[i] == StatsEntryOf(regs[i])
  {
    if |regs| == 0 then [] else [StatsEntryOf(regs[0])] + StatsEntries(regs[1..])
  }

  /** An entry is listed exactly when it is the entry of a listed
      registration. */
  lemma StatsEntriesMembers(regs: seq<Registration>)
    ensures forall x :: x in regs ==> StatsEntryOf(x) in StatsEntries(regs)
    ensures forall p :: p in StatsEntries(regs) ==> exists x :: x in regs && p == StatsEntryOf(x)
  {
    var entries := StatsEntries(regs);
    forall x | x in regs ensures StatsEntryOf(x) in entries {
      var i :| 0 <= i < |regs| && regs[i] == x;
      assert entries[i] == StatsEntryOf(x);
    }
    forall p | p in entries ensures exists x :: x in regs && p == StatsEntryOf(x) {
      var i :| 0 <= i < |entries| && entries[i] == p;
      assert regs[i] in regs;
    }
  }

  /** `attendancestats`: for the event's organizer, the number of active
      registrations, how many of them are checked in, and one entry each. */
  function AttendanceStats(db: Db, eventId: Id, caller: Id): (r: Result<Stats, AccessError>)
    ensures r.Err? <==> OwnEvent(db.events, eventId, caller).Err?
    ensures r.Err? ==> r.error == OwnEvent(db.events, eventId, caller).error
    ensures r.Ok? ==>
      && r.value.total == CountWhere(db.regs, ActiveFor(eventId))
      && r.value.checkedin == CountWhere(db.regs, CheckedInFor(eventId))
      && r.value.checkedin <= r.value.total
      && |r.value.participants| == r.value.total
      && r.value.participants == StatsEntries(ActiveRegs(db.regs, eventId))
      && (forall x :: x in db.regs && x.event == eventId && Active(x.status) ==> StatsEntryOf(x) in r.value.participants)
      && (forall p :: p in r.value.participants ==>
            exists x :: x in db.regs && x.event == eventId && Active(x.status) && p == StatsEntryOf(x))
  {
    match OwnEvent(db.events, eventId, caller)
    case Err(e) => Err(e)
    case Ok(_) =>
      var regs := ActiveRegs(db.regs, eventId);
      var entries := StatsEntries(regs);
      StatsEntriesMembers(regs);
      CountWhereAtMost(regs, IsCheckedIn);
      Ok(Stats(|regs|, CountWhere(regs, IsCheckedIn), entries))
  }

  /** A successful scan adds one to the event's checked-in count and leaves
      its total alone. */
  lemma ScanCountsOnce(regs: seq<Registration>, eventId: Id, ticketid: Option<string>, caller: Id, now: Timestamp)
    requires Scan(regs, eventId, ticketid, caller, now).Ok?
    ensures var regs' := Scan(regs, eventId, ticketid, caller, now).value.regs;
      && CountWhere(regs', CheckedInFor(eventId)) == CountWhere(regs, CheckedInFor(eventId)) + 1
      && CountWhere(regs', ActiveFor(eventId)) == CountWhere(regs, ActiveFor(eventId))
  {
    var i := TicketIndex(regs, ticketid.value);
    var regs' := Scan(regs, eventId, ticketid, caller, now).value.regs;
    assert regs' == regs[i := regs'[i]];
    CountWhereUpdate(regs, i, regs'[i], CheckedInFor(eventId));
    CountWhereUpdate(regs, i, regs'[i], ActiveFor(eventId));
  }

  /** A manual check-in adds one to the checked-in count exactly when the
      registration holds a place and was not checked in yet. */
  lemma ManualCounts(regs: seq<Registration>, eventId: Id, ticketid: Option<string>, reason: Option<string>, caller: Id, now: Timestamp)
    requires Manual(regs, eventId, ticketid, reason, caller, now).Ok?
    ensures var i := TicketIndex(regs, ticketid.value);
      var regs' := Manual(regs, eventId, ticketid, reason, caller, now).value.regs;
      && CountWhere(regs', CheckedInFor(eventId)) ==
           CountWhere(regs, CheckedInFor(eventId)) + (if Active(regs[i].status) && !regs[i].checkin then 1 else 0)
      && CountWhere(regs', ActiveFor(eventId)) == CountWhere(regs, ActiveFor(eventId))
  {
    var i := TicketIndex(regs, ticketid.value);
    var regs' := Manual(regs, eventId, ticketid, reason, caller, now).value.regs;
    assert regs' == regs[i := regs'[i]];
    CountWhereUpdate(regs, i, regs'[i], CheckedInFor(eventId));
    CountWhereUpdate(regs, i, regs'[i], ActiveFor(eventId));
  }

  const AttendanceHeaders: seq<string> :=
    ["ticketid", "firstname", "lastname", "email", "status", "checkin", "checkinat", "registeredat"]

  /** The values of one attendance row; a missing check-in time is empty. */
  function AttendanceRecord(r: Registration, u: Participant, iso: Timestamp -> string): (rec: seq<string>)
    ensures |rec| == |AttendanceHeaders|
  {
    [r.ticketid, u.firstName, u.lastName, u.email, RegStatusName(r.status), YesNo(r.checkin),
     if r.checkinat.Some? then iso(r.checkinat.value) else "", iso(r.createdAt)]
  }

  function AttendanceRecords(regs: seq<Registration>, users: map<Id, Participant>, iso: Timestamp -> string): (recs: seq<seq<string>>)
    requires UsersPresent(regs, users)
    ensures |recs| == |regs|
    ensures forall i :: 0 <= i < |regs| ==> recs[i] == AttendanceRecord(regs[i], users[regs[i].user], iso)
  {
    if |regs| == 0 then [] else [AttendanceRecord(regs[0], users[regs[0].user], iso)] + AttendanceRecords(regs[1..], users, iso)
  }

  /** `exportattendance`: the CSV of the active registrations, oldest first,
      written with the closing quote the exporter's escape omits. */
  function ExportAttendance(db: Db, users: map<Id, Participant>, eventId: Id, caller: Id, iso: Timestamp -> string): (r: Result<string, ExportError>)
    ensures OwnEvent(db.events, eventId, caller).Err? ==> r == Err(Access(OwnEvent(db.events, eventId, caller).error))
    ensures OwnEvent(db.events, eventId, caller).Ok? ==>
      (r.Ok? <==> UsersPresent(ActiveRegs(db.regs, eventId), users))
  {
    match OwnEvent(db.events, eventId, caller)
    case Err(e) => Err(Access(e))
    case Ok(_) =>
      var regs := ActiveRegs(db.regs, eventId);
      if UsersPresent(regs, users) then Ok(AttendanceCsv(regs, users, iso))
      else Err(ServerError)
  }

  function AttendanceCsv(regs: seq<Registration>, users: map<Id, Participant>, iso: Timestamp -> string): string
    requires UsersPresent(regs, users)
  {
    Csv.ToCsvRfc(Csv.RowsOf(AttendanceHeaders, AttendanceRecords(regs, users, iso)), AttendanceHeaders)
  }

  lemma AttendanceHeadersPlain()
    ensures Csv.DistinctHeaders(AttendanceHeaders)
    ensures forall j :: 0 <= j < |AttendanceHeaders| ==> !Csv.NeedsQuoting(AttendanceHeaders[j])
  {
  }

  /** The attendance export reads back as its header row and one record per
      active registration, oldest first, whatever the values hold. */
  lemma ExportAttendanceReadsBack(db: Db, users: map<Id, Participant>, eventId: Id, caller: Id, iso: Timestamp -> string)
    requires ExportAttendance(db, users, eventId, caller, iso).Ok?
    requires UsersPresent(ActiveRegs(db.regs, eventId), users)
    ensures Csv.ParseTable(ExportAttendance(db, users, eventId, caller, iso).value) ==
      [AttendanceHeaders] + AttendanceRecords(ActiveRegs(db.regs, eventId), users, iso)
  {
    AttendanceCsvReadsBack(ActiveRegs(db.regs, eventId), users, iso);
  }

  lemma AttendanceCsvReadsBack(regs: seq<Registration>, users: map<Id, Participant>, iso: Timestamp -> string)
    requires UsersPresent(regs, users)
    ensures Csv.ParseTable(AttendanceCsv(regs, users, iso)) == [AttendanceHeaders] + AttendanceRecords(regs, users, iso)
  {
    AttendanceHeadersPlain();
    Csv.RecordsReadBack(AttendanceHeaders, AttendanceRecords(regs, users, iso));
  }
}

=== FILE: browse.dfy ===
/** `browseevents`: the query built from the viewer and the query-string
    parameters, the escaped case-insensitive name search, the merge with
    organizer-name matches, and pagination by `Array.prototype.slice`. */
module Browse {
  import opened Common
  import opened Models
  import opened Sorting
  import opened Text
  import opened Events

  // ---------------------------------------------------------------------
  // The search escape

  /** The characters `/[.*+?^${}()|[\]\\]/` matches. */
  predicate RegexSpecial(c: char)
  {
    c in ".*+?^${}()|[]\\"
  }

  /** `search.replace(/[.*+?^${}()|[\]\\]/g, '\\$&')`. */
  function EscapeRegex(s: string): (r: string)
    ensures LiteralPattern(r)
    ensures Unescape(r) == s
    ensures (forall i :: 0 <= i < |s| ==> !RegexSpecial(s[i])) ==> r == s
  {
    if |s| == 0 then ""
    else
      var rest := EscapeRegex(s[1..]);
      if RegexSpecial(s[0]) then
        var r := ['\\', s[0]] + rest;
        assert r[2..] == rest;
        r
      else
        var r := [s[0]] + rest;
        assert r[1..] == rest;
        r
  }

  /** A pattern made of ordinary characters and backslash-escaped special
      ones: it has no operator, so it matches exactly one literal text. */
  predicate LiteralPattern(p: string)
    decreases |p|
  {
    if |p| == 0 then true
    else if p[0] == '\\' then |p| >= 2 && RegexSpecial(p[1]) && LiteralPattern(p[2..])
    else !RegexSpecial(p[0]) && LiteralPattern(p[1..])
  }

  /** The literal text a literal pattern stands for. */
  function Unescape(p: string): string
    decreases |p|
  {
    if |p| == 0 then ""
    else if p[0] == '\\' && |p| >= 2 then [p[1]] + Unescape(p[2..])
    else [p[0]] + Unescape(p[1..])
  }

  /** `new RegExp(p, 'i').test(text)` for a literal pattern: its text occurs
      in `text`, ignoring case. */
  predicate RegexTest(p: string, text: string)
    requires LiteralPattern(p)
  {
    Contains(Lower(text), Lower(Unescape(p)))
  }

  /** Escaping turns any search into a literal one: the escaped pattern
      matches a name exactly when the name contains the search text, case
      aside, whatever characters the search holds. */
  lemma SearchIsLiteral(search: string, text: string)
    ensures RegexTest(EscapeRegex(search), text) <==> Contains(Lower(text), Lower(search))
  {
  }

  /** Different searches give different patterns. */
  lemma EscapeRegexInjective(a: string, b: string)
    requires EscapeRegex(a) == EscapeRegex(b)
    ensures a == b
  {
    assert Unescape(EscapeRegex(a)) == a;
  }

  // ---------------------------------------------------------------------
  // The query

  /** The query-string parameters; an absent or empty string is falsy.
      `dateFrom`/`dateTo` are given as parsed times. */
  datatype BrowseParams = BrowseParams(
    kind: Option<string>,
    status: Option<string>,
    search: Option<string>,
    tags: Option<string>,
    organizer: Option<string>,
    eligibility: Option<string>,
    dateFrom: Option<Timestamp>,
    dateTo: Option<Timestamp>,
    following: Option<string>,
    limit: Option<int>,
    skip: Option<int>)

  datatype OrgFilter = AnyOrg | OrgIs(id: Id) | OrgIn(ids: seq<Id>)

  /** The Mongo filter, name search apart. */
  datatype Query = Query(
    status: Option<string>,
    orgs: OrgFilter,
    kind: Option<string>,
    eligibility: Option<string>,
    tags: Option<seq<string>>,
    from: Option<Timestamp>,
    to: Option<Timestamp>)

  predicate IsOrganizer(v: Viewer)
  {
    v.SignedIn? && v.isOrganizer
  }

  function OptText(s: Option<string>): Option<string>
  {
    if GivenText(s) then s else None
  }

  /** Building the filter: visitors see published events only; an organizer
      sees their own, of the given status if one is given; an `organizer`
      parameter and then a `following` list replace the organizer
      constraint. */
  function BuildQuery(v: Viewer, p: BrowseParams): (q: Query)
    ensures !IsOrganizer(v) ==> q.status == Some("published")
    ensures IsOrganizer(v) ==> q.status == OptText(p.status)
    ensures GivenText(p.following) ==> q.orgs == OrgIn(Split(p.following.value, ','))
    ensures !GivenText(p.following) && GivenText(p.organizer) ==> q.orgs == OrgIs(p.organizer.value)
    ensures !GivenText(p.following) && !GivenText(p.organizer) ==>
      q.orgs == (if IsOrganizer(v) then OrgIs(v.id) else AnyOrg)
    ensures q.tags == (if GivenText(p.tags) then Some(Split(p.tags.value, ',')) else None)
    ensures q.kind == OptText(p.kind) && q.eligibility == OptText(p.eligibility)
    ensures q.from == p.dateFrom && q.to == p.dateTo
  {
    var status := if IsOrganizer(v) then OptText(p.status) else Some("published");
    var orgs :=
      if GivenText(p.following) then OrgIn(Split(p.following.value, ','))
      else if GivenText(p.organizer) then OrgIs(p.organizer.value)
      else if IsOrganizer(v) then OrgIs(v.id)
      else AnyOrg;
    var tags := if GivenText(p.tags) then Some(Split(p.tags.value, ',')) else None;
    Query(status, orgs, OptText(p.kind), OptText(p.eligibility), tags, p.dateFrom, p.dateTo)
  }

  function KindName(k: EventKind): string
  {
    if k.Normal? then "Normal" else "Merchandise"
  }

  predicate OrgMatches(f: OrgFilter, org: Id)
  {
    match f
    case AnyOrg => true
    case OrgIs(id) => org == id
    case OrgIn(ids) => org in ids
  }

  /** `tags: { $in: list }` on an array field: some tag is listed. */
  predicate SomeTagIn(tags: seq<string>, list: seq<string>)
  {
    exists i :: 0 <= i < |tags| && tags[i] in list
  }

  /** An event satisfies every constraint of the filter. */
  predicate Matches(q: Query, e: Event)
  {
    && (q.status.Some? ==> StatusName(e.status) == q.status.value)
    && OrgMatches(q.orgs, e.organizer)
    && (q.kind.Some? ==> KindName(e.kind) == q.kind.value)
    && (q.eligibility.Some? ==> e.eligibility == q.eligibility.value)
    && (q.tags.Some? ==> SomeTagIn(e.tags, q.tags.value))
    && (q.from.Some? ==> e.dates.start >= q.from.value)
    && (q.to.Some? ==> e.dates.start <= q.to.value)
  }

  function QueryFilter(q: Query): Event -> bool
  {
    (e: Event) => Matches(q, e)
  }

  /** The filter with the `$regex` name constraint added. */
  function NameFilter(q: Query, pattern: string): Event -> bool
    requires LiteralPattern(pattern)
  {
    (e: Event) => Matches(q, e) && RegexTest(pattern, e.name)
  }

  function Start(e: Event): int
  {
    e.dates.start
  }

  /** `org?.name && regex.test(org.name)` for the populated organizer. */
  predicate OrgNameHit(orgNames: map<Id, string>, pattern: string, e: Event)
    requires LiteralPattern(pattern)
  {
    e.organizer in orgNames && |orgNames[e.organizer]| > 0 && RegexTest(pattern, orgNames[e.organizer])
  }

  function OrgNameFilter(orgNames: map<Id, string>, pattern: string): Event -> bool
    requires LiteralPattern(pattern)
  {
    (e: Event) => OrgNameHit(orgNames, pattern, e)
  }

  // ---------------------------------------------------------------------
  // The merge

  /** Append each event of `ys` whose id is not yet present, in order. */
  function MergeById(acc: seq<Event>, ys: seq<Event>): (r: seq<Event>)
    ensures |acc| <= |r| && r[..|acc|] == acc
    ensures forall e :: e in r ==> e in acc || e in ys
    ensures forall j :: 0 <= j < |ys| ==> HasId(r, ys[j].id)
    ensures forall k :: |acc| <= k < |r| ==> !HasId(acc, r[k].id)
    ensures UniqueEventIds(acc) ==> UniqueEventIds(r)
    decreases |ys|
  {
    if |ys| == 0 then acc
    else if HasId(acc, ys[0].id) then
      var r := MergeById(acc, ys[1..]);
      MergeSkipStep(acc, ys, r);
      r
    else
      var r := MergeById(acc + [ys[0]], ys[1..]);
      MergeAddStep(acc, ys, r);
      r
  }

  /** The contract of `MergeById`, as one predicate for the steps below. */
  predicate MergeSpec(acc: seq<Event>, ys: seq<Event>, r: seq<Event>)
  {
    && |acc| <= |r| && r[..|acc|] == acc
    && (forall e :: e in r ==> e in acc || e in ys)
    && (forall j :: 0 <= j < |ys| ==> HasId(r, ys[j].id))
    && (forall k :: |acc| <= k < |r| ==> !HasId(acc, r[k].id))
    && (UniqueEventIds(acc) ==> UniqueEventIds(r))
  }

  /** An event whose id is already present is skipped. */
  lemma MergeSkipStep(acc: seq<Event>, ys: seq<Event>, r: seq<Event>)
    requires |ys| > 0 && HasId(acc, ys[0].id)
    requires MergeSpec(acc, ys[1..], r)
    ensures MergeSpec(acc, ys, r)
  {
    assert forall j :: 1 <= j < |ys| ==> ys[j] == ys[1..][j - 1];
    assert forall e :: e in ys[1..] ==> e in ys;
    assert forall k :: 0 <= k < |acc| ==> r[k] == acc[k];
    var k :| 0 <= k < |acc| && acc[k].id == ys[0].id;
    assert r[k] == acc[k];
  }

  /** An event with a new id is appended, and the rest merged after it. */
  lemma MergeAddStep(acc: seq<Event>, ys: seq<Event>, r: seq<Event>)
    requires |ys| > 0 && !HasId(acc, ys[0].id)
    requires MergeSpec(acc + [ys[0]], ys[1..], r)
    ensures MergeSpec(acc, ys, r)
  {
    var acc' := acc + [ys[0]];
    assert r[..|acc|] == acc by { assert r[..|acc'|] == acc'; assert acc'[..|acc|] == acc; }
    assert r[|acc|] == ys[0] by { assert r[..|acc'|] == acc'; }
    assert forall j :: 1 <= j < |ys| ==> ys[j] == ys[1..][j - 1];
    assert forall e :: e in ys[1..] ==> e in ys;
    forall k | |acc| <= k < |r|
      ensures !HasId(acc, r[k].id)
    {
      if k > |acc| {
        NoIdInPrefix(acc', r[k].id, |acc|);
      }
    }
    if UniqueEventIds(acc) {
      AppendFreshId(acc, ys[0]);
    }
  }

  lemma NoIdInPrefix(s: seq<Event>, id: Id, n: nat)
    requires n <= |s| && !HasId(s, id)
    ensures !HasId(s[..n], id)
  {
    forall k | 0 <= k < n
      ensures s[..n][k].id != id
    {
      assert s[..n][k] == s[k];
    }
  }

  /** An event of a sequence lends its id to it. */
  lemma MemberHasId(s: seq<Event>, e: Event)
    ensures e in s ==> HasId(s, e.id)
  {
    if e in s {
      var k :| 0 <= k < |s| && s[k] == e;
    }
  }

  /** What the merge appends keeps the order of `ys`. */
  lemma {:induction false} MergeTailOrder(acc: seq<Event>, ys: seq<Event>, key: Event -> int)
    requires SortedBy(ys, key)
    ensures SortedBy(MergeById(acc, ys)[|acc|..], key)
    decreases |ys|
  {
    if |ys| > 0 {
      assert SortedBy(ys[1..], key);
      if HasId(acc, ys[0].id) {
        MergeTailOrder(acc, ys[1..], key);
      } else {
        var acc' := acc + [ys[0]];
        var r := MergeById(acc', ys[1..]);
        assert r == MergeById(acc, ys);
        MergeTailOrder(acc', ys[1..], key);
        var tail := r[|acc'|..];
        forall k | 0 <= k < |tail|
          ensures key(ys[0]) <= key(tail[k])
        {
          var e := tail[k];
          assert e == r[|acc'| + k];
          MemberHasId(acc', e);
          assert e in ys[1..];
          var m :| 0 <= m < |ys[1..]| && ys[1..][m] == e;
          assert ys[m + 1] == e;
        }
        SortedCons(ys[0], tail, key);
        assert r[|acc|..] == [ys[0]] + tail by {
          assert r[..|acc'|] == acc';
          assert r[|acc|] == ys[0];
        }
      }
    }
  }

  /** Appending an event with a new id keeps ids unique. */
  lemma AppendFreshId(acc: seq<Event>, e: Event)
    requires UniqueEventIds(acc) && !HasId(acc, e.id)
    ensures UniqueEventIds(acc + [e])
  {
    var acc' := acc + [e];
    forall i, j | 0 <= i < j < |acc'|
      ensures IdOf(acc'[i]) != IdOf(acc'[j])
    {
      assert acc'[i] == acc[i];
      if j < |acc| {
        assert acc'[j] == acc[j];
      }
    }
  }

  // ---------------------------------------------------------------------
  // Pagination

  /** A `slice` argument made absolute: negatives count from the end, and
      both ends are clamped to the length. */
  function RelIndex(k: int, len: nat): (r: nat)
    ensures r <= len
    ensures 0 <= k <= len ==> r == k
    ensures k > len ==> r == len
    ensures k < 0 ==> r == (if len + k < 0 then 0 else len + k)
  {
    if k < 0 then (if len + k < 0 then 0 else len + k) else if k > len then len else k
  }

  /** `s.slice(start, end)`. */
  function SliceJs<T>(s: seq<T>, start: int, end: int): (r: seq<T>)
    ensures |r| <= |s|
    ensures RelIndex(start, |s|) < RelIndex(end, |s|) ==> r == s[RelIndex(start, |s|)..RelIndex(end, |s|)]
    ensures RelIndex(start, |s|) >= RelIndex(end, |s|) ==> r == []
    ensures forall x :: x in r ==> x in s
  {
    var a := RelIndex(start, |s|);
    var b := RelIndex(end, |s|);
    if a < b then s[a..b] else []
  }

  /** With a non-negative skip and limit the page is the window
      `[skip, skip + limit)`, clipped to the list, and holds at most `limit`
      events. */
  lemma PageWindow<T>(s: seq<T>, skip: int, limit: int)
    requires skip >= 0 && limit >= 0
    ensures |SliceJs(s, skip, skip + limit)| <= limit
    ensures skip <= |s| ==> SliceJs(s, skip, skip + limit) == s[skip..if skip + limit <= |s| then skip + limit else |s|]
    ensures skip >= |s| ==> SliceJs(s, skip, skip + limit) == []
  {
  }

  /** Consecutive pages tile the list: no event is skipped or repeated
      between page `[k, k + n)` and page `[k + n, k + n + m)`. */
  lemma PagesTile<T>(s: seq<T>, k: int, n: int, m: int)
    requires k >= 0 && n >= 0 && m >= 0
    ensures SliceJs(s, k, k + n) + SliceJs(s, k + n, k + n + m) == SliceJs(s, k, k + n + m)
  {
    var a := RelIndex(k, |s|);
    var b := RelIndex(k + n, |s|);
    var c := RelIndex(k + n + m, |s|);
    assert a <= b <= c;
    if a < b && b < c {
      assert s[a..b] + s[b..c] == s[a..c];
    }
  }

  // ---------------------------------------------------------------------
  // browseevents

  /** The events of `events` that pass `f`, by ascending start date. */
  function FindSorted(events: seq<Event>, f: Event -> bool): (r: seq<Event>)
    ensures forall e :: e in r <==> e in events && f(e)
    ensures forall i, j :: 0 <= i < j < |r| ==> r[i].dates.start <= r[j].dates.start
    ensures UniqueEventIds(events) ==> UniqueEventIds(r)
  {
    var kept := Filter(events, f);
    var sorted := SortBy(kept, Start);
    assert forall e :: e in sorted <==> e in kept by {
      forall e { SortByMembers(kept, Start, e); }
    }
    assert UniqueEventIds(events) ==> UniqueEventIds(sorted) by {
      if UniqueEventIds(events) {
        FilterDistinct(events, f, IdOf);
        SortDistinct(kept, Start, IdOf);
      }
    }
    sorted
  }

  /** With a search: the name matches by start date, then the remaining
      matches of the filter whose organizer's name matches, in start-date
      order, each id once. */
  function SearchMerge(events: seq<Event>, orgNames: map<Id, string>, q: Query, pat: string): (r: seq<Event>)
    requires LiteralPattern(pat)
    ensures forall e :: e in r ==> e in events && Matches(q, e) && (RegexTest(pat, e.name) || OrgNameHit(orgNames, pat, e))
    ensures UniqueEventIds(events) ==> UniqueEventIds(r)
  {
    var byName := FindSorted(events, NameFilter(q, pat));
    var all := FindSorted(events, QueryFilter(q));
    var orgHits := Filter(all, OrgNameFilter(orgNames, pat));
    MergeById(byName, orgHits)
  }

  /** The name matches come first, by start date; after them come only
      events whose name does not match (the organizer-name hits), again by
      start date. */
  lemma SearchMergeOrder(events: seq<Event>, orgNames: map<Id, string>, q: Query, pat: string)
    requires LiteralPattern(pat)
    ensures var r := SearchMerge(events, orgNames, q, pat);
      && (forall i, j :: 0 <= i < j < |r| && RegexTest(pat, r[j].name) ==>
            RegexTest(pat, r[i].name) && r[i].dates.start <= r[j].dates.start)
      && (forall i, j :: 0 <= i < j < |r| && !RegexTest(pat, r[i].name) ==>
            r[i].dates.start <= r[j].dates.start)
  {
    var byName := FindSorted(events, NameFilter(q, pat));
    var all := FindSorted(events, QueryFilter(q));
    var orgHits := Filter(all, OrgNameFilter(orgNames, pat));
    var r := MergeById(byName, orgHits);
    var n := |byName|;
    assert r == SearchMerge(events, orgNames, q, pat);
    assert r[..n] == byName;
    forall k | n <= k < |r|
      ensures !RegexTest(pat, r[k].name)
    {
      var e := r[k];
      MemberHasId(byName, e);
      assert e in orgHits;
      assert e in all;
    }
    forall k | 0 <= k < n
      ensures RegexTest(pat, r[k].name)
    {
      assert r[k] == byName[k];
      assert byName[k] in byName;
    }
    assert SortedBy(all, Start);
    FilterSorted(all, OrgNameFilter(orgNames, pat), Start);
    MergeTailOrder(byName, orgHits, Start);
    SortedSuffix(r, n, Start);
    forall i, j | 0 <= i < j < n
      ensures r[i].dates.start <= r[j].dates.start
    {
      assert r[i] == byName[i] && r[j] == byName[j];
    }
  }

  /** Every event that matches the filter and the search, by its name or by
      its organizer's name, is in the merged list. */
  lemma SearchMergeComplete(events: seq<Event>, orgNames: map<Id, string>, q: Query, pat: string, e: Event)
    requires LiteralPattern(pat)
    requires e in events && Matches(q, e) && (RegexTest(pat, e.name) || OrgNameHit(orgNames, pat, e))
    ensures HasId(SearchMerge(events, orgNames, q, pat), e.id)
  {
    var byName := FindSorted(events, NameFilter(q, pat));
    var all := FindSorted(events, QueryFilter(q));
    var orgHits := Filter(all, OrgNameFilter(orgNames, pat));
    var r := MergeById(byName, orgHits);
    if RegexTest(pat, e.name) {
      assert e in byName;
      var k :| 0 <= k < |byName| && byName[k] == e;
      assert r[..|byName|] == byName;
      assert r[k] == e;
    } else {
      assert e in all;
      assert e in orgHits;
      var k :| 0 <= k < |orgHits| && orgHits[k] == e;
    }
  }

  /** The full, unpaginated result: the filter's matches when no search is
      given, otherwise the merge of name and organizer-name matches. */
  function Merged(events: seq<Event>, orgNames: map<Id, string>, v: Viewer, p: BrowseParams): (r: seq<Event>)
    ensures forall e :: e in r ==> e in events && Matches(BuildQuery(v, p), e)
    ensures !GivenText(p.search) ==> forall e :: e in r <==> e in events && Matches(BuildQuery(v, p), e)
    ensures GivenText(p.search) ==> r == SearchMerge(events, orgNames, BuildQuery(v, p), EscapeRegex(p.search.value))
    ensures UniqueEventIds(events) ==> UniqueEventIds(r)
  {
    if !GivenText(p.search) then FindSorted(events, QueryFilter(BuildQuery(v, p)))
    else SearchMerge(events, orgNames, BuildQuery(v, p), EscapeRegex(p.search.value))
  }

  /** What the handler answers. */
  datatype Page = Page(events: seq<Event>, total: nat, limit: int, skip: int)

  function PublicAll(s: seq<Event>): (r: seq<Event>)
    ensures |r| == |s|
    ensures forall i :: 0 <= i < |s| ==> r[i] == Public(s[i])
  {
    if |s| == 0 then [] else [Public(s[0])] + PublicAll(s[1..])
  }

  /** One page of the merged list: `limit` defaults to 20 and `skip` to 0,
      and the page is `slice(skip, skip + limit)` without forms. */
  function Paginate(merged: seq<Event>, limit: Option<int>, skip: Option<int>): Page
  {
    var l := limit.GetOr(20);
    var k := skip.GetOr(0);
    Page(PublicAll(SliceJs(merged, k, k + l)), |merged|, l, k)
  }

  /** `browseevents`. */
  function BrowseEvents(events: seq<Event>, orgNames: map<Id, string>, v: Viewer, p: BrowseParams): Page
  {
    Paginate(Merged(events, orgNames, v, p), p.limit, p.skip)
  }

  /** Whatever holds of every listed event holds of every event on a page
      of it, forms hidden. */
  lemma PageOf(merged: seq<Event>, skip: int, limit: int, f: Event -> bool)
    requires forall e :: e in merged ==> f(Public(e))
    ensures forall e :: e in PublicAll(SliceJs(merged, skip, skip + limit)) ==> f(e)
  {
    var page := SliceJs(merged, skip, skip + limit);
    var r := PublicAll(page);
    forall i | 0 <= i < |r|
      ensures f(r[i])
    {
      assert page[i] in merged;
    }
  }

  lemma PaginateKeeps(merged: seq<Event>, limit: Option<int>, skip: Option<int>, f: Event -> bool)
    requires forall e :: e in merged ==> f(Public(e))
    ensures forall e :: e in Paginate(merged, limit, skip).events ==> f(e)
  {
    PageOf(merged, skip.GetOr(0), limit.GetOr(20), f);
  }

  function PublishedEvent(e: Event): bool
  {
    e.status == Published
  }

  /** A visitor, or a signed-in user who is not an organizer, only ever sees
      published events, whatever the parameters say. */
  lemma VisitorsSeePublishedOnly(events: seq<Event>, orgNames: map<Id, string>, v: Viewer, p: BrowseParams)
    requires !IsOrganizer(v)
    ensures forall e :: e in BrowseEvents(events, orgNames, v, p).events ==> e.status == Published
  {
    MergedPublished(events, orgNames, v, p);
    PaginateKeeps(Merged(events, orgNames, v, p), p.limit, p.skip, PublishedEvent);
  }

  lemma MergedPublished(events: seq<Event>, orgNames: map<Id, string>, v: Viewer, p: BrowseParams)
    requires !IsOrganizer(v)
    ensures forall e :: e in Merged(events, orgNames, v, p) ==> PublishedEvent(Public(e))
  {
    var q := BuildQuery(v, p);
    forall e | e in Merged(events, orgNames, v, p)
      ensures PublishedEvent(Public(e))
    {
      assert Matches(q, e);
      StatusNamePublished(e.status);
    }
  }

  /** An organizer who names neither an organizer nor a followed list sees
      only their own events, and only those of the requested status. */
  lemma OrganizersSeeOwnEvents(events: seq<Event>, orgNames: map<Id, string>, v: Viewer, p: BrowseParams)
    requires IsOrganizer(v) && !GivenText(p.organizer) && !GivenText(p.following)
    ensures forall e :: e in BrowseEvents(events, orgNames, v, p).events ==>
      e.organizer == v.id && (GivenText(p.status) ==> StatusName(e.status) == p.status.value)
  {
    var merged := Merged(events, orgNames, v, p);
    var q := BuildQuery(v, p);
    var own := (e: Event) => e.organizer == v.id && (GivenText(p.status) ==> StatusName(e.status) == p.status.value);
    forall e | e in merged
      ensures own(Public(e))
    {
      assert Matches(q, e);
    }
    PaginateKeeps(merged, p.limit, p.skip, own);
  }

  /** The `organizer` parameter replaces the organizer's own-events
      constraint: with no status given, an organizer is shown another
      organizer's events of every status, drafts included. */
  lemma OrganizerParamWidensView(events: seq<Event>, orgNames: map<Id, string>, v: Viewer, p: BrowseParams, e: Event)
    requires IsOrganizer(v) && GivenText(p.organizer) && !GivenText(p.following)
    requires !GivenText(p.status) && !GivenText(p.search) && !GivenText(p.kind) && !GivenText(p.eligibility)
    requires !GivenText(p.tags) && p.dateFrom.None? && p.dateTo.None?
    requires e in events && e.organizer == p.organizer.value
    ensures e in Merged(events, orgNames, v, p)
  {
  }

  /** Every event the filter accepts and the search (if any) finds, by name
      or by organizer name, is somewhere in the full result. */
  lemma MergedComplete(events: seq<Event>, orgNames: map<Id, string>, v: Viewer, p: BrowseParams, e: Event)
    requires e in events && Matches(BuildQuery(v, p), e)
    requires GivenText(p.search) ==>
      RegexTest(EscapeRegex(p.search.value), e.name) || OrgNameHit(orgNames, EscapeRegex(p.search.value), e)
    ensures HasId(Merged(events, orgNames, v, p), e.id)
  {
    var r := Merged(events, orgNames, v, p);
    if GivenText(p.search) {
      SearchMergeComplete(events, orgNames, BuildQuery(v, p), EscapeRegex(p.search.value), e);
    } else {
      var k :| 0 <= k < |r| && r[k] == e;
    }
  }

  /** A page of a list without repeated ids has none either. */
  lemma PageDistinct(merged: seq<Event>, skip: int, limit: int)
    requires UniqueEventIds(merged)
    ensures UniqueEventIds(PublicAll(SliceJs(merged, skip, skip + limit)))
  {
    var page := SliceJs(merged, skip, skip + limit);
    var a := RelIndex(skip, |merged|);
    forall i, j | 0 <= i < j < |page|
      ensures IdOf(page[i]) != IdOf(page[j])
    {
      assert page[i] == merged[a + i] && page[j] == merged[a + j];
    }
    PublicKeepsIds(page);
  }

  /** Hiding forms keeps every id where it was. */
  lemma PublicKeepsIds(s: seq<Event>)
    requires UniqueEventIds(s)
    ensures UniqueEventIds(PublicAll(s))
  {
    var r := PublicAll(s);
    forall i, j | 0 <= i < j < |r|
      ensures IdOf(r[i]) != IdOf(r[j])
    {
      assert r[i].id == s[i].id && r[j].id == s[j].id;
    }
  }

  lemma PaginateDistinct(merged: seq<Event>, limit: Option<int>, skip: Option<int>)
    requires UniqueEventIds(merged)
    ensures UniqueEventIds(Paginate(merged, limit, skip).events)
  {
    PageDistinct(merged, skip.GetOr(0), limit.GetOr(20));
  }

  /** When event ids are unique, no event appears twice on a page. */
  lemma PageHasNoDuplicates(events: seq<Event>, orgNames: map<Id, string>, v: Viewer, p: BrowseParams)
    requires UniqueEventIds(events)
    ensures UniqueEventIds(BrowseEvents(events, orgNames, v, p).events)
  {
    PaginateDistinct(Merged(events, orgNames, v, p), p.limit, p.skip);
  }
}

=== FILE: calendar.dfy ===
/** The calendar export of the web client: an iCalendar document (RFC 5545)
    with one VEVENT per event, TEXT escaping (section 3.3.11 of RFC 5545)
    and the basic UTC date form. Dates arrive as the ISO strings
    `toISOString` produces; the DTSTAMP clock reading is a parameter. */
module Calendar {
  import opened Common
  import opened Text

  // ---------------------------------------------------------------------
  // escapeIcsText

  /** `replace(/c/g, rep)` as a character map. */
  function Replacing(c: char, rep: string): char -> string
  {
    (x: char) => if x == c then rep else [x]
  }

  function ReplaceAll(s: string, c: char, rep: string): string
  {
    Expand(s, Replacing(c, rep))
  }

  /** The four replacements in source order: backslash first, then `;`,
      `,` and newline. */
  function EscapeIcsText(t: string): (r: string)
    ensures r == Expand(t, EscapeChar)
    ensures EscapedText(r)
    ensures '\n' !in r
  {
    var r := ReplaceAll(ReplaceAll(ReplaceAll(ReplaceAll(t, '\\', "\\\\"), ';', "\\;"), ',', "\\,"), '\n', "\\n");
    EscapeIsOnePass(t);
    EscapeCharsAreText(t);
    r
  }

  /** What the four passes do to one character, all at once. */
  function EscapeChar(c: char): string
  {
    if c == '\\' then "\\\\"
    else if c == ';' then "\\;"
    else if c == ',' then "\\,"
    else if c == '\n' then "\\n"
    else [c]
  }

  lemma ExpandOne(c: char, f: char -> string)
    ensures Expand([c], f) == f(c)
  {
    assert [c][1..] == [];
  }

  lemma ExpandTwo(a: char, b: char, f: char -> string)
    ensures Expand([a, b], f) == f(a) + f(b)
  {
    assert [a, b][1..] == [b];
    ExpandOne(b, f);
  }

  /** The four passes agree with the one-pass map on each character: no
      later pass touches what an earlier one inserted, except the
      backslashes the first pass doubles. */
  lemma EscapeStep(c: char)
    ensures Expand(Expand(Expand(Replacing('\\', "\\\\")(c), Replacing(';', "\\;")), Replacing(',', "\\,")), Replacing('\n', "\\n"))
      == EscapeChar(c)
  {
    var f2 := Replacing(';', "\\;");
    var f3 := Replacing(',', "\\,");
    var f4 := Replacing('\n', "\\n");
    if c == '\\' {
      ExpandTwo('\\', '\\', f2);
      ExpandTwo('\\', '\\', f3);
      ExpandTwo('\\', '\\', f4);
    } else if c == ';' {
      ExpandOne(';', f2);
      ExpandTwo('\\', ';', f3);
      ExpandTwo('\\', ';', f4);
    } else if c == ',' {
      ExpandOne(',', f2);
      ExpandOne(',', f3);
      ExpandTwo('\\', ',', f4);
    } else if c == '\n' {
      ExpandOne('\n', f2);
      ExpandOne('\n', f3);
      ExpandOne('\n', f4);
    } else {
      ExpandOne(c, f2);
      ExpandOne(c, f3);
      ExpandOne(c, f4);
    }
  }

  /** The sequence of global replacements is one pass of `EscapeChar`. */
  lemma EscapeIsOnePass(t: string)
    ensures ReplaceAll(ReplaceAll(ReplaceAll(ReplaceAll(t, '\\', "\\\\"), ';', "\\;"), ',', "\\,"), '\n', "\\n")
      == Expand(t, EscapeChar)
  {
    var f1 := Replacing('\\', "\\\\");
    var f2 := Replacing(';', "\\;");
    var f3 := Replacing(',', "\\,");
    var f4 := Replacing('\n', "\\n");
    var g12 := (c: char) => Expand(f1(c), f2);
    var g123 := (c: char) => Expand(g12(c), f3);
    var g1234 := (c: char) => Expand(g123(c), f4);
    ExpandCompose(t, f1, f2);
    ExpandExt(t, c => Expand(f1(c), f2), g12);
    ExpandCompose(t, g12, f3);
    ExpandExt(t, c => Expand(g12(c), f3), g123);
    ExpandCompose(t, g123, f4);
    ExpandExt(t, c => Expand(g123(c), f4), g1234);
    forall c
      ensures g1234(c) == EscapeChar(c)
    {
      EscapeStep(c);
    }
    ExpandExt(t, g1234, EscapeChar);
  }

  /** TEXT values of section 3.3.11 of RFC 5545: a backslash only as part
      of `\\`, `\;`, `\,` or `\n`, and no bare `;`, `,` or newline. */
  predicate EscapedText(s: string)
    decreases |s|
  {
    if |s| == 0 then true
    else if s[0] == '\\' then |s| >= 2 && s[1] in "\\;,n" && EscapedText(s[2..])
    else s[0] !in ";,\n" && EscapedText(s[1..])
  }

  lemma {:induction false} EscapeCharsAreText(t: string)
    ensures EscapedText(Expand(t, EscapeChar))
    ensures '\n' !in Expand(t, EscapeChar)
    decreases |t|
  {
    if |t| > 0 {
      var rest := Expand(t[1..], EscapeChar);
      assert Expand(t, EscapeChar) == EscapeChar(t[0]) + rest;
      EscapeCharsAreText(t[1..]);
      EscapedStep(t[0], rest);
    }
  }

  /** One escaped character in front of escaped text is escaped text. */
  lemma EscapedStep(c: char, rest: string)
    requires EscapedText(rest) && '\n' !in rest
    ensures EscapedText(EscapeChar(c) + rest) && '\n' !in EscapeChar(c) + rest
  {
    var e := EscapeChar(c);
    if |e| == 2 {
      assert (e + rest)[2..] == rest;
    } else {
      assert (e + rest)[1..] == rest;
    }
  }

  /** Reading a TEXT value back. */
  function UnescapeIcs(s: string): string
    decreases |s|
  {
    if |s| == 0 then ""
    else if s[0] == '\\' && |s| >= 2 then [if s[1] == 'n' then '\n' else s[1]] + UnescapeIcs(s[2..])
    else [s[0]] + UnescapeIcs(s[1..])
  }

  /** Escaping loses nothing: the value reads back as the original text. */
  lemma EscapeRoundTrip(t: string)
    ensures UnescapeIcs(EscapeIcsText(t)) == t
  {
    UnescapeExpand(t);
  }

  lemma {:induction false} UnescapeExpand(t: string)
    ensures UnescapeIcs(Expand(t, EscapeChar)) == t
    decreases |t|
  {
    if |t| > 0 {
      var rest := Expand(t[1..], EscapeChar);
      assert Expand(t, EscapeChar) == EscapeChar(t[0]) + rest;
      UnescapeExpand(t[1..]);
      UnescapeStep(t[0], rest);
      assert [t[0]] + t[1..] == t;
    }
  }

  /** One escaped character reads back as itself. */
  lemma UnescapeStep(c: char, rest: string)
    ensures UnescapeIcs(EscapeChar(c) + rest) == [c] + UnescapeIcs(rest)
  {
    var e := EscapeChar(c);
    if |e| == 2 {
      assert (e + rest)[2..] == rest;
    } else {
      assert (e + rest)[1..] == rest;
    }
  }

  // ---------------------------------------------------------------------
  // formatIcsDate

  function DropPunct(c: char): string
  {
    if c == '-' || c == ':' then "" else [c]
  }

  /** `toISOString().replace(/[-:]/g, '').split('.')[0] + 'Z'`. The Google
      link's `formatGoogleDate` is the same function. */
  function FormatIcsDate(iso: string): (r: string)
    ensures |r| >= 1 && r[|r| - 1] == 'Z'
  {
    Split(Expand(iso, DropPunct), '.')[0] + "Z"
  }

  /** Dropping dashes and colons keeps every other character, in order. */
  lemma {:induction false} DropPunctChars(x: string)
    ensures forall c :: c in Expand(x, DropPunct) <==> c in x && c != '-' && c != ':'
    decreases |x|
  {
    if |x| > 0 {
      DropPunctChars(x[1..]);
      assert Expand(x, DropPunct) == DropPunct(x[0]) + Expand(x[1..], DropPunct);
      assert x == [x[0]] + x[1..];
    }
  }

  /** A dropped character splits the expansion in two. */
  lemma ExpandDropped(a: string, c: char, b: string)
    requires c == '-' || c == ':'
    ensures Expand(a + [c] + b, DropPunct) == Expand(a, DropPunct) + Expand(b, DropPunct)
  {
    ExpandAppend(a, [c] + b, DropPunct);
    assert a + [c] + b == a + ([c] + b);
    assert ([c] + b)[1..] == b;
  }

  /** A kept character stays between the two expansions. */
  lemma ExpandKept(a: string, c: char, b: string)
    requires c != '-' && c != ':'
    ensures Expand(a + [c] + b, DropPunct) == Expand(a, DropPunct) + [c] + Expand(b, DropPunct)
  {
    ExpandAppend(a, [c] + b, DropPunct);
    assert a + [c] + b == a + ([c] + b);
    assert ([c] + b)[1..] == b;
  }

  /** The date and time before the fraction, without dashes and colons,
      then `Z`: the fraction and the original `Z` are dropped. */
  lemma FormatIcsDateDropsFraction(x: string, y: string)
    requires '.' !in x
    ensures FormatIcsDate(x + "." + y) == Expand(x, DropPunct) + "Z"
  {
    var ex := Expand(x, DropPunct);
    var ey := Expand(y, DropPunct);
    ExpandKept(x, '.', y);
    DropPunctChars(x);
    SplitAtSep(ex, '.', ey);
  }

  /** Characters `toISOString` writes that the format keeps. */
  predicate Plain(s: string)
  {
    forall i :: 0 <= i < |s| ==> s[i] != '-' && s[i] != ':'
  }

  predicate Digits(s: string)
  {
    forall i :: 0 <= i < |s| ==> '0' <= s[i] <= '9'
  }

  /** The `YYYY-MM-DDTHH:MM:SS.sssZ` form of `toISOString`. */
  predicate IsoShape(s: string)
  {
    && |s| == 24
    && Digits(s[0..4]) && s[4] == '-' && Digits(s[5..7]) && s[7] == '-' && Digits(s[8..10])
    && s[10] == 'T' && Digits(s[11..13]) && s[13] == ':' && Digits(s[14..16]) && s[16] == ':'
    && Digits(s[17..19]) && s[19] == '.' && Digits(s[20..23]) && s[23] == 'Z'
  }

  lemma ExpandPlainPiece(s: string)
    requires Plain(s)
    ensures Expand(s, DropPunct) == s
  {
    ExpandPlain(s, DropPunct);
  }

  /** `YYYY-MM-DDTHH:MM:SS.sssZ` becomes `YYYYMMDDTHHMMSSZ`. */
  lemma FormatIcsDateBasicForm(iso: string)
    requires IsoShape(iso)
    ensures FormatIcsDate(iso) ==
      iso[0..4] + iso[5..7] + iso[8..10] + "T" + iso[11..13] + iso[14..16] + iso[17..19] + "Z"
  {
    assert iso == iso[..19] + "." + iso[20..];
    IsoSecondsHaveNoDot(iso);
    FormatIcsDateDropsFraction(iso[..19], iso[20..]);
    ExpandIsoSeconds(iso);
  }

  lemma IsoSecondsHaveNoDot(iso: string)
    requires IsoShape(iso)
    ensures '.' !in iso[..19]
  {
    forall i | 0 <= i < 19
      ensures iso[i] != '.'
    {
      if i < 4 { assert iso[0..4][i] == iso[i]; }
      else if 5 <= i < 7 { assert iso[5..7][i - 5] == iso[i]; }
      else if 8 <= i < 10 { assert iso[8..10][i - 8] == iso[i]; }
      else if 11 <= i < 13 { assert iso[11..13][i - 11] == iso[i]; }
      else if 14 <= i < 16 { assert iso[14..16][i - 14] == iso[i]; }
      else if 17 <= i { assert iso[17..19][i - 17] == iso[i]; }
    }
  }

  lemma ExpandIsoSeconds(iso: string)
    requires IsoShape(iso)
    ensures Expand(iso[..19], DropPunct) ==
      iso[0..4] + iso[5..7] + iso[8..10] + "T" + iso[11..13] + iso[14..16] + iso[17..19]
  {
    var dh := iso[8..10] + "T" + iso[11..13];
    assert iso[8..13] == dh;
    assert iso[..19] == iso[0..4] + "-" + iso[5..7] + "-" + dh + ":" + iso[14..16] + ":" + iso[17..19];
    DigitsPlain(iso[0..4]);
    DigitsPlain(iso[5..7]);
    DigitsPlain(iso[8..10]);
    DigitsPlain(iso[11..13]);
    DigitsPlain(iso[14..16]);
    DigitsPlain(iso[17..19]);
    PlainAppend(iso[8..10], "T", iso[11..13]);
    ExpandStamp(iso[0..4], iso[5..7], dh, iso[14..16], iso[17..19]);
    ExpandPlainPiece(iso[17..19]);
  }

  lemma DigitsPlain(s: string)
    requires Digits(s)
    ensures Plain(s)
  {
  }

  lemma PlainAppend(a: string, b: string, c: string)
    requires Plain(a) && Plain(b) && Plain(c)
    ensures Plain(a + b + c)
  {
    var s := a + b + c;
    forall i | 0 <= i < |s|
      ensures s[i] != '-' && s[i] != ':'
    {
      if i < |a| { assert s[i] == a[i]; }
      else if i < |a| + |b| { assert s[i] == b[i - |a|]; }
      else { assert s[i] == c[i - |a| - |b|]; }
    }
  }

  /** Dropping the separators of `Y-M-D:H:S` shaped text. */
  lemma ExpandStamp(y: string, mo: string, dh: string, mi: string, sec: string)
    requires Plain(y) && Plain(mo) && Plain(dh) && Plain(mi)
    ensures Expand(y + "-" + mo + "-" + dh + ":" + mi + ":" + sec, DropPunct) == y + mo + dh + mi + Expand(sec, DropPunct)
  {
    var s1 := y + "-" + mo;
    var s2 := s1 + "-" + dh;
    var s3 := s2 + ":" + mi;
    ExpandDropped(y, '-', mo);
    ExpandDropped(s1, '-', dh);
    ExpandDropped(s2, ':', mi);
    ExpandDropped(s3, ':', sec);
    ExpandPlainPiece(y);
    ExpandPlainPiece(mo);
    ExpandPlainPiece(dh);
    ExpandPlainPiece(mi);
  }

  // ---------------------------------------------------------------------
  // generateIcs

  /** The fields of an event the export reads; dates as ISO strings. */
  datatype CalEvent = CalEvent(id: Option<string>, name: string, description: Option<string>, start: string, end: string)

  /** A content line `name:value` (section 3.1 of RFC 5545). */
  function Prop(name: string, value: string): string
  {
    name + ":" + value
  }

  /** Property names: upper-case letters only. */
  predicate PropName(n: string)
  {
    |n| > 0 && forall i :: 0 <= i < |n| ==> 'A' <= n[i] <= 'Z'
  }

  function Header(): seq<string>
  {
    [Prop("BEGIN", "VCALENDAR"), Prop("VERSION", "2.0"), Prop("PRODID", "-//DASS Events//EN"),
     Prop("CALSCALE", "GREGORIAN"), Prop("METHOD", "PUBLISH")]
  }

  /** The event id when there is one, otherwise start and end. */
  function Uid(ev: CalEvent): (r: string)
    ensures GivenText(ev.id) ==> r == ev.id.value + "@dass.events"
    ensures !GivenText(ev.id) ==> r == FormatIcsDate(ev.start) + "-" + FormatIcsDate(ev.end) + "@dass.events"
  {
    if GivenText(ev.id) then ev.id.value + "@dass.events"
    else FormatIcsDate(ev.start) + "-" + FormatIcsDate(ev.end) + "@dass.events"
  }

  /** `reminderMinutes && reminderMinutes > 0`. */
  predicate AlarmOn(reminder: Option<int>)
  {
    reminder.Some? && reminder.value > 0
  }

  /** UID, DTSTAMP, DTSTART, DTEND and SUMMARY. */
  function PropLines(ev: CalEvent, stamp: string): seq<string>
  {
    [Prop("UID", Uid(ev)),
     Prop("DTSTAMP", FormatIcsDate(stamp)),
     Prop("DTSTART", FormatIcsDate(ev.start)),
     Prop("DTEND", FormatIcsDate(ev.end)),
     Prop("SUMMARY", EscapeIcsText(ev.name))]
  }

  function DescLines(ev: CalEvent): seq<string>
  {
    if GivenText(ev.description) then [Prop("DESCRIPTION", EscapeIcsText(ev.description.value))] else []
  }

  /** The VALARM component (section 3.6.6 of RFC 5545). */
  function AlarmLines(name: string, reminder: Option<int>): seq<string>
  {
    if AlarmOn(reminder) then
      [Prop("BEGIN", "VALARM"), Prop("ACTION", "DISPLAY"), Prop("DESCRIPTION", "Reminder for " + EscapeIcsText(name)),
       Prop("TRIGGER", "-PT" + NatToString(reminder.value) + "M"), Prop("END", "VALARM")]
    else []
  }

  /** One VEVENT block (section 3.6.1 of RFC 5545). */
  function EventLines(ev: CalEvent, reminder: Option<int>, stamp: string): seq<string>
  {
    [Prop("BEGIN", "VEVENT")] + PropLines(ev, stamp) + DescLines(ev) + AlarmLines(ev.name, reminder) + [Prop("END", "VEVENT")]
  }

  function EventBlock(reminder: Option<int>, stamp: string): CalEvent -> seq<string>
  {
    (ev: CalEvent) => EventLines(ev, reminder, stamp)
  }

  /** `events.forEach(...)`: the event blocks one after another. */
  function Blocks(evs: seq<CalEvent>, reminder: Option<int>, stamp: string): seq<string>
  {
    Expand(evs, EventBlock(reminder, stamp))
  }

  lemma BlocksCons(evs: seq<CalEvent>, reminder: Option<int>, stamp: string)
    requires |evs| > 0
    ensures Blocks(evs, reminder, stamp) == EventLines(evs[0], reminder, stamp) + Blocks(evs[1..], reminder, stamp)
  {
  }

  function IcsLines(evs: seq<CalEvent>, reminder: Option<int>, stamp: string): (r: seq<string>)
    ensures |r| >= 6
    ensures r[..5] == Header() && r[|r| - 1] == Prop("END", "VCALENDAR")
  {
    Header() + Blocks(evs, reminder, stamp) + [Prop("END", "VCALENDAR")]
  }

  /** `generateIcs`: the lines joined with CRLF (section 3.1 of RFC 5545). */
  function GenerateIcs(evs: seq<CalEvent>, reminder: Option<int>, stamp: string): string
  {
    Join(IcsLines(evs, reminder, stamp), "\r\n")
  }

  /** A block opens with BEGIN:VEVENT and closes with END:VEVENT, holds a
      DESCRIPTION line only for a non-empty description and a five-line
      VALARM only for a positive reminder. */
  lemma EventLinesShape(ev: CalEvent, reminder: Option<int>, stamp: string)
    ensures var l := EventLines(ev, reminder, stamp);
      && |l| == 7 + (if GivenText(ev.description) then 1 else 0) + (if AlarmOn(reminder) then 5 else 0)
      && l[0] == Prop("BEGIN", "VEVENT") && l[|l| - 1] == Prop("END", "VEVENT")
      && l[1] == Prop("UID", Uid(ev))
      && l[5] == Prop("SUMMARY", EscapeIcsText(ev.name))
      && (GivenText(ev.description) ==> l[6] == Prop("DESCRIPTION", EscapeIcsText(ev.description.value)))
      && (!GivenText(ev.description) && AlarmOn(reminder) ==> l[6] == Prop("BEGIN", "VALARM"))
      && (!GivenText(ev.description) && !AlarmOn(reminder) ==> l[6] == Prop("END", "VEVENT"))
  {
    var props := PropLines(ev, stamp);
    var tail := DescLines(ev) + AlarmLines(ev.name, reminder) + [Prop("END", "VEVENT")];
    var l := EventLines(ev, reminder, stamp);
    assert l == [Prop("BEGIN", "VEVENT")] + props + tail;
    assert l[6] == tail[0];
  }

  // ---------------------------------------------------------------------
  // Counting blocks

  /** A content line determines its name and its value. */
  lemma PropInjective(n1: string, v1: string, n2: string, v2: string)
    requires ':' !in n1 && ':' !in n2
    requires Prop(n1, v1) == Prop(n2, v2)
    ensures n1 == n2 && v1 == v2
  {
    PropColon(n1, v1);
    PropColon(n2, v2);
    assert n1 == Prop(n1, v1)[..|n1|];
    assert n2 == Prop(n2, v2)[..|n2|];
    assert v1 == Prop(n1, v1)[|n1| + 1..];
    assert v2 == Prop(n2, v2)[|n2| + 1..];
  }

  lemma PropColon(n: string, v: string)
    requires ':' !in n
    ensures IndexOf(Prop(n, v), ':') == |n|
  {
    var p := Prop(n, v);
    assert p[..|n|] == n;
    assert p[|n|] == ':';
    IndexOfFirst(p, ':', |n|);
  }

  lemma IndexOfFirst<T>(s: seq<T>, x: T, i: nat)
    requires i < |s| && s[i] == x && x !in s[..i]
    ensures IndexOf(s, x) == i
  {
  }

  lemma NameHasNoColon(n: string)
    requires PropName(n)
    ensures ':' !in n && '\n' !in n
  {
  }

  /** The three marker lines counted in a document. */
  predicate NotMarker(l: string)
  {
    l != Prop("BEGIN", "VEVENT") && l != Prop("END", "VEVENT") && l != Prop("BEGIN", "VALARM")
  }

  /** A line is a marker only by carrying a marker's name and value. */
  lemma PropNotMarker(n: string, v: string)
    requires PropName(n)
    requires n == "BEGIN" ==> v != "VEVENT" && v != "VALARM"
    requires n == "END" ==> v != "VEVENT"
    ensures NotMarker(Prop(n, v))
  {
    NameHasNoColon(n);
    NameHasNoColon("BEGIN");
    NameHasNoColon("END");
    if !NotMarker(Prop(n, v)) {
      if Prop(n, v) == Prop("BEGIN", "VEVENT") { PropInjective(n, v, "BEGIN", "VEVENT"); }
      else if Prop(n, v) == Prop("END", "VEVENT") { PropInjective(n, v, "END", "VEVENT"); }
      else { PropInjective(n, v, "BEGIN", "VALARM"); }
    }
  }

  /** The VEVENT markers differ from each other and from BEGIN:VALARM. */
  lemma MarkersDistinct()
    ensures Prop("BEGIN", "VEVENT") != Prop("END", "VEVENT")
    ensures Prop("BEGIN", "VEVENT") != Prop("BEGIN", "VALARM")
    ensures Prop("END", "VEVENT") != Prop("BEGIN", "VALARM")
  {
    NamesArePropNames();
    NameHasNoColon("BEGIN");
    NameHasNoColon("END");
    if Prop("BEGIN", "VEVENT") == Prop("END", "VEVENT") { PropInjective("BEGIN", "VEVENT", "END", "VEVENT"); }
    if Prop("BEGIN", "VEVENT") == Prop("BEGIN", "VALARM") { PropInjective("BEGIN", "VEVENT", "BEGIN", "VALARM"); }
    if Prop("END", "VEVENT") == Prop("BEGIN", "VALARM") { PropInjective("END", "VEVENT", "BEGIN", "VALARM"); }
  }

  lemma NoMarkerCount(lines: seq<string>)
    requires forall k :: 0 <= k < |lines| ==> NotMarker(lines[k])
    ensures Count(lines, Prop("BEGIN", "VEVENT")) == 0
    ensures Count(lines, Prop("END", "VEVENT")) == 0
    ensures Count(lines, Prop("BEGIN", "VALARM")) == 0
  {
    CountAbsent(lines, Prop("BEGIN", "VEVENT"));
    CountAbsent(lines, Prop("END", "VEVENT"));
    CountAbsent(lines, Prop("BEGIN", "VALARM"));
  }

  lemma NamesArePropNames()
    ensures PropName("UID") && PropName("DTSTAMP") && PropName("DTSTART") && PropName("DTEND")
    ensures PropName("SUMMARY") && PropName("DESCRIPTION") && PropName("ACTION") && PropName("TRIGGER")
    ensures PropName("BEGIN") && PropName("END")
    ensures PropName("VERSION") && PropName("PRODID") && PropName("CALSCALE") && PropName("METHOD")
  {
    EventNames();
    CalendarNames();
  }

  lemma EventNames()
    ensures PropName("UID") && PropName("DTSTAMP") && PropName("DTSTART") && PropName("DTEND")
    ensures PropName("SUMMARY") && PropName("DESCRIPTION") && PropName("ACTION") && PropName("TRIGGER")
  {
  }

  lemma CalendarNames()
    ensures PropName("BEGIN") && PropName("END")
    ensures PropName("VERSION") && PropName("PRODID") && PropName("CALSCALE") && PropName("METHOD")
  {
  }

  lemma PropLinesNoMarker(ev: CalEvent, stamp: string)
    ensures forall k :: 0 <= k < |PropLines(ev, stamp)| ==> NotMarker(PropLines(ev, stamp)[k])
  {
    NamesArePropNames();
    PropNotMarker("UID", Uid(ev));
    PropNotMarker("DTSTAMP", FormatIcsDate(stamp));
    PropNotMarker("DTSTART", FormatIcsDate(ev.start));
    PropNotMarker("DTEND", FormatIcsDate(ev.end));
    PropNotMarker("SUMMARY", EscapeIcsText(ev.name));
  }

  lemma DescLinesNoMarker(ev: CalEvent)
    ensures forall k :: 0 <= k < |DescLines(ev)| ==> NotMarker(DescLines(ev)[k])
  {
    if GivenText(ev.description) {
      NamesArePropNames();
      PropNotMarker("DESCRIPTION", EscapeIcsText(ev.description.value));
    }
  }

  /** A VALARM holds BEGIN:VALARM once and neither VEVENT marker. */
  lemma AlarmMarkers(name: string, reminder: Option<int>)
    ensures Count(AlarmLines(name, reminder), Prop("BEGIN", "VEVENT")) == 0
    ensures Count(AlarmLines(name, reminder), Prop("END", "VEVENT")) == 0
    ensures Count(AlarmLines(name, reminder), Prop("BEGIN", "VALARM")) == if AlarmOn(reminder) then 1 else 0
  {
    if AlarmOn(reminder) {
      var a := AlarmLines(name, reminder);
      var mid := a[1..];
      assert a == [a[0]] + mid;
      NamesArePropNames();
      PropNotMarker("ACTION", "DISPLAY");
      PropNotMarker("DESCRIPTION", "Reminder for " + EscapeIcsText(name));
      PropNotMarker("TRIGGER", "-PT" + NatToString(reminder.value) + "M");
      PropNotMarker("END", "VALARM");
      NoMarkerCount(mid);
      BeginAlarmCounts();
      CountAppend([a[0]], mid, Prop("BEGIN", "VEVENT"));
      CountAppend([a[0]], mid, Prop("END", "VEVENT"));
      CountAppend([a[0]], mid, Prop("BEGIN", "VALARM"));
    }
  }

  lemma BeginAlarmCounts()
    ensures Count([Prop("BEGIN", "VALARM")], Prop("BEGIN", "VEVENT")) == 0
    ensures Count([Prop("BEGIN", "VALARM")], Prop("END", "VEVENT")) == 0
    ensures Count([Prop("BEGIN", "VALARM")], Prop("BEGIN", "VALARM")) == 1
  {
    MarkersDistinct();
  }

  /** Within one block, each VEVENT marker occurs once and BEGIN:VALARM
      exactly when a reminder is set. */
  lemma EventLinesMarkers(ev: CalEvent, reminder: Option<int>, stamp: string)
    ensures Count(EventLines(ev, reminder, stamp), Prop("BEGIN", "VEVENT")) == 1
    ensures Count(EventLines(ev, reminder, stamp), Prop("END", "VEVENT")) == 1
    ensures Count(EventLines(ev, reminder, stamp), Prop("BEGIN", "VALARM")) == if AlarmOn(reminder) then 1 else 0
  {
    var open := [Prop("BEGIN", "VEVENT")];
    var props := PropLines(ev, stamp);
    var desc := DescLines(ev);
    var alarm := AlarmLines(ev.name, reminder);
    var close := [Prop("END", "VEVENT")];
    PropLinesNoMarker(ev, stamp);
    DescLinesNoMarker(ev);
    NoMarkerCount(props);
    NoMarkerCount(desc);
    AlarmMarkers(ev.name, reminder);
    EndsCount();
    CountSum(open, props, desc, alarm, close, Prop("BEGIN", "VEVENT"));
    CountSum(open, props, desc, alarm, close, Prop("END", "VEVENT"));
    CountSum(open, props, desc, alarm, close, Prop("BEGIN", "VALARM"));
  }

  lemma EndsCount()
    ensures Count([Prop("BEGIN", "VEVENT")], Prop("BEGIN", "VEVENT")) == 1
    ensures Count([Prop("BEGIN", "VEVENT")], Prop("END", "VEVENT")) == 0
    ensures Count([Prop("BEGIN", "VEVENT")], Prop("BEGIN", "VALARM")) == 0
    ensures Count([Prop("END", "VEVENT")], Prop("BEGIN", "VEVENT")) == 0
    ensures Count([Prop("END", "VEVENT")], Prop("END", "VEVENT")) == 1
    ensures Count([Prop("END", "VEVENT")], Prop("BEGIN", "VALARM")) == 0
  {
    MarkersDistinct();
  }

  lemma CountSum(a: seq<string>, b: seq<string>, c: seq<string>, d: seq<string>, e: seq<string>, x: string)
    ensures Count(a + b + c + d + e, x) == Count(a, x) + Count(b, x) + Count(c, x) + Count(d, x) + Count(e, x)
  {
    CountAppend(a + b + c + d, e, x);
    CountAppend(a + b + c, d, x);
    CountAppend(a + b, c, x);
    CountAppend(a, b, x);
  }

  /** Blocks come in input order: the export of a concatenation is the
      concatenation of the exports. */
  lemma BlocksAppend(a: seq<CalEvent>, b: seq<CalEvent>, reminder: Option<int>, stamp: string)
    ensures Blocks(a + b, reminder, stamp) == Blocks(a, reminder, stamp) + Blocks(b, reminder, stamp)
  {
    ExpandAppend(a, b, EventBlock(reminder, stamp));
  }

  /** One BEGIN:VEVENT and one END:VEVENT per event, and one VALARM per
      event exactly when a reminder is set. */
  lemma {:induction false} OneBlockPerEvent(evs: seq<CalEvent>, reminder: Option<int>, stamp: string)
    ensures Count(Blocks(evs, reminder, stamp), Prop("BEGIN", "VEVENT")) == |evs|
    ensures Count(Blocks(evs, reminder, stamp), Prop("END", "VEVENT")) == |evs|
    ensures Count(Blocks(evs, reminder, stamp), Prop("BEGIN", "VALARM")) == if AlarmOn(reminder) then |evs| else 0
    decreases |evs|
  {
    if |evs| > 0 {
      OneBlockPerEvent(evs[1..], reminder, stamp);
      EventLinesMarkers(evs[0], reminder, stamp);
      var l := EventLines(evs[0], reminder, stamp);
      var rest := Blocks(evs[1..], reminder, stamp);
      CountAppend(l, rest, Prop("BEGIN", "VEVENT"));
      CountAppend(l, rest, Prop("END", "VEVENT"));
      CountAppend(l, rest, Prop("BEGIN", "VALARM"));
    }
  }

  lemma HeaderNoMarker()
    ensures forall k :: 0 <= k < |Header()| ==> NotMarker(Header()[k])
    ensures NotMarker(Prop("END", "VCALENDAR"))
  {
    NamesArePropNames();
    PropNotMarker("BEGIN", "VCALENDAR");
    PropNotMarker("VERSION", "2.0");
    PropNotMarker("PRODID", "-//DASS Events//EN");
    PropNotMarker("CALSCALE", "GREGORIAN");
    PropNotMarker("METHOD", "PUBLISH");
    PropNotMarker("END", "VCALENDAR");
  }

  lemma HeaderCounts()
    ensures Count(Header(), Prop("BEGIN", "VEVENT")) == 0 && Count(Header(), Prop("END", "VEVENT")) == 0
    ensures Count([Prop("END", "VCALENDAR")], Prop("BEGIN", "VEVENT")) == 0
    ensures Count([Prop("END", "VCALENDAR")], Prop("END", "VEVENT")) == 0
  {
    HeaderNoMarker();
    NoMarkerCount(Header());
    NoMarkerCount([Prop("END", "VCALENDAR")]);
  }

  /** The document holds exactly one VEVENT block per event. */
  lemma DocumentBlocks(evs: seq<CalEvent>, reminder: Option<int>, stamp: string)
    ensures Count(IcsLines(evs, reminder, stamp), Prop("BEGIN", "VEVENT")) == |evs|
    ensures Count(IcsLines(evs, reminder, stamp), Prop("END", "VEVENT")) == |evs|
  {
    var h := Header();
    var b := Blocks(evs, reminder, stamp);
    var close := [Prop("END", "VCALENDAR")];
    OneBlockPerEvent(evs, reminder, stamp);
    HeaderCounts();
    CountAppend(h + b, close, Prop("BEGIN", "VEVENT"));
    CountAppend(h + b, close, Prop("END", "VEVENT"));
    CountAppend(h, b, Prop("BEGIN", "VEVENT"));
    CountAppend(h, b, Prop("END", "VEVENT"));
  }

  // ---------------------------------------------------------------------
  // Line structure

  /** The lines as they sit in the document: every line but the last ends
      with the CR of its CRLF. */
  function WithCR(lines: seq<string>): (r: seq<string>)
    ensures |r| == |lines|
    ensures forall k :: 0 <= k < |lines| - 1 ==> r[k] == lines[k] + "\r"
    ensures |lines| > 0 ==> r[|r| - 1] == lines[|lines| - 1]
  {
    if |lines| <= 1 then lines else [lines[0] + "\r"] + WithCR(lines[1..])
  }

  lemma {:induction false} JoinCrLf(lines: seq<string>)
    requires |lines| >= 1
    ensures Join(lines, "\r\n") == Join(WithCR(lines), "\n")
    decreases |lines|
  {
    if |lines| > 1 {
      var rest := lines[1..];
      JoinCrLf(rest);
      var j := Join(WithCR(rest), "\n");
      assert Join(lines, "\r\n") == lines[0] + "\r\n" + Join(rest, "\r\n");
      WithCRCons(lines);
      JoinCons(lines[0] + "\r", WithCR(rest), "\n");
      CrLfSplit(lines[0], j);
    }
  }

  lemma WithCRCons(lines: seq<string>)
    requires |lines| > 1
    ensures WithCR(lines) == [lines[0] + "\r"] + WithCR(lines[1..])
  {
  }

  lemma CrLfSplit(a: string, j: string)
    ensures a + "\r\n" + j == (a + "\r") + "\n" + j
  {
    assert "\r\n" == "\r" + "\n";
  }

  /** The inputs that reach a line unescaped hold no line break. */
  predicate LineSafe(ev: CalEvent)
  {
    '\n' !in ev.start && '\n' !in ev.end && (GivenText(ev.id) ==> '\n' !in ev.id.value)
  }

  predicate NoBreaks(lines: seq<string>)
  {
    forall k :: 0 <= k < |lines| ==> '\n' !in lines[k]
  }

  lemma NoBreaksAppend(a: seq<string>, b: seq<string>)
    requires NoBreaks(a) && NoBreaks(b)
    ensures NoBreaks(a + b)
  {
    forall k | 0 <= k < |a + b|
      ensures '\n' !in (a + b)[k]
    {
      if k < |a| { assert (a + b)[k] == a[k]; } else { assert (a + b)[k] == b[k - |a|]; }
    }
  }

  lemma PropNoBreak(n: string, v: string)
    requires PropName(n) && '\n' !in v
    ensures '\n' !in Prop(n, v)
  {
    NameHasNoColon(n);
  }

  lemma FormatNoNewline(iso: string)
    requires '\n' !in iso
    ensures '\n' !in FormatIcsDate(iso)
  {
    DropPunctChars(iso);
    SplitHeadChars(Expand(iso, DropPunct), '.', '\n');
  }

  lemma UidNoNewline(ev: CalEvent)
    requires LineSafe(ev)
    ensures '\n' !in Uid(ev)
  {
    FormatNoNewline(ev.start);
    FormatNoNewline(ev.end);
    assert '\n' !in "@dass.events";
  }

  lemma PropLinesNoBreaks(ev: CalEvent, stamp: string)
    requires LineSafe(ev) && '\n' !in stamp
    ensures NoBreaks(PropLines(ev, stamp))
  {
    NamesArePropNames();
    FormatNoNewline(ev.start);
    FormatNoNewline(ev.end);
    FormatNoNewline(stamp);
    UidNoNewline(ev);
    PropNoBreak("UID", Uid(ev));
    PropNoBreak("DTSTAMP", FormatIcsDate(stamp));
    PropNoBreak("DTSTART", FormatIcsDate(ev.start));
    PropNoBreak("DTEND", FormatIcsDate(ev.end));
    PropNoBreak("SUMMARY", EscapeIcsText(ev.name));
  }

  lemma DescLinesNoBreaks(ev: CalEvent)
    ensures NoBreaks(DescLines(ev))
  {
    if GivenText(ev.description) {
      NamesArePropNames();
      PropNoBreak("DESCRIPTION", EscapeIcsText(ev.description.value));
    }
  }

  lemma AlarmNoNewline(name: string, reminder: Option<int>)
    ensures NoBreaks(AlarmLines(name, reminder))
  {
    if AlarmOn(reminder) {
      NamesArePropNames();
      var n := NatToString(reminder.value);
      assert '\n' !in n;
      assert '\n' !in "VALARM" && '\n' !in "DISPLAY" && '\n' !in "Reminder for " && '\n' !in "-PT" && '\n' !in "M";
      PropNoBreak("BEGIN", "VALARM");
      PropNoBreak("ACTION", "DISPLAY");
      PropNoBreak("DESCRIPTION", "Reminder for " + EscapeIcsText(name));
      PropNoBreak("TRIGGER", "-PT" + n + "M");
      PropNoBreak("END", "VALARM");
    }
  }

  lemma MarkersNoBreaks()
    ensures NoBreaks([Prop("BEGIN", "VEVENT")]) && NoBreaks([Prop("END", "VEVENT")])
    ensures NoBreaks(Header()) && NoBreaks([Prop("END", "VCALENDAR")])
  {
    NamesArePropNames();
    PropNoBreak("BEGIN", "VEVENT");
    PropNoBreak("END", "VEVENT");
    PropNoBreak("BEGIN", "VCALENDAR");
    PropNoBreak("VERSION", "2.0");
    PropNoBreak("PRODID", "-//DASS Events//EN");
    PropNoBreak("CALSCALE", "GREGORIAN");
    PropNoBreak("METHOD", "PUBLISH");
    PropNoBreak("END", "VCALENDAR");
  }

  lemma EventLinesNoNewline(ev: CalEvent, reminder: Option<int>, stamp: string)
    requires LineSafe(ev) && '\n' !in stamp
    ensures NoBreaks(EventLines(ev, reminder, stamp))
  {
    var open := [Prop("BEGIN", "VEVENT")];
    var props := PropLines(ev, stamp);
    var desc := DescLines(ev);
    var alarm := AlarmLines(ev.name, reminder);
    MarkersNoBreaks();
    PropLinesNoBreaks(ev, stamp);
    DescLinesNoBreaks(ev);
    AlarmNoNewline(ev.name, reminder);
    NoBreaksAppend(open, props);
    NoBreaksAppend(open + props, desc);
    NoBreaksAppend(open + props + desc, alarm);
    NoBreaksAppend(open + props + desc + alarm, [Prop("END", "VEVENT")]);
  }

  lemma {:induction false} BlocksNoNewline(evs: seq<CalEvent>, reminder: Option<int>, stamp: string)
    requires forall k :: 0 <= k < |evs| ==> LineSafe(evs[k])
    requires '\n' !in stamp
    ensures NoBreaks(Blocks(evs, reminder, stamp))
    decreases |evs|
  {
    if |evs| > 0 {
      EventLinesNoNewline(evs[0], reminder, stamp);
      BlocksNoNewline(evs[1..], reminder, stamp);
      NoBreaksAppend(EventLines(evs[0], reminder, stamp), Blocks(evs[1..], reminder, stamp));
    }
  }

  lemma WithCRNoBreaks(lines: seq<string>)
    requires NoBreaks(lines)
    ensures NoBreaks(WithCR(lines))
  {
    var cr := WithCR(lines);
    forall k | 0 <= k < |cr|
      ensures '\n' !in cr[k]
    {
      if k < |lines| - 1 {
        assert cr[k] == lines[k] + "\r";
      }
    }
  }

  lemma IcsNoBreaks(evs: seq<CalEvent>, reminder: Option<int>, stamp: string)
    requires forall k :: 0 <= k < |evs| ==> LineSafe(evs[k])
    requires '\n' !in stamp
    ensures NoBreaks(IcsLines(evs, reminder, stamp))
  {
    var b := Blocks(evs, reminder, stamp);
    BlocksNoNewline(evs, reminder, stamp);
    MarkersNoBreaks();
    NoBreaksAppend(Header(), b);
    NoBreaksAppend(Header() + b, [Prop("END", "VCALENDAR")]);
  }

  /** Splitting the document at line feeds gives back its lines, each but
      the last with its CR: escaping keeps every value on one line. */
  lemma DocumentLines(evs: seq<CalEvent>, reminder: Option<int>, stamp: string)
    requires forall k :: 0 <= k < |evs| ==> LineSafe(evs[k])
    requires '\n' !in stamp
    ensures Split(GenerateIcs(evs, reminder, stamp), '\n') == WithCR(IcsLines(evs, reminder, stamp))
  {
    var lines := IcsLines(evs, reminder, stamp);
    IcsNoBreaks(evs, reminder, stamp);
    JoinCrLf(lines);
    WithCRNoBreaks(lines);
    SplitJoin(WithCR(lines), '\n');
  }
}

=== FILE: coerce.dfy ===
/** JavaScript's conversion of a request-body value to a number, the step
    the `<` operator takes before comparing a body field with a stored
    count: `ToNumber` for strings (the StringNumericLiteral grammar of
    section 7.1.4.1 of ECMA-262), for arrays through their `join(",")`
    text, and the comparison itself with NaN and the infinities. */
module Coerce {
  import opened Common
  import opened Text

  /** A JavaScript number as the comparison sees it. Finite values are
      exact rationals here, not doubles. */
  datatype Number = NaN | NegInf | PosInf | Finite(x: real)

  /** The value of a digit character in bases up to 16; 16 for anything
      else, so that no base accepts it. */
  function DigitOf(c: char): nat
  {
    if '0' <= c <= '9' then (c - '0') as nat
    else if 'a' <= c <= 'f' then (c - 'a') as nat + 10
    else if 'A' <= c <= 'F' then (c - 'A') as nat + 10
    else 16
  }

  /** `s` is a non-empty run of digits of `base`. */
  predicate DigitsIn(s: string, base: nat)
  {
    |s| > 0 && forall i :: 0 <= i < |s| ==> DigitOf(s[i]) < base
  }

  /** The value of a digit run, most significant digit first. */
  function ValueIn(s: string, base: nat): nat
  {
    if |s| == 0 then 0 else Shift(ValueIn(s[..|s| - 1], base), base, DigitOf(s[|s| - 1]))
  }

  /** One more digit `d` after the value `v`. */
  function Shift(v: nat, base: nat, d: nat): nat
  {
    v * base + d
  }

  function Pow10(k: nat): (r: nat)
    ensures r >= 1
  {
    if k == 0 then 1 else 10 * Pow10(k - 1)
  }

  /** `m` times ten to the `e`. */
  function Scale(m: real, e: int): real
  {
    if e >= 0 then m * Pow10(e) as real else m / Pow10(-e) as real
  }

  /** The position of the first `e` or `E`, or -1. */
  function ExponentMark(t: string): (k: int)
    ensures -1 <= k < |t|
    ensures k >= 0 ==> t[k] == 'e' || t[k] == 'E'
  {
    if |t| == 0 then -1
    else if t[0] == 'e' || t[0] == 'E' then 0
    else
      var k := ExponentMark(t[1..]);
      if k == -1 then -1 else k + 1
  }

  /** `DecimalDigits`, `DecimalDigits.DecimalDigits?` or `.DecimalDigits`. */
  function Mantissa(m: string): Option<real>
  {
    var d := IndexOf(m, '.');
    if d == -1 then
      if DigitsIn(m, 10) then Some(ValueIn(m, 10) as real) else None
    else
      var whole := m[..d];
      var frac := m[d + 1..];
      if (whole == "" || DigitsIn(whole, 10)) && (frac == "" || DigitsIn(frac, 10)) && !(whole == "" && frac == "") then
        Some(PointValue(whole, frac))
      else None
  }

  /** The value of `whole.frac`. */
  function PointValue(whole: string, frac: string): real
  {
    ValueIn(whole, 10) as real + ValueIn(frac, 10) as real / Pow10(|frac|) as real
  }

  /** `SignedInteger`: an optional sign, then decimal digits. */
  function Exponent(e: string): Option<int>
  {
    if |e| > 0 && (e[0] == '+' || e[0] == '-') then
      var v: int := ValueIn(e[1..], 10);
      if DigitsIn(e[1..], 10) then Some(if e[0] == '-' then -v else v) else None
    else if DigitsIn(e, 10) then Some(ValueIn(e, 10))
    else None
  }

  /** `StrUnsignedDecimalLiteral` other than `Infinity`. */
  function UnsignedDecimal(u: string): Option<real>
  {
    var k := ExponentMark(u);
    if k == -1 then Mantissa(u)
    else
      match (Mantissa(u[..k]), Exponent(u[k + 1..]))
      case (Some(m), Some(e)) => Some(Scale(m, e))
      case _ => None
  }

  /** `0x`, `0o` or `0b` and the digits of that base. */
  function NonDecimal(t: string): Option<nat>
  {
    if |t| >= 2 && t[0] == '0' then
      var base := if t[1] in "xX" then 16 else if t[1] in "oO" then 8 else if t[1] in "bB" then 2 else 0;
      if base != 0 && DigitsIn(t[2..], base) then Some(ValueIn(t[2..], base)) else None
    else None
  }

  /** The number a string without surrounding whitespace denotes: 0 for
      "", the value of a numeric literal, NaN for anything else. */
  function LiteralValue(t: string): Number
  {
    if t == "" then Finite(0.0)
    else if NonDecimal(t).Some? then Finite(NonDecimal(t).value as real)
    else
      var negative := t[0] == '-';
      var u := if t[0] == '-' || t[0] == '+' then t[1..] else t;
      if u == "Infinity" then (if negative then NegInf else PosInf)
      else
        match UnsignedDecimal(u)
        case Some(x) => Finite(if negative then -x else x)
        case None => NaN
  }

  /** `Number(s)`: surrounding whitespace is ignored, a blank string is 0,
      and anything that is not a numeric literal is NaN. */
  function StringToNumber(s: string): (r: Number)
    ensures Blank(s) ==> r == Finite(0.0)
  {
    TrimEmptyIffBlank(s);
    LiteralValue(Trim(s))
  }

  /** `${n}` for an integer. */
  function IntToString(n: int): (r: string)
    ensures |r| >= 1
  {
    if n < 0 then "-" + NatToString(-n) else NatToString(n)
  }

  /** `String(v)` for the values an array's `join` meets: null gives "",
      an array joins its items with commas, an object gives
      `[object Object]`. */
  function JsText(v: Json): string
  {
    match v
    case JNull => ""
    case JBool(b) => if b then "true" else "false"
    case JNum(n) => IntToString(n)
    case JStr(s) => s
    case JArr(items) => Join(seq(|items|, i requires 0 <= i < |items| => JsText(items[i])), ",")
    case JObj(_) => "[object Object]"
  }

  /** `ToNumber(v)`: booleans count as 1 and 0, strings are read as
      numerals, arrays through their text, and a plain object is NaN (its
      text `[object Object]` is no numeral). */
  function ToNumber(v: Json): (r: Number)
    ensures v.JNum? ==> r == Finite(v.n as real)
    ensures v.JStr? ==> r == StringToNumber(v.s)
    ensures v.JObj? ==> r == NaN
  {
    match v
    case JNull => Finite(0.0)
    case JBool(b) => Finite(if b then 1.0 else 0.0)
    case JNum(n) => Finite(n as real)
    case JStr(s) => StringToNumber(s)
    case JArr(_) => StringToNumber(JsText(v))
    case JObj(_) => NaN
  }

  /** `a < b` for a number `b`: false against NaN. */
  predicate Below(a: Number, b: int)
  {
    match a
    case NaN => false
    case NegInf => true
    case PosInf => false
    case Finite(x) => x < b as real
  }

  /** A decimal numeral reads back as the number it renders. */
  lemma {:induction false} NatDigitsValue(n: nat)
    ensures DigitsIn(NatToString(n), 10)
    ensures ValueIn(NatToString(n), 10) == n
    decreases n
  {
    var s := NatToString(n);
    var d := ['0' + (n % 10) as char];
    if n >= 10 {
      NatDigitsValue(n / 10);
      assert s == NatToString(n / 10) + d;
      assert s[..|s| - 1] == NatToString(n / 10);
    }
  }

  /** `Number(String(n))` is `n` for every integer. */
  lemma IntTextReadsBack(n: int)
    ensures StringToNumber(IntToString(n)) == Finite(n as real)
  {
    IntTextTrimmed(n);
    IntLiteral(n);
  }

  /** An integer's text has no surrounding whitespace to trim. */
  lemma IntTextTrimmed(n: int)
    ensures StringToNumber(IntToString(n)) == LiteralValue(IntToString(n))
  {
    var m: nat := if n < 0 then -n else n;
    var digits := NatToString(m);
    var s := IntToString(n);
    assert Trimmed(s) by {
      assert !IsSpace(digits[0]) && !IsSpace(digits[|digits| - 1]);
    }
    TrimTrimmed(s);
  }

  lemma IntLiteral(n: int)
    ensures LiteralValue(IntToString(n)) == Finite(n as real)
  {
    var m: nat := if n < 0 then -n else n;
    NatDigitsValue(m);
    SignedDigitsLiteral(n < 0, NatToString(m));
  }

  /** A run of decimal digits, with or without a minus sign, denotes its
      value. */
  lemma SignedDigitsLiteral(negative: bool, d: string)
    requires DigitsIn(d, 10)
    ensures LiteralValue(if negative then "-" + d else d) ==
      Finite(if negative then -(ValueIn(d, 10) as real) else ValueIn(d, 10) as real)
  {
    DigitsDecimal(d);
    if negative {
      NegativeLiteral(d, ValueIn(d, 10) as real);
    } else {
      UnsignedLiteral(d, ValueIn(d, 10) as real);
    }
  }

  /** An unsigned decimal without a base prefix stands for itself. */
  lemma UnsignedLiteral(u: string, x: real)
    requires |u| > 0 && u[0] != '-' && u[0] != '+' && u != "Infinity"
    requires NonDecimal(u).None? && UnsignedDecimal(u) == Some(x)
    ensures LiteralValue(u) == Finite(x)
  {
  }

  /** A minus sign in front of an unsigned decimal negates it. */
  lemma NegativeLiteral(u: string, x: real)
    requires |u| > 0 && u != "Infinity" && UnsignedDecimal(u) == Some(x)
    ensures LiteralValue("-" + u) == Finite(-x)
  {
    var t := "-" + u;
    assert t[0] == '-' && t[1..] == u;
    assert NonDecimal(t) == None;
  }

  /** A run of decimal digits reads as its value. */
  lemma DigitsDecimal(d: string)
    requires DigitsIn(d, 10)
    ensures NonDecimal(d).None?
    ensures UnsignedDecimal(d) == Some(ValueIn(d, 10) as real)
    ensures d != "Infinity" && d[0] != '-' && d[0] != '+'
  {
    DigitsNotPrefixed(d);
    DigitsPlain(d);
    assert Mantissa(d) == Some(ValueIn(d, 10) as real);
  }

  /** Digits carry no base prefix, sign or `Infinity`. */
  lemma DigitsNotPrefixed(d: string)
    requires DigitsIn(d, 10)
    ensures NonDecimal(d).None?
    ensures d != "Infinity" && d[0] != '-' && d[0] != '+'
  {
    assert DigitOf(d[0]) < 10;
    if |d| >= 2 {
      assert DigitOf(d[1]) < 10;
    }
  }

  /** Digits hold neither a decimal point nor an exponent mark. */
  lemma DigitsPlain(d: string)
    requires DigitsIn(d, 10)
    ensures IndexOf(d, '.') == -1
    ensures ExponentMark(d) == -1
  {
    forall i | 0 <= i < |d| ensures d[i] != '.' && d[i] != 'e' && d[i] != 'E' {
      assert DigitOf(d[i]) < 10;
    }
    ExponentFree(d);
  }

  lemma {:induction false} ExponentFree(t: string)
    requires forall i :: 0 <= i < |t| ==> t[i] != 'e' && t[i] != 'E'
    ensures ExponentMark(t) == -1
  {
    if |t| > 0 {
      ExponentFree(t[1..]);
    }
  }

  /** Surrounding whitespace does not change what a string reads as. */
  lemma PaddedNumeral(pre: string, t: string, post: string)
    requires Blank(pre) && Blank(post) && Trimmed(t) && t != ""
    ensures StringToNumber(pre + t + post) == StringToNumber(t)
  {
    TrimPadded(pre, t, post);
    TrimTrimmed(t);
  }

  /** An array of one number reads as that number, and the empty array as
      0, because both go through their text. */
  lemma ArrayReadsAsItsText(n: int)
    ensures ToNumber(JArr([JNum(n)])) == Finite(n as real)
    ensures ToNumber(JArr([])) == Finite(0.0)
  {
    assert JsText(JArr([JNum(n)])) == IntToString(n) by {
      assert seq(1, i requires 0 <= i < 1 => JsText([JNum(n)][i])) == [IntToString(n)];
    }
    IntTextReadsBack(n);
  }

  /** A literal with a one-digit fraction and exponent, `a.bec`, reads as
      `a.b` times ten to the `c`: `Number("1.5e1")` is 15. */
  lemma FractionExponentLiteral(a: char, b: char, c: char)
    requires DigitOf(a) < 10 && DigitOf(b) < 10 && DigitOf(c) < 10
    ensures StringToNumber([a, '.', b, 'e', c]) ==
      Finite(Scale(DigitOf(a) as real + DigitOf(b) as real / 10.0, DigitOf(c)))
  {
    var s := [a, '.', b, 'e', c];
    assert !IsSpace(a) && !IsSpace(c);
    TrimmedNumber(s);
    FractionExponentParts(a, b, c);
    PointNotPrefixed(s);
    UnsignedLiteral(s, Scale(DigitOf(a) as real + DigitOf(b) as real / 10.0, DigitOf(c)));
  }

  /** `Number("1.5e1")` is 15. */
  lemma FifteenLiteral()
    ensures StringToNumber("1.5e1") == Finite(15.0)
  {
    assert "1.5e1" == ['1', '.', '5', 'e', '1'];
    assert DigitOf('1') == 1 && DigitOf('5') == 5;
    FractionExponentLiteral('1', '5', '1');
    assert Scale(1.5, 1) == 15.0 by {
      assert Pow10(1) == 10;
    }
  }

  /** A point in second place rules out a base prefix and `Infinity`. */
  lemma PointNotPrefixed(s: string)
    requires |s| >= 2 && s[1] == '.'
    ensures NonDecimal(s).None? && s != "Infinity"
  {
    assert s[1] != "Infinity"[1];
  }

  /** A string without surrounding whitespace is read as it stands. */
  lemma TrimmedNumber(s: string)
    requires Trimmed(s) && s != ""
    ensures StringToNumber(s) == LiteralValue(s)
  {
    TrimTrimmed(s);
  }

  lemma FractionExponentParts(a: char, b: char, c: char)
    requires DigitOf(a) < 10 && DigitOf(b) < 10 && DigitOf(c) < 10
    ensures UnsignedDecimal([a, '.', b, 'e', c]) ==
      Some(Scale(DigitOf(a) as real + DigitOf(b) as real / 10.0, DigitOf(c)))
  {
    var s := [a, '.', b, 'e', c];
    MarkAfterPoint(a, b, c);
    assert s[..3] == [a, '.', b] && s[4..] == [c];
    PointFraction(a, b);
    DigitExponent(c);
    ExponentSplit(s, 3, PointValue([a], [b]), DigitOf(c));
    PointDigits(a, b);
  }

  /** In `a.bec` the exponent mark is the `e`. */
  lemma MarkAfterPoint(a: char, b: char, c: char)
    requires DigitOf(a) < 10 && DigitOf(b) < 10
    ensures ExponentMark([a, '.', b, 'e', c]) == 3
  {
    var s := [a, '.', b, 'e', c];
    assert a != 'e' && a != 'E' && b != 'e' && b != 'E';
    FirstMark(s, 3);
  }

  /** A decimal literal with an exponent mark at `k` is its mantissa
      scaled by its exponent. */
  lemma ExponentSplit(u: string, k: nat, m: real, e: int)
    requires k < |u| && ExponentMark(u) == k
    requires Mantissa(u[..k]) == Some(m) && Exponent(u[k + 1..]) == Some(e)
    ensures UnsignedDecimal(u) == Some(Scale(m, e))
  {
  }

  /** `a.b` is worth `a` plus a tenth of `b`. */
  lemma PointDigits(a: char, b: char)
    requires DigitOf(a) < 10 && DigitOf(b) < 10
    ensures PointValue([a], [b]) == DigitOf(a) as real + DigitOf(b) as real / 10.0
  {
    SingleDigit(a);
    SingleDigit(b);
    assert Pow10(|[b]|) == 10;
  }

  /** One digit is an exponent worth its digit value. */
  lemma DigitExponent(c: char)
    requires DigitOf(c) < 10
    ensures Exponent([c]) == Some(DigitOf(c) as int)
  {
    SingleDigit(c);
  }

  /** The first exponent mark of `t` is at `k`. */
  lemma {:induction false} FirstMark(t: string, k: nat)
    requires k < |t| && (t[k] == 'e' || t[k] == 'E')
    requires forall i :: 0 <= i < k ==> t[i] != 'e' && t[i] != 'E'
    ensures ExponentMark(t) == k
  {
    if k > 0 {
      FirstMark(t[1..], k - 1);
    }
  }

  /** `a.b` for two digits: whole part `a`, fraction `b`. */
  lemma PointFraction(a: char, b: char)
    requires DigitOf(a) < 10 && DigitOf(b) < 10
    ensures Mantissa([a, '.', b]) == Some(PointValue([a], [b]))
  {
    var m := [a, '.', b];
    assert a != '.';
    assert IndexOf(m, '.') == 1 by {
      assert m[1..] == ['.', b];
    }
    assert m[..1] == [a] && m[2..] == [b];
    SingleDigit(a);
    SingleDigit(b);
    MantissaSplit(m, 1, [a], [b]);
  }

  /** A mantissa with a point at `d` between two digit runs. */
  lemma MantissaSplit(m: string, d: nat, w: string, f: string)
    requires d < |m| && IndexOf(m, '.') == d && m[..d] == w && m[d + 1..] == f
    requires DigitsIn(w, 10) && DigitsIn(f, 10)
    ensures Mantissa(m) == Some(PointValue(w, f))
  {
  }

  /** One digit is a digit run worth its digit value. */
  lemma SingleDigit(c: char)
    requires DigitOf(c) < 10
    ensures DigitsIn([c], 10) && ValueIn([c], 10) == DigitOf(c)
  {
    assert [c][..0] == [];
  }
}

=== FILE: common.dfy ===
/** Shared vocabulary of the Felicity backend and frontend model: optional
    values, results that carry a typed error, identifiers, timestamps and the
    JSON values that arrive in request bodies. */
module Common {

  /** A value that may be absent (a missing body field, an unset date). */
  datatype Option<+T> = None | Some(value: T)
  {
    function GetOr(default: T): T
    {
      match this
      case Some(v) => v
      case None => default
    }
  }

  /** The outcome of a request handler: a value, or the error it answers with. */
  datatype Result<+T, +E> = Ok(value: T) | Err(error: E)

  /** Document identifiers (Mongo ObjectIds, compared by their string form). */
  type Id = string

  /** A point in time, in milliseconds since the epoch. */
  type Timestamp = int

  /** A JSON value as it arrives in a request body. Numbers are integers in
      this model. */
  datatype Json =
    | JNull
    | JBool(b: bool)
    | JNum(n: int)
    | JStr(s: string)
    | JArr(items: seq<Json>)
    | JObj(fields: map<string, Json>)

  /** JavaScript truthiness of a JSON value: null, false, 0 and "" are falsy,
      every array and object is truthy. */
  predicate Truthy(v: Json)
  {
    match v
    case JNull => false
    case JBool(b) => b
    case JNum(n) => n != 0
    case JStr(s) => s != ""
    case JArr(_) => true
    case JObj(_) => true
  }

  /** `body[key]` is present and truthy; an absent key reads as `undefined`. */
  predicate FieldTruthy(body: map<string, Json>, key: string)
  {
    key in body && Truthy(body[key])
  }

  /** JavaScript truthiness of an optional string body field (`!ticketid`). */
  predicate GivenText(s: Option<string>)
  {
    s.Some? && s.value != ""
  }
}

=== FILE: createpage.dfy ===
/** The organizer's event creation page: what `onsubmit` sends once the
    form has passed its client schema. The date pickers, already combined
    with their time of day, are inputs. */
module CreatePage {
  import opened Common
  import opened Models
  import opened Text
  import opened Sorting

  /** The submitted form values; absent optional inputs are `None`. */
  datatype CreateForm = CreateForm(
    name: string,
    description: Option<string>,
    kind: string,
    eligibility: string,
    registrationLimit: Option<int>,
    fee: Option<int>,
    tags: Option<string>)

  /** The request body. `fee` is only sent for Normal events. */
  datatype Payload = Payload(
    name: string,
    description: string,
    kind: string,
    eligibility: string,
    dates: Dates,
    limit: int,
    tags: seq<string>,
    fee: Option<int>)

  datatype CreateError = MissingDates

  /** `s.trim()` applied to every piece. */
  function TrimAll(xs: seq<string>): (r: seq<string>)
    ensures |r| == |xs| && forall i :: 0 <= i < |xs| ==> r[i] == Trim(xs[i])
  {
    MapSeq(xs, Trim)
  }

  predicate NonEmpty(t: string)
  {
    t != ""
  }

  /** `tags.split(',').map(t => t.trim()).filter(Boolean)`. */
  function TagList(tags: string): (r: seq<string>)
    ensures forall i :: 0 <= i < |r| ==> r[i] != "" && Trimmed(r[i])
  {
    var r := Filter(TrimAll(Split(tags, ',')), NonEmpty);
    assert forall i :: 0 <= i < |r| ==> Trimmed(r[i]) by {
      forall i | 0 <= i < |r|
        ensures Trimmed(r[i])
      {
        assert r[i] in TrimAll(Split(tags, ','));
        var k :| 0 <= k < |Split(tags, ',')| && r[i] == Trim(Split(tags, ',')[k]);
        TrimSpec(Split(tags, ',')[k]);
      }
    }
    r
  }

  /** `onsubmit`: refused when a date is missing; otherwise the payload
      with its defaults. */
  function Submit(form: CreateForm, deadline: Option<Timestamp>, start: Option<Timestamp>, end: Option<Timestamp>): (r: Result<Payload, CreateError>)
    ensures r.Err? <==> deadline.None? || start.None? || end.None?
    ensures r.Ok? ==>
      && r.value.name == form.name && r.value.kind == form.kind && r.value.eligibility == form.eligibility
      && r.value.dates == Dates(start.value, end.value, deadline.value)
      && r.value.description == (if form.description.Some? then form.description.value else "")
      && r.value.limit == (if form.registrationLimit.None? || form.registrationLimit.value == 0 then 100 else form.registrationLimit.value)
      && (form.kind == "Normal" ==> r.value.fee == Some(form.fee.GetOr(0)))
      && (form.kind != "Normal" ==> r.value.fee.None?)
      && (form.tags.None? ==> r.value.tags == [])
  {
    if deadline.None? || start.None? || end.None? then Err(MissingDates)
    else
      var limit := if form.registrationLimit.None? || form.registrationLimit.value == 0 then 100 else form.registrationLimit.value;
      var tags := if form.tags.Some? && form.tags.value != "" then TagList(form.tags.value) else [];
      Ok(Payload(form.name, form.description.GetOr(""), form.kind, form.eligibility,
                 Dates(start.value, end.value, deadline.value), limit, tags,
                 if form.kind == "Normal" then Some(form.fee.GetOr(0)) else None))
  }

  /** The tags sent are the comma-separated pieces of the input, trimmed,
      with the blank ones left out. */
  lemma SubmittedTags(form: CreateForm, deadline: Timestamp, start: Timestamp, end: Timestamp)
    requires form.tags.Some?
    ensures Submit(form, Some(deadline), Some(start), Some(end)).value.tags == TagList(form.tags.value)
  {
    if form.tags.value == "" {
      assert Split("", ',') == [""];
      assert TrimAll([""]) == [Trim("")];
      assert Trim("") == "";
    }
  }

  /** Tags that are trimmed, non-empty and comma-free survive being joined
      with commas and read back: the tag input edits a list. */
  lemma TagListJoin(tags: seq<string>)
    requires |tags| >= 1
    requires forall i :: 0 <= i < |tags| ==> tags[i] != "" && Trimmed(tags[i]) && ',' !in tags[i]
    ensures TagList(Join(tags, ",")) == tags
  {
    assert "," == [','];
    SplitJoin(tags, ',');
    TrimAllTrimmed(tags);
    FilterAll(tags, NonEmpty);
  }

  lemma TrimAllTrimmed(tags: seq<string>)
    requires forall i :: 0 <= i < |tags| ==> tags[i] != "" && Trimmed(tags[i])
    ensures TrimAll(tags) == tags
  {
    forall i | 0 <= i < |tags|
      ensures Trim(tags[i]) == tags[i]
    {
      TrimTrimmed(tags[i]);
    }
  }

  /** A blank tag input sends no tags. */
  lemma BlankTagsSendNothing(t: string)
    requires Blank(t) && ',' !in t
    ensures TagList(t) == []
  {
    SplitNoSep(t, ',');
    TrimEmptyIffBlank(t);
    assert TrimAll([t]) == [Trim(t)];
    assert Filter([""], NonEmpty) == [];
  }
}

=== FILE: csv.dfy ===
/** The CSV writer used by the participant and attendance exports
    (`tocsv` and its inner `escape`), as written, together with a field
    escape that closes its quote as section 2 of RFC 4180 requires and a
    reader for that format. */
module Csv {
  import opened Text

  /** A cell as the exporter sees it: a value rendered by `String(val)`, or
      null/undefined (which includes a key the row does not have). */
  datatype Cell = Missing | Value(s: string)

  /** One data object of the export, keyed by column name. */
  type Row = map<string, Cell>

  /** A value containing `,`, `"` or a newline is quoted. */
  predicate NeedsQuoting(s: string)
  {
    ',' in s || '"' in s || '\n' in s
  }

  /** Every `"` of `t` is one half of a doubled pair. */
  predicate PairedQuotes(t: string)
    decreases |t|
  {
    if |t| == 0 then true
    else if t[0] != '"' then PairedQuotes(t[1..])
    else |t| >= 2 && t[1] == '"' && PairedQuotes(t[2..])
  }

  /** Read a doubled-quote text back: each `""` stands for one `"`. */
  function Unquote(t: string): string
    decreases |t|
  {
    if |t| == 0 then ""
    else if |t| >= 2 && t[0] == '"' && t[1] == '"' then "\"" + Unquote(t[2..])
    else [t[0]] + Unquote(t[1..])
  }

  /** `str.replace(/"/g, '""')`. */
  function DoubleQuotes(s: string): (r: string)
    ensures PairedQuotes(r)
    ensures Unquote(r) == s
    ensures |r| == |s| + Count(s, '"')
  {
    if |s| == 0 then ""
    else if s[0] == '"' then
      var rest := DoubleQuotes(s[1..]);
      assert ("\"\"" + rest)[2..] == rest;
      "\"\"" + rest
    else
      var rest := DoubleQuotes(s[1..]);
      assert ([s[0]] + rest)[1..] == rest;
      assert s == [s[0]] + s[1..];
      [s[0]] + rest
  }

  /** The exporter's `escape`, as written: a value that needs quoting gets an
      opening `"` and its quotes doubled, but no closing quote. */
  function Escape(v: Cell): (r: string)
    ensures v.Missing? ==> r == ""
    ensures v.Value? && !NeedsQuoting(v.s) ==> r == v.s
    ensures v.Value? && NeedsQuoting(v.s) ==>
      && |r| == 1 + |v.s| + Count(v.s, '"')
      && r[0] == '"' && PairedQuotes(r[1..]) && Unquote(r[1..]) == v.s
  {
    match v
    case Missing => ""
    case Value(s) =>
      if NeedsQuoting(s) then
        var r := "\"" + DoubleQuotes(s);
        assert r[1..] == DoubleQuotes(s);
        r
      else s
  }

  /** The field escape of section 2 of RFC 4180: a quoted field is enclosed
      in a pair of quotes, with inner quotes doubled. */
  function EscapeRfc(v: Cell): (r: string)
    ensures v.Missing? ==> r == ""
    ensures v.Value? && !NeedsQuoting(v.s) ==> r == v.s
    ensures v.Value? && NeedsQuoting(v.s) ==>
      && |r| == 2 + |v.s| + Count(v.s, '"')
      && r[0] == '"' && r[|r| - 1] == '"'
      && PairedQuotes(r[1..|r| - 1]) && Unquote(r[1..|r| - 1]) == v.s
  {
    match v
    case Missing => ""
    case Value(s) =>
      if NeedsQuoting(s) then
        var r := "\"" + DoubleQuotes(s) + "\"";
        assert r[1..|r| - 1] == DoubleQuotes(s);
        r
      else s
  }

  /** `row[h]`, where a key the row lacks reads as undefined. */
  function Lookup(row: Row, h: string): Cell
  {
    if h in row then row[h] else Missing
  }

  /** The escaped cells of one row, in header order. */
  function Cells(row: Row, headers: seq<string>, esc: Cell -> string): (r: seq<string>)
    ensures |r| == |headers|
    ensures forall j :: 0 <= j < |headers| ==> r[j] == esc(Lookup(row, headers[j]))
  {
    if |headers| == 0 then [] else [esc(Lookup(row, headers[0]))] + Cells(row, headers[1..], esc)
  }

  /** The text of one data line: `headers.map(h => escape(row[h])).join(',')`. */
  function RowLine(row: Row, headers: seq<string>, esc: Cell -> string): string
  {
    Join(Cells(row, headers, esc), ",")
  }

  /** One line per data object, in input order. */
  function RowLines(data: seq<Row>, headers: seq<string>, esc: Cell -> string): (r: seq<string>)
    ensures |r| == |data|
    ensures forall i :: 0 <= i < |data| ==> r[i] == RowLine(data[i], headers, esc)
  {
    if |data| == 0 then [] else [RowLine(data[0], headers, esc)] + RowLines(data[1..], headers, esc)
  }

  /** The header line followed by one line per data object. */
  function Lines(data: seq<Row>, headers: seq<string>, esc: Cell -> string): (r: seq<string>)
    ensures |r| == |data| + 1
    ensures r[0] == Join(headers, ",")
    ensures forall i :: 0 <= i < |data| ==> r[i + 1] == RowLine(data[i], headers, esc)
  {
    [Join(headers, ",")] + RowLines(data, headers, esc)
  }

  function ToCsvWith(data: seq<Row>, headers: seq<string>, esc: Cell -> string): string
  {
    Join(Lines(data, headers, esc), "\n")
  }

  /** `tocsv(data, headers)` as written: the headers line (not escaped), then
      one line per object with cells escaped by `Escape`, joined by "\n". */
  function ToCsv(data: seq<Row>, headers: seq<string>): string
  {
    ToCsvWith(data, headers, Escape)
  }

  /** The same writer with the RFC 4180 field escape. */
  function ToCsvRfc(data: seq<Row>, headers: seq<string>): string
  {
    ToCsvWith(data, headers, EscapeRfc)
  }

  /** The value a reader should recover for a cell. */
  function CellText(v: Cell): string
  {
    match v
    case Missing => ""
    case Value(s) => s
  }

  function Values(row: Row, headers: seq<string>): (r: seq<string>)
    ensures |r| == |headers|
    ensures forall j :: 0 <= j < |headers| ==> r[j] == CellText(Lookup(row, headers[j]))
  {
    if |headers| == 0 then [] else [CellText(Lookup(row, headers[0]))] + Values(row, headers[1..])
  }

  function TableValues(data: seq<Row>, headers: seq<string>): (r: seq<seq<string>>)
    ensures |r| == |data|
    ensures forall i :: 0 <= i < |data| ==> r[i] == Values(data[i], headers)
  {
    if |data| == 0 then [] else [Values(data[0], headers)] + TableValues(data[1..], headers)
  }

  /** No header occurs twice. */
  predicate DistinctHeaders(headers: seq<string>)
  {
    forall i, j :: 0 <= i < j < |headers| ==> headers[i] != headers[j]
  }

  /** The object literal `{ h0: v0, h1: v1, ... }` of an export row. */
  function RowOf(headers: seq<string>, values: seq<string>): (row: Row)
    requires |headers| == |values|
    ensures forall h :: h in row <==> h in headers
  {
    if |headers| == 0 then map[]
    else RowOf(headers[1..], values[1..])[headers[0] := Value(values[0])]
  }

  /** Reading a row literal back in header order gives its values. */
  lemma {:induction false} ValuesOfRow(headers: seq<string>, values: seq<string>)
    requires |headers| == |values| && DistinctHeaders(headers)
    ensures Values(RowOf(headers, values), headers) == values
  {
    var row := RowOf(headers, values);
    forall j | 0 <= j < |headers|
      ensures Lookup(row, headers[j]) == Value(values[j])
    {
      LookupRowOf(headers, values, j);
    }
  }

  lemma {:induction false} LookupRowOf(headers: seq<string>, values: seq<string>, j: nat)
    requires |headers| == |values| && DistinctHeaders(headers) && j < |headers|
    ensures Lookup(RowOf(headers, values), headers[j]) == Value(values[j])
  {
    if j > 0 {
      assert headers[j] == headers[1..][j - 1];
      LookupRowOf(headers[1..], values[1..], j - 1);
    }
  }

  /** One row literal per record. */
  function RowsOf(headers: seq<string>, records: seq<seq<string>>): (rows: seq<Row>)
    requires forall i :: 0 <= i < |records| ==> |records[i]| == |headers|
    ensures |rows| == |records|
    ensures forall i :: 0 <= i < |records| ==> rows[i] == RowOf(headers, records[i])
  {
    if |records| == 0 then [] else [RowOf(headers, records[0])] + RowsOf(headers, records[1..])
  }

  // ---------------------------------------------------------------------
  // A reader for section 2 of RFC 4180.

  /** An unquoted field runs to the next `,`, newline or the end. */
  function ParsePlain(s: string): (r: (string, string))
    ensures |r.1| <= |s|
    decreases |s|
  {
    if |s| == 0 || s[0] == ',' || s[0] == '\n' then ("", s)
    else
      var (f, rest) := ParsePlain(s[1..]);
      ([s[0]] + f, rest)
  }

  /** The inside of a quoted field: `""` is one quote, a lone `"` ends it. */
  function ParseQuoted(s: string): (r: (string, string))
    ensures |r.1| <= |s|
    decreases |s|
  {
    if |s| == 0 then ("", "")
    else if s[0] == '"' then
      if |s| >= 2 && s[1] == '"' then
        var (f, rest) := ParseQuoted(s[2..]);
        ("\"" + f, rest)
      else ("", s[1..])
    else
      var (f, rest) := ParseQuoted(s[1..]);
      ([s[0]] + f, rest)
  }

  function ParseField(s: string): (r: (string, string))
    ensures |r.1| <= |s|
  {
    if |s| > 0 && s[0] == '"' then ParseQuoted(s[1..]) else ParsePlain(s)
  }

  /** The fields of one record, and the text after it. */
  function ParseRecord(s: string): (r: (seq<string>, string))
    ensures |r.1| <= |s|
    decreases |s|
  {
    var (f, rest) := ParseField(s);
    if |rest| > 0 && rest[0] == ',' then
      var (fs, rest2) := ParseRecord(rest[1..]);
      ([f] + fs, rest2)
    else ([f], rest)
  }

  /** The records of a CSV text, read line by line. */
  function ParseTable(s: string): seq<seq<string>>
    decreases |s|
  {
    var (rec, rest) := ParseRecord(s);
    if |rest| > 0 && rest[0] == '\n' then [rec] + ParseTable(rest[1..]) else [rec]
  }

  /** The text after a field: nothing, or a field or record separator. */
  predicate FieldEnd(tail: string)
  {
    |tail| == 0 || tail[0] == ',' || tail[0] == '\n'
  }

  lemma {:induction false} ParsePlainRoundTrip(v: string, tail: string)
    requires !NeedsQuoting(v) && FieldEnd(tail)
    ensures ParsePlain(v + tail) == (v, tail)
    decreases |v|
  {
    if |v| == 0 {
      assert v + tail == tail;
    } else {
      assert (v + tail)[1..] == v[1..] + tail;
      assert !NeedsQuoting(v[1..]) by {
        assert forall c :: c in v[1..] ==> c in v;
      }
      ParsePlainRoundTrip(v[1..], tail);
      assert [v[0]] + v[1..] == v;
    }
  }

  lemma {:induction false} ParseQuotedRoundTrip(v: string, tail: string)
    requires FieldEnd(tail)
    ensures ParseQuoted(DoubleQuotes(v) + "\"" + tail) == (v, tail)
    decreases |v|
  {
    var s := DoubleQuotes(v) + "\"" + tail;
    if |v| == 0 {
      assert s == "\"" + tail;
      assert s[1..] == tail;
    } else {
      var x := DoubleQuotes(v[1..]) + "\"" + tail;
      assert s == QuoteChar(v[0]) + x by {
        assert DoubleQuotes(v) == QuoteChar(v[0]) + DoubleQuotes(v[1..]);
      }
      ParseQuotedCons(v[0], x);
      ParseQuotedRoundTrip(v[1..], tail);
      assert [v[0]] + v[1..] == v;
    }
  }

  /** What the quote doubling writes for one character. */
  function QuoteChar(c: char): string
  {
    if c == '"' then "\"\"" else [c]
  }

  /** A doubled quote or another character inside a quoted field is read as
      that one character. */
  lemma ParseQuotedCons(c: char, x: string)
    ensures ParseQuoted(QuoteChar(c) + x) == ([c] + ParseQuoted(x).0, ParseQuoted(x).1)
  {
    var q := QuoteChar(c);
    if c == '"' {
      assert (q + x)[2..] == x;
    } else {
      assert (q + x)[1..] == x;
    }
  }

  /** Reading an RFC 4180 field gives back the value that was written. */
  lemma FieldRoundTrip(v: Cell, tail: string)
    requires FieldEnd(tail)
    ensures ParseField(EscapeRfc(v) + tail) == (CellText(v), tail)
  {
    match v
    case Missing =>
      PlainFieldRoundTrip("", tail);
    case Value(s) =>
      if NeedsQuoting(s) {
        QuotedFieldRoundTrip(s, tail);
      } else {
        PlainFieldRoundTrip(s, tail);
      }
  }

  /** A value that needs no quoting is read back as it stands. */
  lemma PlainFieldRoundTrip(s: string, tail: string)
    requires !NeedsQuoting(s) && FieldEnd(tail)
    ensures ParseField(s + tail) == (s, tail)
  {
    ParsePlainRoundTrip(s, tail);
    if |s| == 0 {
      assert s + tail == tail;
    } else {
      assert s[0] in s;
      assert (s + tail)[0] == s[0];
    }
  }

  lemma QuotedFieldRoundTrip(s: string, tail: string)
    requires NeedsQuoting(s) && FieldEnd(tail)
    ensures ParseField(EscapeRfc(Value(s)) + tail) == (s, tail)
  {
    var d := DoubleQuotes(s);
    assert EscapeRfc(Value(s)) == "\"" + d + "\"";
    assert "\"" + d + "\"" + tail == "\"" + (d + "\"" + tail);
    OpenQuote(d + "\"" + tail);
    ParseQuotedRoundTrip(s, tail);
  }

  lemma OpenQuote(x: string)
    ensures ParseField("\"" + x) == ParseQuoted(x)
  {
    assert ("\"" + x)[1..] == x;
  }

  /** One escaped field followed by a field separator. */
  lemma ParseRecordCons(v: Cell, x: string)
    ensures ParseRecord(EscapeRfc(v) + "," + x) == ([CellText(v)] + ParseRecord(x).0, ParseRecord(x).1)
  {
    FieldRoundTrip(v, "," + x);
    assert EscapeRfc(v) + "," + x == EscapeRfc(v) + ("," + x);
    assert ("," + x)[1..] == x;
  }

  lemma {:induction false} RecordRoundTrip(row: Row, headers: seq<string>, tail: string)
    requires |headers| >= 1
    requires |tail| == 0 || tail[0] == '\n'
    ensures ParseRecord(RowLine(row, headers, EscapeRfc) + tail) == (Values(row, headers), tail)
    decreases |headers|
  {
    var v := Lookup(row, headers[0]);
    var cells := Cells(row, headers, EscapeRfc);
    assert cells == [EscapeRfc(v)] + Cells(row, headers[1..], EscapeRfc);
    assert Values(row, headers) == [CellText(v)] + Values(row, headers[1..]);
    if |headers| == 1 {
      assert RowLine(row, headers, EscapeRfc) == EscapeRfc(v);
      assert Values(row, headers[1..]) == [];
      FieldRoundTrip(v, tail);
      var s := EscapeRfc(v) + tail;
      assert ParseField(s) == (CellText(v), tail);
      assert ParseRecord(s) == ([CellText(v)], tail);
      assert Values(row, headers) == [CellText(v)];
    } else {
      var restLine := RowLine(row, headers[1..], EscapeRfc);
      assert cells[1..] == Cells(row, headers[1..], EscapeRfc);
      assert RowLine(row, headers, EscapeRfc) == EscapeRfc(v) + "," + restLine;
      assert RowLine(row, headers, EscapeRfc) + tail == EscapeRfc(v) + "," + (restLine + tail);
      ParseRecordCons(v, restLine + tail);
      RecordRoundTrip(row, headers[1..], tail);
    }
  }

  /** The header line reads back as the headers when no header needs quoting. */
  lemma {:induction false} HeaderRoundTrip(headers: seq<string>, tail: string)
    requires |headers| >= 1
    requires forall j :: 0 <= j < |headers| ==> !NeedsQuoting(headers[j])
    requires |tail| == 0 || tail[0] == '\n'
    ensures ParseRecord(Join(headers, ",") + tail) == (headers, tail)
    decreases |headers|
  {
    var h := headers[0];
    if |headers| == 1 {
      assert Join(headers, ",") == h;
      PlainFieldRoundTrip(h, tail);
      assert headers == [h];
    } else {
      var tl := headers[1..];
      HeaderRoundTrip(tl, tail);
      HeaderStep(h, tl, tail);
      assert headers == [h] + tl;
    }
  }

  lemma HeaderCons(h: string, x: string)
    requires !NeedsQuoting(h)
    ensures ParseRecord(h + "," + x) == ([h] + ParseRecord(x).0, ParseRecord(x).1)
  {
    PlainFieldRoundTrip(h, "," + x);
    assert h + "," + x == h + ("," + x);
    assert ("," + x)[1..] == x;
  }

  lemma HeaderStep(h: string, tl: seq<string>, tail: string)
    requires !NeedsQuoting(h) && |tl| >= 1
    requires ParseRecord(Join(tl, ",") + tail) == (tl, tail)
    ensures ParseRecord(Join([h] + tl, ",") + tail) == ([h] + tl, tail)
  {
    var rest := Join(tl, ",");
    JoinCons(h, tl, ",");
    assert h + "," + rest + tail == h + "," + (rest + tail);
    HeaderCons(h, rest + tail);
  }

  lemma {:induction false} LinesRoundTrip(data: seq<Row>, headers: seq<string>)
    requires |headers| >= 1
    ensures ParseTable(Join(RowLines(data, headers, EscapeRfc), "\n")) == (if |data| == 0 then [[""]] else TableValues(data, headers))
    decreases |data|
  {
    if |data| == 0 {
      // Join of no lines is the empty text, which reads as one empty record.
      assert ParsePlain("") == ("", "");
    } else if |data| == 1 {
      RecordRoundTrip(data[0], headers, "");
      assert RowLine(data[0], headers, EscapeRfc) + "" == RowLine(data[0], headers, EscapeRfc);
    } else {
      var first := RowLine(data[0], headers, EscapeRfc);
      var rest := Join(RowLines(data[1..], headers, EscapeRfc), "\n");
      assert RowLines(data, headers, EscapeRfc)[1..] == RowLines(data[1..], headers, EscapeRfc);
      assert Join(RowLines(data, headers, EscapeRfc), "\n") == first + ("\n" + rest);
      RecordRoundTrip(data[0], headers, "\n" + rest);
      ParseTableStep(first + ("\n" + rest), Values(data[0], headers), rest);
      LinesRoundTrip(data[1..], headers);
      assert TableValues(data, headers) == [Values(data[0], headers)] + TableValues(data[1..], headers);
    }
  }

  /** A record followed by a line feed starts the table. */
  lemma ParseTableStep(s: string, rec: seq<string>, rest: string)
    requires ParseRecord(s) == (rec, "\n" + rest)
    ensures ParseTable(s) == [rec] + ParseTable(rest)
  {
    assert ("\n" + rest)[1..] == rest;
  }

  /** With the RFC 4180 escape the export is readable: a reader recovers the
      headers and every cell value of every row, whatever the values hold. */
  lemma RfcTableRoundTrip(data: seq<Row>, headers: seq<string>)
    requires |headers| >= 1
    requires forall j :: 0 <= j < |headers| ==> !NeedsQuoting(headers[j])
    ensures ParseTable(ToCsvRfc(data, headers)) == [headers] + TableValues(data, headers)
  {
    var lines := Lines(data, headers, EscapeRfc);
    if |data| == 0 {
      HeaderRoundTrip(headers, "");
      assert Join(headers, ",") + "" == Join(headers, ",");
    } else {
      var rest := Join(RowLines(data, headers, EscapeRfc), "\n");
      assert lines[1..] == RowLines(data, headers, EscapeRfc);
      assert ToCsvRfc(data, headers) == Join(headers, ",") + ("\n" + rest);
      HeaderRoundTrip(headers, "\n" + rest);
      assert ("\n" + rest)[1..] == rest;
      LinesRoundTrip(data, headers);
    }
  }

  /** For values that need no quoting both escapes write the same text. */
  lemma {:induction false} PlainRowsAgree(data: seq<Row>, headers: seq<string>)
    requires forall i, j :: 0 <= i < |data| && 0 <= j < |headers| && Lookup(data[i], headers[j]).Value? ==>
      !NeedsQuoting(Lookup(data[i], headers[j]).s)
    ensures ToCsv(data, headers) == ToCsvRfc(data, headers)
  {
    assert forall i :: 0 <= i < |data| ==> Cells(data[i], headers, Escape) == Cells(data[i], headers, EscapeRfc);
    assert Lines(data, headers, Escape) == Lines(data, headers, EscapeRfc);
  }

  /** The export as written reads back correctly as long as no value needs
      quoting. */
  lemma PlainTableRoundTrip(data: seq<Row>, headers: seq<string>)
    requires |headers| >= 1
    requires forall j :: 0 <= j < |headers| ==> !NeedsQuoting(headers[j])
    requires forall i, j :: 0 <= i < |data| && 0 <= j < |headers| && Lookup(data[i], headers[j]).Value? ==>
      !NeedsQuoting(Lookup(data[i], headers[j]).s)
    ensures ParseTable(ToCsv(data, headers)) == [headers] + TableValues(data, headers)
  {
    PlainRowsAgree(data, headers);
    RfcTableRoundTrip(data, headers);
  }

  /** An export built from records under distinct plain headers reads back
      as the header row followed by the records, whatever the values hold. */
  lemma RecordsReadBack(headers: seq<string>, records: seq<seq<string>>)
    requires |headers| >= 1 && DistinctHeaders(headers)
    requires forall j :: 0 <= j < |headers| ==> !NeedsQuoting(headers[j])
    requires forall i :: 0 <= i < |records| ==> |records[i]| == |headers|
    ensures ParseTable(ToCsvRfc(RowsOf(headers, records), headers)) == [headers] + records
  {
    RfcTableRoundTrip(RowsOf(headers, records), headers);
    RowsValues(headers, records);
  }

  /** Rows built from records give the records back, value by value. */
  lemma RowsValues(headers: seq<string>, records: seq<seq<string>>)
    requires DistinctHeaders(headers)
    requires forall i :: 0 <= i < |records| ==> |records[i]| == |headers|
    ensures TableValues(RowsOf(headers, records), headers) == records
  {
    var rows := RowsOf(headers, records);
    forall i | 0 <= i < |rows|
      ensures TableValues(rows, headers)[i] == records[i]
    {
      ValuesOfRow(headers, records[i]);
    }
  }

  /** Text without quotes is left as it is by the quote doubling. */
  lemma {:induction false} NoQuotesKept(s: string)
    requires '"' !in s
    ensures DoubleQuotes(s) == s
    decreases |s|
  {
    if |s| > 0 {
      assert '"' !in s[1..] by {
        assert forall c :: c in s[1..] ==> c in s;
      }
      NoQuotesKept(s[1..]);
      assert s == [s[0]] + s[1..];
    }
  }

  /** Without a closing quote the written text is ambiguous: a value that
      needs quoting, a line feed and a plain rest is written exactly as the
      value and the rest escaped on two lines. */
  lemma SplitValueCollides(x: string, y: string)
    requires NeedsQuoting(x) && '"' !in x && '"' !in y && !NeedsQuoting(y)
    ensures Escape(Value(x + "\n" + y)) == Escape(Value(x)) + "\n" + Escape(Value(y))
  {
    var xy := x + "\n" + y;
    assert xy[|x|] == '\n';
    assert '"' !in xy;
    NoQuotesKept(xy);
    NoQuotesKept(x);
    EscapeQuoted(xy);
    EscapeQuoted(x);
    EscapePlain(y);
    QuoteConcat(x, y);
  }

  lemma EscapePlain(s: string)
    requires !NeedsQuoting(s)
    ensures Escape(Value(s)) == s
  {
  }

  lemma QuoteConcat(x: string, y: string)
    ensures "\"" + (x + "\n" + y) == "\"" + x + "\n" + y
  {
  }

  lemma EscapeQuoted(s: string)
    requires NeedsQuoting(s)
    ensures Escape(Value(s)) == "\"" + DoubleQuotes(s)
  {
  }

  /** One line of a one-column export. */
  lemma SingleColumnLine(h: string, v: Cell)
    ensures RowLine(map[h := v], [h], Escape) == Escape(v)
  {
    assert Cells(map[h := v], [h], Escape) == [Escape(v)];
  }

  /** So a one-column export of the single row `x + "\n" + y` and of the two
      rows `x` and `y` are the same text, though the data differ. */
  lemma AsWrittenExportCollides(h: string, x: string, y: string)
    requires NeedsQuoting(x) && '"' !in x && '"' !in y && !NeedsQuoting(y)
    ensures ToCsv([map[h := Value(x + "\n" + y)]], [h]) == ToCsv([map[h := Value(x)], map[h := Value(y)]], [h])
    ensures [map[h := Value(x + "\n" + y)]] != [map[h := Value(x)], map[h := Value(y)]]
  {
    var one: seq<Row> := [map[h := Value(x + "\n" + y)]];
    var two: seq<Row> := [map[h := Value(x)], map[h := Value(y)]];
    SplitValueCollides(x, y);
    SingleColumnLine(h, Value(x + "\n" + y));
    SingleColumnLine(h, Value(x));
    SingleColumnLine(h, Value(y));
    var e1, ex, ey := Escape(Value(x + "\n" + y)), Escape(Value(x)), Escape(Value(y));
    var l1 := Lines(one, [h], Escape);
    var l2 := Lines(two, [h], Escape);
    assert l1 == [h, e1];
    assert l2 == [h, ex, ey];
    JoinPair(h, e1);
    JoinTriple(h, ex, ey);
  }

  lemma JoinPair(a: string, b: string)
    ensures Join([a, b], "\n") == a + "\n" + b
  {
    assert [a, b][1..] == [b];
  }

  lemma JoinTriple(a: string, b: string, c: string)
    ensures Join([a, b, c], "\n") == a + "\n" + (b + "\n" + c)
  {
    assert [a, b, c][1..] == [b, c];
    JoinPair(b, c);
  }

  /** The concrete case: the row "a,\nb" against the rows "a," and "b". */
  lemma CollisionExample()
    ensures ToCsv([map["x" := Value("a,\nb")]], ["x"]) == ToCsv([map["x" := Value("a,")], map["x" := Value("b")]], ["x"])
  {
    assert NeedsQuoting("a,") by { assert "a,"[1] == ','; }
    assert "a," + "\n" + "b" == "a,\nb";
    AsWrittenExportCollides("x", "a,", "b");
  }
}

=== FILE: event_middleware.dfy ===
/** The two middlewares in front of the event editing routes: `ownevent`
    (the event exists and belongs to the caller) and `caneditevent` (which
    keys a PATCH body may carry, given the event's status). */
module EventMiddleware {
  import opened Common
  import opened Models
  import opened Coerce

  /** The answers of `ownevent` and of the controllers that repeat its check. */
  datatype AccessError = EventNotFound | NotYourEvent
  {
    function Code(): int
    {
      match this
      case EventNotFound => 404
      case NotYourEvent => 403
    }
  }

  /** `ownevent`: the event with this id, provided the caller organizes it. */
  function OwnEvent(events: seq<Event>, eventId: Id, caller: Id): (r: Result<Event, AccessError>)
    ensures FindEvent(events, eventId).None? <==> r == Err(EventNotFound)
    ensures FindEvent(events, eventId).Some? ==>
      && (r.Ok? <==> FindEvent(events, eventId).value.organizer == caller)
      && (r.Err? ==> r == Err(NotYourEvent))
    ensures r.Ok? ==> r.value == FindEvent(events, eventId).value && r.value.organizer == caller
  {
    var i := EventIndex(events, eventId);
    if i == -1 then Err(EventNotFound)
    else if events[i].organizer != caller then Err(NotYourEvent)
    else Ok(events[i])
  }

  /** Why `caneditevent` refuses a body. */
  datatype EditError =
    | NoEvent                  // 404: the ownership middleware attached no event
    | FieldNotEditable         // 400: a published event, a key outside the whitelist
    | DatesNotEditable         // 400: a published event, a date other than the deadline
    | LimitBelowCount(regcount: int) // 400: a published event, limit under the registrations
    | StatusOnly               // 400: an ongoing/completed event, anything but a lone status
    | NotEditable              // 400: any other status
  {
    function Code(): int
    {
      if NoEvent? then 404 else 400
    }
  }

  /** The top-level keys a published event accepts. */
  predicate PublishedKey(k: string)
  {
    k == "description" || k == "dates" || k == "limit" || k == "fee" || k == "status" || k == "variants"
  }

  /** `Object.keys(v).some(k => k !== 'deadline')` is false: an object with no
      key but the deadline, or a value without own keys (a number, a boolean,
      an empty string or array). */
  predicate OnlyDeadlineKeys(v: Json)
  {
    match v
    case JObj(m) => forall k :: k in m ==> k == "deadline"
    case JStr(s) => |s| == 0
    case JArr(xs) => |xs| == 0
    case _ => true
  }

  /** `limit < regcount`: the body value is converted to a number first,
      so a numeral string or a one-number array compares by its value, an
      empty array as 0, and anything read as NaN never compares below. */
  predicate LimitBelow(v: Json, regcount: int)
  {
    Below(ToNumber(v), regcount)
  }

  /** `caneditevent`: accept (the event passes on) or refuse a PATCH body. */
  function CanEditEvent(ev: Option<Event>, body: map<string, Json>): (r: Result<Event, EditError>)
    ensures ev.None? <==> r == Err(NoEvent)
    ensures r.Ok? ==> ev == Some(r.value)
    ensures ev.Some? && ev.value.status == Draft ==> r.Ok?
    ensures ev.Some? && ev.value.status == Published ==>
      && (r == Err(FieldNotEditable) <==> exists k :: k in body && !PublishedKey(k))
      && (r == Err(DatesNotEditable) <==>
            (forall k :: k in body ==> PublishedKey(k)) && FieldTruthy(body, "dates") && !OnlyDeadlineKeys(body["dates"]))
      && (r == Err(LimitBelowCount(ev.value.regcount)) <==>
            && (forall k :: k in body ==> PublishedKey(k))
            && (FieldTruthy(body, "dates") ==> OnlyDeadlineKeys(body["dates"]))
            && FieldTruthy(body, "limit") && LimitBelow(body["limit"], ev.value.regcount))
      && (r.Ok? <==>
            && (forall k :: k in body ==> PublishedKey(k))
            && (FieldTruthy(body, "dates") ==> OnlyDeadlineKeys(body["dates"]))
            && !(FieldTruthy(body, "limit") && LimitBelow(body["limit"], ev.value.regcount)))
    ensures ev.Some? && (ev.value.status == Ongoing || ev.value.status == Completed) ==>
      (r.Ok? <==> |body| == 1 && FieldTruthy(body, "status")) && (r.Err? ==> r.error == StatusOnly)
    ensures ev.Some? && ev.value.status == EventStatus.Cancelled ==> r == Err(NotEditable)
  {
    match ev
    case None => Err(NoEvent)
    case Some(e) =>
      match e.status
      case Draft => Ok(e)
      case Published =>
        if exists k :: k in body && !PublishedKey(k) then Err(FieldNotEditable)
        else if FieldTruthy(body, "dates") && !OnlyDeadlineKeys(body["dates"]) then Err(DatesNotEditable)
        else if FieldTruthy(body, "limit") && LimitBelow(body["limit"], e.regcount) then Err(LimitBelowCount(e.regcount))
        else Ok(e)
      case Ongoing => if |body| != 1 || !FieldTruthy(body, "status") then Err(StatusOnly) else Ok(e)
      case Completed => if |body| != 1 || !FieldTruthy(body, "status") then Err(StatusOnly) else Ok(e)
      case Cancelled => Err(NotEditable)
  }

  /** What the published gate asks of one key and its value. */
  predicate PublishedPairAllowed(k: string, v: Json, regcount: int)
  {
    && PublishedKey(k)
    && (k == "dates" && Truthy(v) ==> OnlyDeadlineKeys(v))
    && !(k == "limit" && Truthy(v) && LimitBelow(v, regcount))
  }

  /** The gate of a published event judges keys one at a time: it accepts a
      body exactly when it accepts each key of the body sent alone. */
  lemma PublishedGateByKey(ev: Event, body: map<string, Json>)
    requires ev.status == Published
    ensures CanEditEvent(Some(ev), body).Ok? <==>
      forall k :: k in body ==> CanEditEvent(Some(ev), map[k := body[k]]).Ok?
  {
    forall k | k in body
      ensures CanEditEvent(Some(ev), map[k := body[k]]).Ok? <==> PublishedPairAllowed(k, body[k], ev.regcount)
    {
      SingleKeyGate(ev, k, body[k]);
    }
    if forall k :: k in body ==> PublishedPairAllowed(k, body[k], ev.regcount) {
      assert FieldTruthy(body, "dates") ==> OnlyDeadlineKeys(body["dates"]);
      assert !(FieldTruthy(body, "limit") && LimitBelow(body["limit"], ev.regcount));
    }
  }

  /** A body of one key passes the published gate when that key is allowed. */
  lemma SingleKeyGate(ev: Event, k: string, v: Json)
    requires ev.status == Published
    ensures CanEditEvent(Some(ev), map[k := v]).Ok? <==> PublishedPairAllowed(k, v, ev.regcount)
  {
    var body := map[k := v];
    assert forall j :: j in body ==> j == k;
  }

  /** A limit sent as the text of a number is held against the registration
      count like the number itself: `{ limit: "5" }` is refused once six
      have registered. */
  lemma NumeralLimitGate(ev: Event, n: int)
    requires ev.status == Published
    ensures var r := CanEditEvent(Some(ev), map["limit" := JStr(IntToString(n))]);
      && (r.Ok? <==> n >= ev.regcount)
      && (r.Err? ==> r.error == LimitBelowCount(ev.regcount))
  {
    var v := JStr(IntToString(n));
    SingleKeyGate(ev, "limit", v);
    LimitOnlyError(ev, v);
    NumeralPair(n, ev.regcount);
  }

  /** A limit alone can only be refused for being below the count. */
  lemma LimitOnlyError(ev: Event, v: Json)
    requires ev.status == Published
    ensures var r := CanEditEvent(Some(ev), map["limit" := v]);
      r.Err? ==> r.error == LimitBelowCount(ev.regcount)
  {
    var body := map["limit" := v];
    assert forall j :: j in body ==> j == "limit";
    assert !FieldTruthy(body, "dates");
  }

  lemma NumeralPair(n: int, regcount: int)
    ensures PublishedPairAllowed("limit", JStr(IntToString(n)), regcount) <==> n >= regcount
  {
    IntTextReadsBack(n);
    NumeralPairAt(IntToString(n), n, regcount);
  }

  /** A non-empty string that converts to `n` is judged as `n`. */
  lemma NumeralPairAt(s: string, n: int, regcount: int)
    requires s != "" && StringToNumber(s) == Finite(n as real)
    ensures PublishedPairAllowed("limit", JStr(s), regcount) <==> n >= regcount
  {
    assert LimitBelow(JStr(s), regcount) <==> n < regcount;
    assert PublishedKey("limit") && Truthy(JStr(s));
  }

  /** An empty array reads as 0, so `{ limit: [] }` is refused by any event
      that has registrations. */
  lemma EmptyArrayLimitGate(ev: Event)
    requires ev.status == Published
    ensures CanEditEvent(Some(ev), map["limit" := JArr([])]).Ok? <==> ev.regcount <= 0
  {
    SingleKeyGate(ev, "limit", JArr([]));
    EmptyArrayPair(ev.regcount);
  }

  lemma EmptyArrayPair(regcount: int)
    ensures PublishedPairAllowed("limit", JArr([]), regcount) <==> regcount <= 0
  {
    assert LimitBelow(JArr([]), regcount) <==> 0 < regcount by {
      ArrayReadsAsItsText(0);
    }
    assert PublishedKey("limit") && Truthy(JArr([]));
  }
}

=== FILE: events.dfy ===
/** The event controller's single-event operations: `createvent`,
    `getevent`, `updatevent`, `deletevent`, `getform` and `updateform`.
    Browsing and trending are in their own modules. */
module Events {
  import opened Common
  import opened Models
  import opened Sorting
  import opened EventMiddleware
  import Registrations

  // ---------------------------------------------------------------------
  // createvent

  /** `createvent`: the validated body with the caller as organizer and
      status forced to draft, saved through the kind's document model and
      appended to the collection. A document the validators refuse makes
      `create()` throw, which the handler answers with 500. */
  function CreateEvent(db: Db, d: EventInput, caller: Id): (r: Result<(Db, Event), string>)
    ensures r.Ok? <==>
      && d.name != "" && d.eligibility != ""
      && (d.kind.MerchandiseInput? ==> forall i :: 0 <= i < |d.kind.variants| ==> VariantAccepted(d.kind.variants[i]))
    ensures r.Ok? ==> Saveable(r.value.1)
    ensures r.Ok? ==>
      var ev := r.value.1;
      && ev.status == Draft && ev.organizer == caller
      && ev.id == d.id && ev.name == d.name && ev.description == d.description && ev.eligibility == d.eligibility
      && ev.dates == d.dates && ev.limit == d.limit && ev.tags == d.tags
      && ev.regcount == d.regcount.GetOr(0)
      && ev.kind.Normal? == d.kind.NormalInput?
      && r.value.0 == Db(db.events + [ev], db.regs)
  {
    match MaterializeEvent(d.(organizer := caller, status := Some(Draft)))
    case Err(e) => Err(e)
    case Ok(ev) => Ok((Db(db.events + [ev], db.regs), ev))
  }

  /** Whatever status and organizer the body names, a created event is a
      draft of the caller's. */
  lemma CreateIgnoresBodyStatus(db: Db, d: EventInput, caller: Id, s: EventStatus, o: Id)
    requires CreateEvent(db, d, caller).Ok?
    ensures CreateEvent(db, d.(status := Some(s), organizer := o), caller) == CreateEvent(db, d, caller)
  {
  }

  // ---------------------------------------------------------------------
  // getevent

  /** The event as sent to clients: `select('-formschema')`. */
  function Public(e: Event): (p: Event)
    ensures p.kind.Normal? ==> p.kind.formschema.None?
    ensures p.kind.Normal? == e.kind.Normal?
    ensures p == e.(kind := p.kind)
    ensures e.kind.Merchandise? ==> p == e
    ensures e.kind.Normal? ==> p.kind.fee == e.kind.fee
  {
    match e.kind
    case Normal(fee, _) => e.(kind := Normal(fee, None))
    case Merchandise(_, _) => e
  }

  /** Who is asking: no token, or a signed-in user. */
  datatype Viewer = Anonymous | SignedIn(id: Id, isOrganizer: bool)

  predicate IsViewer(v: Viewer, id: Id)
  {
    v.SignedIn? && v.id == id
  }

  /** The failures of `getevent`. */
  datatype GetError = Missing | OrganizerGone
  {
    function Code(): int
    {
      match this
      case Missing => 404
      case OrganizerGone => 500
    }
  }

  /** `getevent`: 404 for a missing event and for a non-published event the
      viewer does not organize. `clubs` holds the ids of the organizer
      accounts that exist; for a non-published event whose club account is
      gone, `populate` leaves the organizer null and reading its `_id`
      throws, which the handler answers with 500. */
  function GetEvent(events: seq<Event>, eventId: Id, clubs: set<Id>, viewer: Viewer): (r: Result<Event, GetError>)
    ensures r == Err(Missing) <==>
      || FindEvent(events, eventId).None?
      || (var ev := FindEvent(events, eventId).value;
          ev.status != Published && ev.organizer in clubs && !IsViewer(viewer, ev.organizer))
    ensures r == Err(OrganizerGone) <==>
      FindEvent(events, eventId).Some? &&
      FindEvent(events, eventId).value.status != Published && FindEvent(events, eventId).value.organizer !in clubs
    ensures r.Ok? <==>
      FindEvent(events, eventId).Some? &&
      (var ev := FindEvent(events, eventId).value;
       ev.status == Published || (ev.organizer in clubs && IsViewer(viewer, ev.organizer)))
    ensures r.Ok? ==> r.value == Public(FindEvent(events, eventId).value)
  {
    match FindEvent(events, eventId)
    case None => Err(Missing)
    case Some(ev) =>
      if ev.status == Published then Ok(Public(ev))
      else if ev.organizer !in clubs then Err(OrganizerGone)
      else if !IsViewer(viewer, ev.organizer) then Err(Missing)
      else Ok(Public(ev))
  }

  // ---------------------------------------------------------------------
  // updatevent

  /** A partial `dates` object. */
  datatype DatesPatch = DatesPatch(start: Option<Timestamp>, end: Option<Timestamp>, deadline: Option<Timestamp>)

  /** The fields of a PATCH body the handler reads. */
  datatype UpdateBody = UpdateBody(
    description: Option<string>,
    dates: Option<DatesPatch>,
    limit: Option<int>,
    status: Option<EventStatus>,
    fee: Option<int>,
    variants: Option<seq<VariantInput>>,
    purchaseLimit: Option<int>)

  /** `{ ...ev.dates, ...patch }`. */
  function MergeDates(d: Dates, p: DatesPatch): (r: Dates)
    ensures r.start == p.start.GetOr(d.start)
    ensures r.end == p.end.GetOr(d.end)
    ensures r.deadline == p.deadline.GetOr(d.deadline)
  {
    Dates(p.start.GetOr(d.start), p.end.GetOr(d.end), p.deadline.GetOr(d.deadline))
  }

  /** `updatevent` after the gate: a field-selective merge. `save()`
      validates the whole document again, so an empty name or eligibility,
      or an invalid variant, old or new, makes it throw and the handler
      answer 500. */
  function UpdateEvent(ev: Event, u: UpdateBody): (r: Result<Event, string>)
    ensures r.Err? <==>
      || ev.name == "" || ev.eligibility == ""
      || (ev.kind.Merchandise? && u.variants.Some? && exists i :: 0 <= i < |u.variants.value| && !VariantAccepted(u.variants.value[i]))
      || (ev.kind.Merchandise? && u.variants.None? && !ValidVariants(ev.kind.variants))
    ensures r.Ok? ==> Saveable(r.value)
    ensures r.Ok? ==>
      var e := r.value;
      && e.id == ev.id && e.name == ev.name && e.eligibility == ev.eligibility
      && e.organizer == ev.organizer && e.tags == ev.tags && e.regcount == ev.regcount
      && e.description == u.description.GetOr(ev.description)
      && e.limit == u.limit.GetOr(ev.limit)
      && e.status == u.status.GetOr(ev.status)
      && (u.dates.None? ==> e.dates == ev.dates)
      && (u.dates.Some? ==> e.dates == MergeDates(ev.dates, u.dates.value))
      && e.kind.Normal? == ev.kind.Normal?
      && (ev.kind.Normal? ==> e.kind.fee == u.fee.GetOr(ev.kind.fee) && e.kind.formschema == ev.kind.formschema)
      && (ev.kind.Merchandise? ==>
            && e.kind.purchaseLimit == u.purchaseLimit.GetOr(ev.kind.purchaseLimit)
            && (u.variants.None? ==> e.kind.variants == ev.kind.variants)
            && (u.variants.Some? ==> e.kind.variants == MaterializeVariants(u.variants.value) && ValidVariants(e.kind.variants)))
  {
    var dates := if u.dates.Some? then MergeDates(ev.dates, u.dates.value) else ev.dates;
    var kind :=
      match ev.kind
      case Normal(fee, form) => Normal(u.fee.GetOr(fee), form)
      case Merchandise(vs, pl) =>
        Merchandise(if u.variants.Some? then MaterializeVariants(u.variants.value) else vs, u.purchaseLimit.GetOr(pl));
    if ev.kind.Merchandise? && u.variants.Some? then
      MaterializedValid(u.variants.value);
      Validate(ev.(description := u.description.GetOr(ev.description), dates := dates, limit := u.limit.GetOr(ev.limit),
                   status := u.status.GetOr(ev.status), kind := kind))
    else
      Validate(ev.(description := u.description.GetOr(ev.description), dates := dates, limit := u.limit.GetOr(ev.limit),
                   status := u.status.GetOr(ev.status), kind := kind))
  }

  const EmptyUpdate := UpdateBody(None, None, None, None, None, None, None)

  /** An empty body changes nothing; it is refused only when the stored
      document itself fails validation. */
  lemma EmptyUpdateIsIdentity(ev: Event)
    ensures UpdateEvent(ev, EmptyUpdate).Ok? <==> Saveable(ev)
    ensures UpdateEvent(ev, EmptyUpdate).Ok? ==> UpdateEvent(ev, EmptyUpdate).value == ev
  {
  }

  /** A created event passes validation again, so saving it unchanged
      succeeds: the create and update validators agree. */
  lemma CreatedEventSaves(db: Db, d: EventInput, caller: Id)
    requires CreateEvent(db, d, caller).Ok?
    ensures UpdateEvent(CreateEvent(db, d, caller).value.1, EmptyUpdate) == Ok(CreateEvent(db, d, caller).value.1)
  {
    EmptyUpdateIsIdentity(CreateEvent(db, d, caller).value.1);
  }

  /** Applying the same body twice is applying it once. */
  lemma UpdateIdempotent(ev: Event, u: UpdateBody)
    requires UpdateEvent(ev, u).Ok?
    ensures UpdateEvent(UpdateEvent(ev, u).value, u) == UpdateEvent(ev, u)
  {
  }

  /** The PATCH body `u` was parsed from the JSON object `body`: every field
      it supplies is a key of the body, a supplied date is a key of the body's
      `dates` object, and a supplied limit is the body's number. */
  predicate Mirrors(body: map<string, Json>, u: UpdateBody)
  {
    && (u.description.Some? ==> "description" in body)
    && (u.status.Some? ==> "status" in body)
    && (u.fee.Some? ==> "fee" in body)
    && (u.variants.Some? ==> "variants" in body)
    && (u.purchaseLimit.Some? ==> "purchaseLimit" in body)
    && (u.limit.Some? ==> "limit" in body && body["limit"] == JNum(u.limit.value))
    && (u.dates.Some? ==>
          && "dates" in body && body["dates"].JObj?
          && (u.dates.value.start.Some? ==> "start" in body["dates"].fields)
          && (u.dates.value.end.Some? ==> "end" in body["dates"].fields)
          && (u.dates.value.deadline.Some? ==> "deadline" in body["dates"].fields))
  }

  /** The gate and the merge together: an edit of a published event that
      the gate lets through keeps the name, the start and end dates and the
      purchase limit, and a non-zero limit it sets is at least the
      registration count. */
  lemma PublishedEditKeepsSchedule(ev: Event, body: map<string, Json>, u: UpdateBody)
    requires ev.status == Published
    requires CanEditEvent(Some(ev), body).Ok? && Mirrors(body, u)
    requires UpdateEvent(ev, u).Ok?
    ensures var e := UpdateEvent(ev, u).value;
      && e.name == ev.name && e.dates.start == ev.dates.start && e.dates.end == ev.dates.end
      && (ev.kind.Merchandise? ==> e.kind.purchaseLimit == ev.kind.purchaseLimit)
      && (u.limit.Some? && u.limit.value != 0 ==> e.limit >= ev.regcount)
  {
    if u.dates.Some? {
      assert FieldTruthy(body, "dates");
      assert OnlyDeadlineKeys(body["dates"]);
    }
    if u.limit.Some? && u.limit.value != 0 {
      assert FieldTruthy(body, "limit");
    }
  }

  /** An ongoing or completed event that passes the gate changes at most its
      status. */
  lemma RunningEditOnlyStatus(ev: Event, body: map<string, Json>, u: UpdateBody)
    requires ev.status == Ongoing || ev.status == Completed
    requires CanEditEvent(Some(ev), body).Ok? && Mirrors(body, u)
    ensures UpdateEvent(ev, u).Ok? <==> Saveable(ev)
    ensures UpdateEvent(ev, u).Ok? ==> UpdateEvent(ev, u).value == ev.(status := u.status.GetOr(ev.status))
  {
    assert "status" in body;
    assert forall k :: k in body ==> k == "status" by {
      forall k | k in body ensures k == "status" {
        if k != "status" {
          assert {k, "status"} <= body.Keys;
          assert |{k, "status"}| == 2;
          SubsetCard({k, "status"}, body.Keys);
        }
      }
    }
    assert u.description.None? && u.dates.None? && u.limit.None? && u.fee.None?;
    assert u.variants.None? && u.purchaseLimit.None?;
  }

  lemma SubsetCard<T>(a: set<T>, b: set<T>)
    requires a <= b
    ensures |a| <= |b|
  {
    assert b == a + (b - a);
  }

  // ---------------------------------------------------------------------
  // deletevent

  /** `deletevent` after the ownership check: the event and every
      registration for it are removed. */
  function DeleteEvent(db: Db, eventId: Id, caller: Id): (r: Result<Db, AccessError>)
    ensures r.Err? <==> OwnEvent(db.events, eventId, caller).Err?
    ensures r.Err? ==> r.error == OwnEvent(db.events, eventId, caller).error
    ensures r.Ok? ==>
      && (forall e :: e in r.value.events <==> e in db.events && e.id != eventId)
      && (forall x :: x in r.value.regs <==> x in db.regs && x.event != eventId)
  {
    match OwnEvent(db.events, eventId, caller)
    case Err(e) => Err(e)
    case Ok(_) =>
      Ok(Db(Filter(db.events, (e: Event) => e.id != eventId), Filter(db.regs, (x: Registration) => x.event != eventId)))
  }

  /** After a delete the event can no longer be fetched or registered for. */
  lemma DeletedEventIsGone(db: Db, eventId: Id, caller: Id, clubs: set<Id>, viewer: Viewer, user: Id,
                           fd: Option<seq<Json>>, now: Timestamp, ticket: string)
    requires DeleteEvent(db, eventId, caller).Ok?
    ensures var db' := DeleteEvent(db, eventId, caller).value;
      && GetEvent(db'.events, eventId, clubs, viewer) == Err(Missing)
      && Registrations.Register(db', user, eventId, fd, now, ticket) == Err(Registrations.NoSuchEvent)
  {
    var db' := DeleteEvent(db, eventId, caller).value;
    forall k | 0 <= k < |db'.events|
      ensures db'.events[k].id != eventId
    {
      assert db'.events[k] in db'.events;
    }
  }

  // ---------------------------------------------------------------------
  // getform / updateform

  /** The answer of `getform`: `{ fields: [] }` when no form was saved, else
      the saved form. */
  datatype FormReply = NoFields | Fields(form: seq<FormField>)

  /** `normalevent.findById`: only Normal events are found. */
  function FindNormal(events: seq<Event>, eventId: Id): (r: Option<Event>)
    ensures r.Some? <==> FindEvent(events, eventId).Some? && FindEvent(events, eventId).value.kind.Normal?
    ensures r.Some? ==> r == FindEvent(events, eventId)
  {
    match FindEvent(events, eventId)
    case None => None
    case Some(ev) => if ev.kind.Normal? then Some(ev) else None
  }

  /** `getform`: 404 unless a Normal event has this id. */
  function GetForm(events: seq<Event>, eventId: Id): (r: Result<FormReply, AccessError>)
    ensures r.Err? <==> FindNormal(events, eventId).None?
    ensures r.Err? ==> r.error == EventNotFound
    ensures r.Ok? ==>
      var ev := FindNormal(events, eventId).value;
      (r.value == NoFields <==> ev.kind.formschema.None?) &&
      (ev.kind.formschema.Some? ==> r.value == Fields(ev.kind.formschema.value))
  {
    match FindNormal(events, eventId)
    case None => Err(EventNotFound)
    case Some(ev) =>
      match ev.kind.formschema
      case None => Ok(NoFields)
      case Some(f) => Ok(Fields(f))
  }

  datatype FormError = FormNotFound | FormNotYours | FormFrozen
  {
    function Code(): int
    {
      match this
      case FormNotFound => 404
      case FormNotYours => 403
      case FormFrozen => 400
    }
  }

  /** The number of registrations holding a place at the event. */
  function ActiveCount(regs: seq<Registration>, eventId: Id): nat
  {
    CountWhere(regs, ActiveFor(eventId))
  }

  /** `updateform`: the owner replaces the form while no registration
      holds a place; the event is otherwise unchanged. */
  function UpdateForm(db: Db, eventId: Id, caller: Id, form: seq<FormField>): (r: Result<Db, FormError>)
    ensures FindNormal(db.events, eventId).None? <==> r == Err(FormNotFound)
    ensures FindNormal(db.events, eventId).Some? ==>
      var ev := FindNormal(db.events, eventId).value;
      && (r == Err(FormNotYours) <==> ev.organizer != caller)
      && (r == Err(FormFrozen) <==> ev.organizer == caller && ActiveCount(db.regs, eventId) > 0)
      && (r.Ok? <==> ev.organizer == caller && ActiveCount(db.regs, eventId) == 0)
    ensures r.Ok? ==>
      var i := EventIndex(db.events, eventId);
      && r.value.regs == db.regs
      && |r.value.events| == |db.events|
      && (forall k :: 0 <= k < |db.events| && k != i ==> r.value.events[k] == db.events[k])
      && r.value.events[i] == db.events[i].(kind := Normal(db.events[i].kind.fee, Some(form)))
  {
    match FindNormal(db.events, eventId)
    case None => Err(FormNotFound)
    case Some(ev) =>
      if ev.organizer != caller then Err(FormNotYours)
      else if ActiveCount(db.regs, eventId) > 0 then Err(FormFrozen)
      else
        var i := EventIndex(db.events, eventId);
        Ok(Db(db.events[i := ev.(kind := Normal(ev.kind.fee, Some(form)))], db.regs))
  }

  /** A saved form is what `getform` answers afterwards. */
  lemma UpdateFormThenGet(db: Db, eventId: Id, caller: Id, form: seq<FormField>)
    requires UpdateForm(db, eventId, caller, form).Ok?
    ensures GetForm(UpdateForm(db, eventId, caller, form).value.events, eventId) == Ok(Fields(form))
  {
    var events' := UpdateForm(db, eventId, caller, form).value.events;
    var i := EventIndex(db.events, eventId);
    SameIdsSameIndex(db.events, events', eventId);
  }

  /** Once someone registers the form is frozen for its owner. */
  lemma RegistrationFreezesForm(db: Db, user: Id, eventId: Id, fd: Option<seq<Json>>, now: Timestamp, ticket: string, form: seq<FormField>)
    requires Registrations.Register(db, user, eventId, fd, now, ticket).Ok?
    requires FindNormal(db.events, eventId).Some?
    ensures var db' := Registrations.Register(db, user, eventId, fd, now, ticket).value.db;
      UpdateForm(db', eventId, FindNormal(db.events, eventId).value.organizer, form) == Err(FormFrozen)
  {
    var db' := Registrations.Register(db, user, eventId, fd, now, ticket).value.db;
    var reg := NewRegistration(user, eventId, Registered, ticket, fd, now);
    var i := EventIndex(db.events, eventId);
    assert db'.regs == db.regs + [reg];
    CountWhereAppend(db.regs, [reg], ActiveFor(eventId));
    assert CountWhere([reg], ActiveFor(eventId)) == 1;
    SameIdsSameIndex(db.events, db'.events, eventId);
  }
}

=== FILE: formbuilder.dfy ===
/** The custom registration form editor of the organizer pages: a list of
    fields edited in place, option lists for dropdown fields, and the check
    and clean-up run before the form is saved. */
module FormBuilder {
  import opened Common
  import opened Models
  import opened Text
  import opened Sorting
  import Registrations

  /** `locked`: the builder is read-only once anyone has registered. */
  predicate Locked(regcount: int)
  {
    regcount > 0
  }

  /** A successful registration locks the builder of its event, given that
      counters start at zero and only grow. */
  lemma RegistrationLocksBuilder(db: Db, user: Id, eventId: Id, fd: Option<seq<Json>>, now: Timestamp, ticket: string)
    requires Registrations.Register(db, user, eventId, fd, now, ticket).Ok?
    requires forall k :: 0 <= k < |db.events| ==> db.events[k].regcount >= 0
    ensures var i := EventIndex(db.events, eventId);
      0 <= i < |db.events| &&
      Locked(Registrations.Register(db, user, eventId, fd, now, ticket).value.db.events[i].regcount)
  {
  }

  // ---------------------------------------------------------------------
  // The field list

  /** The field `addField` appends: an optional text field with no label. */
  function BlankField(): FormField
  {
    FormField("", TextField, false, None)
  }

  /** `addField`. */
  function AddField(fs: seq<FormField>): (r: seq<FormField>)
    ensures |r| == |fs| + 1 && r[..|fs|] == fs
    ensures r[|fs|].fieldLabel == "" && r[|fs|].fieldType == TextField && !r[|fs|].required
  {
    fs + [BlankField()]
  }

  /** `removeField`: every field except the one at `index`; an index off
      the list removes nothing. */
  function RemoveField(fs: seq<FormField>, index: int): (r: seq<FormField>)
    ensures 0 <= index < |fs| ==>
      && |r| == |fs| - 1
      && (forall j :: 0 <= j < index ==> r[j] == fs[j])
      && (forall j :: index <= j < |r| ==> r[j] == fs[j + 1])
    ensures !(0 <= index < |fs|) ==> r == fs
  {
    if 0 <= index < |fs| then fs[..index] + fs[index + 1..] else fs
  }

  /** Removing a field loses that field and nothing else. */
  lemma RemoveFieldMultiset(fs: seq<FormField>, index: int)
    requires 0 <= index < |fs|
    ensures multiset(RemoveField(fs, index)) + multiset{fs[index]} == multiset(fs)
  {
    assert fs == fs[..index] + [fs[index]] + fs[index + 1..];
  }

  /** Removing the field just added gives the list back. */
  lemma AddThenRemove(fs: seq<FormField>)
    ensures RemoveField(AddField(fs), |fs|) == fs
  {
  }

  /** `Partial<FormField>`: the keys present in an update. An update may set
      `options` to `undefined`, hence the nested option. */
  datatype FieldPatch = FieldPatch(
    fieldLabel: Option<string>,
    fieldType: Option<FieldType>,
    required: Option<bool>,
    options: Option<Option<seq<string>>>)

  /** `{ ...f, ...updates }`. */
  function ApplyPatch(f: FormField, u: FieldPatch): (r: FormField)
    ensures u.fieldLabel.None? ==> r.fieldLabel == f.fieldLabel
    ensures u.fieldType.None? ==> r.fieldType == f.fieldType
    ensures u.required.None? ==> r.required == f.required
    ensures u.options.None? ==> r.options == f.options
    ensures u.fieldLabel.Some? ==> r.fieldLabel == u.fieldLabel.value
    ensures u.fieldType.Some? ==> r.fieldType == u.fieldType.value
    ensures u.required.Some? ==> r.required == u.required.value
    ensures u.options.Some? ==> r.options == u.options.value
  {
    FormField(u.fieldLabel.GetOr(f.fieldLabel), u.fieldType.GetOr(f.fieldType),
              u.required.GetOr(f.required), u.options.GetOr(f.options))
  }

  /** `updateField`: the update merged into the field at `index` only. */
  function UpdateField(fs: seq<FormField>, index: int, u: FieldPatch): (r: seq<FormField>)
    ensures |r| == |fs|
    ensures forall j :: 0 <= j < |fs| && j != index ==> r[j] == fs[j]
    ensures 0 <= index < |fs| ==> r[index] == ApplyPatch(fs[index], u)
  {
    if 0 <= index < |fs| then fs[index := ApplyPatch(fs[index], u)] else fs
  }

  /** An empty update changes nothing, and repeating an update is the same
      as making it once. */
  lemma UpdateFieldLaws(fs: seq<FormField>, index: int, u: FieldPatch)
    ensures UpdateField(fs, index, FieldPatch(None, None, None, None)) == fs
    ensures UpdateField(UpdateField(fs, index, u), index, u) == UpdateField(fs, index, u)
  {
    var once := UpdateField(fs, index, u);
    var twice := UpdateField(once, index, u);
    assert |twice| == |once|;
    forall j | 0 <= j < |fs|
      ensures twice[j] == once[j]
    {
    }
  }

  /** `moveField`: swap the field with its neighbour in `direction`, or do
      nothing when there is no such neighbour. */
  function MoveField(fs: seq<FormField>, index: nat, direction: int): (r: seq<FormField>)
    requires index < |fs|
    requires direction == -1 || direction == 1
    ensures |r| == |fs| && multiset(r) == multiset(fs)
    ensures 0 <= index + direction < |fs| ==>
      && r[index] == fs[index + direction] && r[index + direction] == fs[index]
      && forall j :: 0 <= j < |fs| && j != index && j != index + direction ==> r[j] == fs[j]
    ensures !(0 <= index + direction < |fs|) ==> r == fs
  {
    var target := index + direction;
    if target < 0 || target >= |fs| then fs
    else fs[index := fs[target]][target := fs[index]]
  }

  /** Moving a field and then moving it back restores the list. */
  lemma MoveFieldBack(fs: seq<FormField>, index: nat, direction: int)
    requires index < |fs|
    requires direction == -1 || direction == 1
    requires 0 <= index + direction < |fs|
    ensures MoveField(MoveField(fs, index, direction), index + direction, -direction) == fs
  {
    var once := MoveField(fs, index, direction);
    var back := MoveField(once, index + direction, -direction);
    forall j | 0 <= j < |fs|
      ensures back[j] == fs[j]
    {
    }
  }

  // ---------------------------------------------------------------------
  // Options of a dropdown field

  /** `field.options || []`. */
  function OptionsOf(f: FormField): seq<string>
  {
    f.options.GetOr([])
  }

  /** `addOption`: a blank option appended to the field's list. */
  function AddOption(fs: seq<FormField>, index: nat): (r: seq<FormField>)
    requires index < |fs|
    ensures |r| == |fs| && forall j :: 0 <= j < |fs| && j != index ==> r[j] == fs[j]
    ensures r[index].(options := fs[index].options) == fs[index]
    ensures r[index].options == Some(OptionsOf(fs[index]) + [""])
  {
    UpdateField(fs, index, FieldPatch(None, None, None, Some(Some(OptionsOf(fs[index]) + [""]))))
  }

  /** `updateOption`: the option at `optIndex` replaced by `value`. */
  function UpdateOption(fs: seq<FormField>, index: nat, optIndex: nat, value: string): (r: seq<FormField>)
    requires index < |fs|
    requires optIndex < |OptionsOf(fs[index])|
    ensures |r| == |fs| && forall j :: 0 <= j < |fs| && j != index ==> r[j] == fs[j]
    ensures r[index].(options := fs[index].options) == fs[index]
    ensures r[index].options.Some?
    ensures |r[index].options.value| == |OptionsOf(fs[index])|
    ensures r[index].options.value[optIndex] == value
    ensures forall k :: 0 <= k < |OptionsOf(fs[index])| && k != optIndex ==> r[index].options.value[k] == OptionsOf(fs[index])[k]
  {
    var options := OptionsOf(fs[index])[optIndex := value];
    UpdateField(fs, index, FieldPatch(None, None, None, Some(Some(options))))
  }

  /** `removeOption`: every option except the one at `optIndex`. */
  function RemoveOption(fs: seq<FormField>, index: nat, optIndex: int): (r: seq<FormField>)
    requires index < |fs|
    ensures |r| == |fs| && forall j :: 0 <= j < |fs| && j != index ==> r[j] == fs[j]
    ensures r[index].(options := fs[index].options) == fs[index]
    ensures r[index].options.Some?
    ensures var o := OptionsOf(fs[index]);
      0 <= optIndex < |o| ==> r[index].options.value == o[..optIndex] + o[optIndex + 1..]
    ensures var o := OptionsOf(fs[index]);
      !(0 <= optIndex < |o|) ==> r[index].options.value == o
  {
    var o := OptionsOf(fs[index]);
    var options := if 0 <= optIndex < |o| then o[..optIndex] + o[optIndex + 1..] else o;
    UpdateField(fs, index, FieldPatch(None, None, None, Some(Some(options))))
  }

  /** Removing the option just added restores the option list; the field
      itself comes back unchanged when it already had a list. */
  lemma AddThenRemoveOption(fs: seq<FormField>, index: nat)
    requires index < |fs|
    ensures var r := RemoveOption(AddOption(fs, index), index, |OptionsOf(fs[index])|);
      && OptionsOf(r[index]) == OptionsOf(fs[index])
      && (fs[index].options.Some? ==> r == fs)
  {
    var a := AddOption(fs, index);
    var o := OptionsOf(fs[index]);
    assert (o + [""])[..|o|] == o;
    var r := RemoveOption(a, index, |o|);
    assert (o + [""])[|o| + 1..] == [];
    assert r[index].options.value == o;
    if fs[index].options.Some? {
      assert r[index] == fs[index];
      assert forall j :: 0 <= j < |fs| ==> r[j] == fs[j];
    }
  }

  // ---------------------------------------------------------------------
  // save

  /** `o.trim()` is truthy. */
  predicate NonBlank(o: string)
  {
    Trim(o) != ""
  }

  /** What `save` demands of one field: a label that is not blank, and for
      a dropdown at least two options that are not blank. */
  predicate FieldReady(f: FormField)
  {
    && Trim(f.fieldLabel) != ""
    && (f.fieldType == SelectField ==> f.options.Some? && |Filter(f.options.value, NonBlank)| >= 2)
  }

  datatype SaveError = MissingLabel | TooFewOptions(name: string)

  /** The message `save` shows for a field that is not ready. */
  function ProblemWith(f: FormField): SaveError
  {
    if Trim(f.fieldLabel) == "" then MissingLabel else TooFewOptions(f.fieldLabel)
  }

  /** The validation loop: the first field that is not ready decides the
      message. */
  function FirstProblem(fs: seq<FormField>): (r: Option<SaveError>)
    ensures r.None? <==> forall k :: 0 <= k < |fs| ==> FieldReady(fs[k])
    ensures r.Some? ==> FirstFailing(fs, FieldReady) >= 0 && r.value == ProblemWith(fs[FirstFailing(fs, FieldReady)])
  {
    var k := FirstFailing(fs, FieldReady);
    if k == -1 then None else Some(ProblemWith(fs[k]))
  }

  /** `cleanFields`' map for one field: the label trimmed, a dropdown's
      blank options dropped, and no options for any other type. */
  function CleanField(f: FormField): (r: FormField)
    ensures r.fieldType == f.fieldType && r.required == f.required
    ensures r.fieldLabel == Trim(f.fieldLabel)
    ensures f.fieldType != SelectField ==> r.options.None?
    ensures f.fieldType == SelectField ==>
      r.options == if f.options.Some? then Some(Filter(f.options.value, NonBlank)) else None
  {
    f.(fieldLabel := Trim(f.fieldLabel),
       options := if f.fieldType == SelectField && f.options.Some? then Some(Filter(f.options.value, NonBlank)) else None)
  }

  function CleanFields(fs: seq<FormField>): (r: seq<FormField>)
    ensures |r| == |fs| && forall k :: 0 <= k < |fs| ==> r[k] == CleanField(fs[k])
  {
    MapSeq(fs, CleanField)
  }

  /** A saved field: a trimmed non-empty label, and options exactly for a
      dropdown, at least two and none blank. */
  predicate SavedField(f: FormField)
  {
    && f.fieldLabel != "" && Trimmed(f.fieldLabel)
    && (f.fieldType == SelectField ==>
          f.options.Some? && |f.options.value| >= 2 &&
          forall i :: 0 <= i < |f.options.value| ==> NonBlank(f.options.value[i]))
    && (f.fieldType != SelectField ==> f.options.None?)
  }

  /** `save` up to the request: the first problem, or the cleaned list it
      sends. */
  function Save(fs: seq<FormField>): (r: Result<seq<FormField>, SaveError>)
    ensures r.Ok? <==> forall k :: 0 <= k < |fs| ==> FieldReady(fs[k])
    ensures r.Ok? ==> |r.value| == |fs| && forall k :: 0 <= k < |fs| ==>
      && SavedField(r.value[k])
      && r.value[k].fieldType == fs[k].fieldType && r.value[k].required == fs[k].required
      && r.value[k].fieldLabel == Trim(fs[k].fieldLabel)
      && (fs[k].fieldType == SelectField ==> r.value[k].options == Some(Filter(OptionsOf(fs[k]), NonBlank)))
    ensures r.Err? ==> FirstFailing(fs, FieldReady) >= 0 && r.error == ProblemWith(fs[FirstFailing(fs, FieldReady)])
  {
    match FirstProblem(fs)
    case Some(e) => Err(e)
    case None =>
      var r := CleanFields(fs);
      assert forall k :: 0 <= k < |fs| ==> SavedField(r[k]) by {
        forall k | 0 <= k < |fs|
          ensures SavedField(r[k])
        {
          TrimSpec(fs[k].fieldLabel);
        }
      }
      Ok(r)
  }

  /** A saved field is unchanged by cleaning and passes validation again. */
  lemma SavedFieldIsClean(f: FormField)
    requires SavedField(f)
    ensures CleanField(f) == f && FieldReady(f)
  {
    TrimTrimmed(f.fieldLabel);
    if f.fieldType == SelectField {
      SavedOptionsKept(f.options.value);
    }
  }

  lemma SavedOptionsKept(o: seq<string>)
    requires forall i :: 0 <= i < |o| ==> NonBlank(o[i])
    ensures Filter(o, NonBlank) == o
  {
    FilterAll(o, NonBlank);
  }

  /** Saving what was saved sends the same list again. */
  lemma SaveIdempotent(fs: seq<FormField>)
    requires Save(fs).Ok?
    ensures Save(Save(fs).value) == Save(fs)
  {
    var r := Save(fs).value;
    forall k | 0 <= k < |r|
      ensures CleanField(r[k]) == r[k] && FieldReady(r[k])
    {
      SavedFieldIsClean(r[k]);
    }
    assert CleanFields(r) == r;
  }
}

=== FILE: models.dfy ===
/** The stored documents of the backend: events (a Normal or Merchandise
    kind), registrations with their check-in log and payment record, and the
    store the controllers read and write. Schema defaults and the `required`
    and `min: 0` validators of the document models are applied by
    `MaterializeEvent`. */
module Models {
  import opened Common
  import opened Sorting

  datatype EventStatus = Draft | Published | Ongoing | Completed | Cancelled

  /** The enum spelling stored in the document. */
  function StatusName(s: EventStatus): string
  {
    match s
    case Draft => "draft"
    case Published => "published"
    case Ongoing => "ongoing"
    case Completed => "completed"
    case Cancelled => "cancelled"
  }

  /** Only `Published` is spelled "published". */
  lemma StatusNamePublished(s: EventStatus)
    ensures StatusName(s) == "published" <==> s == Published
  {
    assert "published"[0] == 'p';
    assert "completed"[0] != 'p' && "cancelled"[0] != 'p';
  }

  datatype Dates = Dates(start: Timestamp, end: Timestamp, deadline: Timestamp)

  /** One merchandise variant as stored. */
  datatype Variant = Variant(name: string, stock: int, price: int)

  datatype FieldType = TextField | EmailField | NumberField | SelectField | FileField | TextareaField | CheckboxField

  /** One question of a Normal event's custom registration form. */
  datatype FormField = FormField(fieldLabel: string, fieldType: FieldType, required: bool, options: Option<seq<string>>)

  /** The discriminated part of an event. */
  datatype EventKind =
    | Normal(fee: int, formschema: Option<seq<FormField>>)
    | Merchandise(variants: seq<Variant>, purchaseLimit: int)

  datatype Event = Event(
    id: Id,
    name: string,
    description: string,
    kind: EventKind,
    eligibility: string,
    dates: Dates,
    limit: int,
    organizer: Id,
    tags: seq<string>,
    status: EventStatus,
    regcount: int)

  /** A variant as supplied to the document model, price possibly omitted. */
  datatype VariantInput = VariantInput(name: string, stock: int, price: Option<int>)

  datatype KindInput =
    | NormalInput(fee: Option<int>, formschema: Option<seq<FormField>>)
    | MerchandiseInput(variants: seq<VariantInput>, purchaseLimit: Option<int>)

  /** An event document as handed to the model before defaults apply. */
  datatype EventInput = EventInput(
    id: Id,
    name: string,
    description: string,
    kind: KindInput,
    eligibility: string,
    dates: Dates,
    limit: int,
    organizer: Id,
    tags: seq<string>,
    status: Option<EventStatus>,
    regcount: Option<int>)

  /** The validators of a variant: `name` is `required`, which for a
      string refuses the empty string, and stock and price are `min: 0`. */
  predicate VariantAccepted(v: VariantInput)
  {
    v.name != "" && v.stock >= 0 && v.price.GetOr(0) >= 0
  }

  /** Every stored variant passes the variant validators. */
  predicate ValidVariants(vs: seq<Variant>)
  {
    forall i :: 0 <= i < |vs| ==> vs[i].name != "" && vs[i].stock >= 0 && vs[i].price >= 0
  }

  /** An event document that `save()` accepts: the required strings `name`
      and `eligibility` are non-empty and every variant is valid. */
  predicate Saveable(e: Event)
  {
    e.name != "" && e.eligibility != "" && (e.kind.Merchandise? ==> ValidVariants(e.kind.variants))
  }

  function MaterializeVariants(vs: seq<VariantInput>): (r: seq<Variant>)
    ensures |r| == |vs|
    ensures forall i :: 0 <= i < |vs| ==>
      r[i] == Variant(vs[i].name, vs[i].stock, vs[i].price.GetOr(0))
  {
    if |vs| == 0 then [] else [Variant(vs[0].name, vs[0].stock, vs[0].price.GetOr(0))] + MaterializeVariants(vs[1..])
  }

  /** The stored variants are valid exactly when every input variant passes
      the validators. */
  lemma MaterializedValid(vs: seq<VariantInput>)
    ensures ValidVariants(MaterializeVariants(vs)) <==> forall i :: 0 <= i < |vs| ==> VariantAccepted(vs[i])
  {
    var r := MaterializeVariants(vs);
    if !ValidVariants(r) {
      var i :| 0 <= i < |r| && !(r[i].name != "" && r[i].stock >= 0 && r[i].price >= 0);
      assert !VariantAccepted(vs[i]);
    }
  }

  /** Saving an event document: the schema defaults fill what was omitted
      (status draft, regcount 0, fee 0, purchaseLimit 1, variant price 0),
      the `required` validators refuse an empty name or eligibility, and the
      variant validators refuse an empty name, a negative stock or price. */
  function MaterializeEvent(d: EventInput): (r: Result<Event, string>)
    ensures r.Ok? <==>
      && d.name != "" && d.eligibility != ""
      && (d.kind.MerchandiseInput? ==> forall i :: 0 <= i < |d.kind.variants| ==> VariantAccepted(d.kind.variants[i]))
    ensures r.Ok? ==> Saveable(r.value)
    ensures r.Ok? ==> r.value.status == (if d.status.Some? then d.status.value else Draft)
    ensures r.Ok? ==> r.value.regcount == (if d.regcount.Some? then d.regcount.value else 0)
    ensures r.Ok? ==> r.value.kind.Normal? == d.kind.NormalInput?
    ensures r.Ok? && d.kind.NormalInput? ==>
      r.value.kind.fee == (if d.kind.fee.Some? then d.kind.fee.value else 0) && r.value.kind.formschema == d.kind.formschema
    ensures r.Ok? && d.kind.MerchandiseInput? ==>
      && r.value.kind.purchaseLimit == (if d.kind.purchaseLimit.Some? then d.kind.purchaseLimit.value else 1)
      && |r.value.kind.variants| == |d.kind.variants|
    ensures r.Ok? ==> r.value.name == d.name && r.value.organizer == d.organizer && r.value.limit == d.limit
  {
    var kind :=
      match d.kind
      case NormalInput(fee, form) => Normal(fee.GetOr(0), form)
      case MerchandiseInput(vs, pl) => Merchandise(MaterializeVariants(vs), pl.GetOr(1));
    var ev := Event(d.id, d.name, d.description, kind, d.eligibility, d.dates, d.limit, d.organizer, d.tags,
                    d.status.GetOr(Draft), d.regcount.GetOr(0));
    if d.kind.MerchandiseInput? then
      MaterializedValid(d.kind.variants);
      Validate(ev)
    else Validate(ev)
  }

  /** The validation `save()` runs over the whole document: a ValidationError
      when a validator fails, otherwise the document unchanged. */
  function Validate(e: Event): (r: Result<Event, string>)
    ensures r.Ok? <==> Saveable(e)
    ensures r.Ok? ==> r.value == e
  {
    if Saveable(e) then Ok(e) else Err("validation failed")
  }

  datatype RegStatus = Registered | Pending | Purchased | Rejected | Cancelled

  /** The enum spelling stored in the document. */
  function RegStatusName(s: RegStatus): string
  {
    match s
    case Registered => "Registered"
    case Pending => "Pending"
    case Purchased => "Purchased"
    case Rejected => "Rejected"
    case Cancelled => "Cancelled"
  }

  /** The statuses that hold a place: counted in attendance and freezing the form. */
  predicate Active(s: RegStatus)
  {
    s == Registered || s == Pending || s == Purchased
  }

  /** A registration of the event that holds a place. */
  function ActiveFor(eventId: Id): Registration -> bool
  {
    (r: Registration) => r.event == eventId && Active(r.status)
  }

  datatype CheckinAction = Scan | ManualCheckin | ManualOverride

  /** One entry of the append-only check-in audit log. */
  datatype CheckinEntry = CheckinEntry(action: CheckinAction, reason: Option<string>, actor: Id, at: Timestamp)

  datatype Payment = Payment(proof: string, uploadedat: Timestamp)

  datatype Registration = Registration(
    user: Id,
    event: Id,
    status: RegStatus,
    ticketid: string,
    checkin: bool,
    checkinat: Option<Timestamp>,
    checkinlog: seq<CheckinEntry>,
    formdata: Option<seq<Json>>,
    payment: Option<Payment>,
    createdAt: Timestamp)

  /** A registration document created with only the required fields and
      status: the schema defaults leave it un-checked-in, with an empty log
      and no payment. */
  function NewRegistration(user: Id, event: Id, status: RegStatus, ticketid: string,
                           formdata: Option<seq<Json>>, createdAt: Timestamp): (r: Registration)
    ensures !r.checkin && r.checkinat.None? && |r.checkinlog| == 0 && r.payment.None?
    ensures r.user == user && r.event == event && r.status == status
    ensures r.ticketid == ticketid && r.formdata == formdata && r.createdAt == createdAt
  {
    Registration(user, event, status, ticketid, false, None, [], formdata, None, createdAt)
  }

  /** The unique index on `ticketid`. */
  predicate UniqueTickets(regs: seq<Registration>)
  {
    forall i, j :: 0 <= i < j < |regs| ==> regs[i].ticketid != regs[j].ticketid
  }

  function IdOf(e: Event): Id
  {
    e.id
  }

  /** Event ids are document keys. */
  predicate UniqueEventIds(events: seq<Event>)
  {
    DistinctBy(events, IdOf)
  }

  /** Some event of `s` has this id. */
  predicate HasId(s: seq<Event>, id: Id)
  {
    exists k :: 0 <= k < |s| && s[k].id == id
  }

  /** The two collections the controllers work on, in natural order. */
  datatype Db = Db(events: seq<Event>, regs: seq<Registration>)

  /** `findById`: the position of the event with this id, or -1. */
  function EventIndex(events: seq<Event>, id: Id): (i: int)
    ensures -1 <= i < |events|
    ensures i >= 0 ==> events[i].id == id
    ensures i == -1 <==> forall k :: 0 <= k < |events| ==> events[k].id != id
  {
    if |events| == 0 then -1
    else if events[0].id == id then 0
    else
      var j := EventIndex(events[1..], id);
      if j == -1 then -1 else j + 1
  }

  /** Lookup by id depends only on the ids. */
  lemma {:induction false} SameIdsSameIndex(a: seq<Event>, b: seq<Event>, id: Id)
    requires |a| == |b|
    requires forall k :: 0 <= k < |a| ==> a[k].id == b[k].id
    ensures EventIndex(a, id) == EventIndex(b, id)
  {
    if |a| > 0 {
      SameIdsSameIndex(a[1..], b[1..], id);
    }
  }

  function FindEvent(events: seq<Event>, id: Id): (r: Option<Event>)
    ensures r.Some? <==> exists k :: 0 <= k < |events| && events[k].id == id
    ensures r.Some? ==> r.value in events && r.value.id == id
  {
    var i := EventIndex(events, id);
    if i == -1 then None else Some(events[i])
  }

  /** `findOne({ ticketid })`: the position of the first registration with
      this ticket id, or -1. */
  function TicketIndex(regs: seq<Registration>, ticketid: string): (i: int)
    ensures -1 <= i < |regs|
    ensures i >= 0 ==> regs[i].ticketid == ticketid
    ensures i >= 0 ==> forall k :: 0 <= k < i ==> regs[k].ticketid != ticketid
    ensures i == -1 <==> forall k :: 0 <= k < |regs| ==> regs[k].ticketid != ticketid
  {
    if |regs| == 0 then -1
    else if regs[0].ticketid == ticketid then 0
    else
      var j := TicketIndex(regs[1..], ticketid);
      if j == -1 then -1 else j + 1
  }

  /** The participant's affiliation as stored (`'IIIT' | 'Non-IIIT'`). */
  datatype Affiliation = IIIT | NonIIIT

  function AffiliationName(a: Affiliation): string
  {
    match a
    case IIIT => "IIIT"
    case NonIIIT => "Non-IIIT"
  }

  /** A participant account; `password` holds the password hash. */
  datatype Participant = Participant(
    id: Id,
    email: string,
    password: string,
    firstName: string,
    lastName: string,
    contact: string,
    college: string,
    affiliation: Affiliation,
    interests: seq<string>,
    following: seq<Id>)

  /** `findById` over the participants: the first with this id, or -1. */
  function ParticipantIndex(ps: seq<Participant>, id: Id): (i: int)
    ensures -1 <= i < |ps|
    ensures i >= 0 ==> ps[i].id == id
    ensures i == -1 <==> forall k :: 0 <= k < |ps| ==> ps[k].id != id
  {
    if |ps| == 0 then -1
    else if ps[0].id == id then 0
    else
      var j := ParticipantIndex(ps[1..], id);
      if j == -1 then -1 else j + 1
  }

  /** An organizer (club) account. */
  datatype Organizer = Organizer(
    id: Id,
    email: string,
    password: string,
    name: string,
    category: string,
    description: Option<string>,
    contactEmail: Option<string>,
    contact: string,
    disabled: bool)
}

=== FILE: organizers.dfy ===
/** The organizer controller: a participant following or unfollowing a club
    (`togglefollow`) and an organizer editing their own profile
    (`updateownprofile`). */
module Organizers {
  import opened Common
  import opened Models
  import opened Text

  /** `indexOf` then `splice(idx, 1)` or `push`: drop the first occurrence
      of `x`, or append `x` when there is none. */
  function Toggle<T(==)>(s: seq<T>, x: T): (r: seq<T>)
    ensures x !in s ==> r == s + [x]
    ensures x in s ==>
      var i := IndexOf(s, x);
      && |r| == |s| - 1
      && r[..i] == s[..i] && r[i..] == s[i + 1..]
      && s[i] == x && x !in s[..i]
  {
    var i := IndexOf(s, x);
    if i > -1 then RemoveAt(s, i) else s + [x]
  }

  /** Toggling removes one occurrence or adds the first; after it `x` is
      followed exactly when it was not followed, unless it was listed more
      than once. */
  lemma ToggleCount<T>(s: seq<T>, x: T)
    ensures Count(Toggle(s, x), x) == if x in s then Count(s, x) - 1 else 1
    ensures x in Toggle(s, x) <==> Count(s, x) != 1
  {
    if x in s {
      ToggleCountPresent(s, x);
    } else {
      ToggleCountAbsent(s, x);
    }
    CountPositive(Toggle(s, x), x);
    CountPositive(s, x);
  }

  lemma ToggleCountPresent<T>(s: seq<T>, x: T)
    requires x in s
    ensures Count(Toggle(s, x), x) == Count(s, x) - 1
  {
    var i := IndexOf(s, x);
    assert Toggle(s, x) == RemoveAt(s, i);
    CountRemoveAt(s, i, x);
  }

  /** Removing position `i` removes one occurrence of `s[i]`. */
  lemma {:induction false} CountRemoveAt<T>(s: seq<T>, i: nat, y: T)
    requires i < |s|
    ensures Count(RemoveAt(s, i), y) == Count(s, y) - (if s[i] == y then 1 else 0)
    decreases i
  {
    var r := RemoveAt(s, i);
    if i == 0 {
      assert r == s[1..];
    } else {
      CountRemoveAt(s[1..], i - 1, y);
      assert r[0] == s[0] && r[1..] == RemoveAt(s[1..], i - 1);
    }
  }

  lemma ToggleCountAbsent<T>(s: seq<T>, x: T)
    requires x !in s
    ensures Count(Toggle(s, x), x) == 1
  {
    assert Toggle(s, x) == s + [x];
    CountAppend(s, [x], x);
    CountAbsent(s, x);
    assert Count([x], x) == 1;
  }

  /** Removing one element from the middle removes one occurrence of it. */
  lemma CountMiddle<T>(a: seq<T>, x: T, b: seq<T>, y: T)
    ensures Count(a + [x] + b, y) == Count(a + b, y) + (if x == y then 1 else 0)
  {
    CountAppend(a + [x], b, y);
    CountAppend(a, [x], y);
    CountAppend(a, b, y);
    assert [x][1..] == [];
  }

  /** Any other entry keeps its number of occurrences. */
  lemma ToggleKeepsOtherCounts<T>(s: seq<T>, x: T, y: T)
    requires y != x
    ensures Count(Toggle(s, x), y) == Count(s, y)
  {
    if x in s {
      var i := IndexOf(s, x);
      var a, b := s[..i], s[i + 1..];
      assert s == a + [x] + b;
      assert Toggle(s, x) == a + b;
      CountMiddle(a, x, b, y);
    } else {
      CountAppend(s, [x], y);
      assert [x][1..] == [];
    }
  }

  /** The entries other than `x` keep their relative order. */
  lemma ToggleKeepsOtherOrder<T>(s: seq<T>, x: T)
    ensures RemoveAll(Toggle(s, x), x) == RemoveAll(s, x)
  {
    if x in s {
      var i := IndexOf(s, x);
      var a, b := s[..i], s[i + 1..];
      assert s == a + [x] + b;
      assert Toggle(s, x) == a + b;
      RemoveMiddle(a, x, b);
    } else {
      RemoveAllAppend(s, [x], x);
    }
  }

  lemma RemoveMiddle<T>(a: seq<T>, x: T, b: seq<T>)
    ensures RemoveAll(a + [x] + b, x) == RemoveAll(a + b, x)
  {
    RemoveAllAppend(a + [x], b, x);
    RemoveAllAppend(a, [x], x);
    RemoveAllAppend(a, b, x);
  }

  /** Following and then unfollowing a club not yet followed restores the
      list exactly. */
  lemma ToggleTwiceAbsent<T>(s: seq<T>, x: T)
    requires x !in s
    ensures Toggle(Toggle(s, x), x) == s
  {
    var t := s + [x];
    assert IndexOf(t, x) == |s| by {
      assert t[..|s|] == s;
    }
  }

  /** Unfollowing and then following again a club listed once restores the
      membership, but the club moves to the end. */
  lemma ToggleTwicePresent<T>(s: seq<T>, x: T)
    requires Count(s, x) == 1
    ensures x in s
    ensures Toggle(Toggle(s, x), x) == RemoveAt(s, IndexOf(s, x)) + [x]
  {
    CountPositive(s, x);
    ToggleCount(s, x);
  }

  datatype FollowError = ParticipantNotFound
  {
    function Code(): int { 404 }
  }

  /** `togglefollow`: the caller's `following` list toggled for `orgid`;
      the answer is the new list. */
  function ToggleFollow(ps: seq<Participant>, caller: Id, orgid: Id): (r: Result<(seq<Participant>, seq<Id>), FollowError>)
    ensures r.Err? <==> ParticipantIndex(ps, caller) == -1
    ensures r.Ok? ==>
      var i := ParticipantIndex(ps, caller);
      && r.value.1 == Toggle(ps[i].following, orgid)
      && r.value.0 == ps[i := ps[i].(following := r.value.1)]
  {
    var i := ParticipantIndex(ps, caller);
    if i == -1 then Err(ParticipantNotFound)
    else
      var following := Toggle(ps[i].following, orgid);
      Ok((ps[i := ps[i].(following := following)], following))
  }

  /** A successful toggle changes the caller's following list and nothing
      else, in the caller's account or any other. */
  lemma ToggleFollowOnlyFollowing(ps: seq<Participant>, caller: Id, orgid: Id)
    requires ToggleFollow(ps, caller, orgid).Ok?
    ensures var ps' := ToggleFollow(ps, caller, orgid).value.0;
      && |ps'| == |ps|
      && forall k :: 0 <= k < |ps| ==>
        ps'[k].(following := ps[k].following) == ps[k] && (ps[k].id != caller ==> ps'[k] == ps[k])
  {
    var i := ParticipantIndex(ps, caller);
    var ps' := ToggleFollow(ps, caller, orgid).value.0;
    forall k | 0 <= k < |ps| && ps[k].id != caller
      ensures ps'[k] == ps[k]
    {
      assert k != i;
    }
  }

  // ---------------------------------------------------------------------
  // updateownprofile

  /** The accepted body: each field optional. */
  datatype OrgUpdate = OrgUpdate(
    name: Option<string>,
    category: Option<string>,
    description: Option<string>,
    contact: Option<string>)

  /** The update schema: a given name or category is non-empty and a given
      contact has at least ten characters. */
  predicate OrgUpdateValid(u: OrgUpdate)
  {
    && (u.name.Some? ==> Utf16Length(u.name.value) >= 1)
    && (u.category.Some? ==> Utf16Length(u.category.value) >= 1)
    && (u.contact.Some? ==> Utf16Length(u.contact.value) >= 10)
  }

  function SetOpt(stored: string, v: Option<string>): string
  {
    if v.Some? then v.value else stored
  }

  /** `$set` of the given fields. */
  function ApplyOrgUpdate(o: Organizer, u: OrgUpdate): (r: Organizer)
    ensures r.(name := o.name, category := o.category, description := o.description, contact := o.contact) == o
    ensures r.name == SetOpt(o.name, u.name) && r.category == SetOpt(o.category, u.category)
    ensures r.contact == SetOpt(o.contact, u.contact)
    ensures r.description == (if u.description.Some? then u.description else o.description)
  {
    o.(name := SetOpt(o.name, u.name),
       category := SetOpt(o.category, u.category),
       description := if u.description.Some? then u.description else o.description,
       contact := SetOpt(o.contact, u.contact))
  }

  function OrganizerIndex(os: seq<Organizer>, id: Id): (i: int)
    ensures -1 <= i < |os|
    ensures i >= 0 ==> os[i].id == id
    ensures i == -1 <==> forall k :: 0 <= k < |os| ==> os[k].id != id
  {
    if |os| == 0 then -1
    else if os[0].id == id then 0
    else
      var j := OrganizerIndex(os[1..], id);
      if j == -1 then -1 else j + 1
  }

  datatype ProfileError = InvalidBody
  {
    function Code(): int { 400 }
  }

  /** `updateownprofile`: an invalid body is a 400; otherwise the caller's
      document is updated and returned, or `null` when there is none. */
  function UpdateOwnProfile(os: seq<Organizer>, caller: Id, u: OrgUpdate): (r: Result<(seq<Organizer>, Option<Organizer>), ProfileError>)
    ensures r.Err? <==> !OrgUpdateValid(u)
    ensures r.Ok? && OrganizerIndex(os, caller) == -1 ==> r.value == (os, None)
    ensures r.Ok? && OrganizerIndex(os, caller) >= 0 ==>
      var i := OrganizerIndex(os, caller);
      && r.value.1 == Some(ApplyOrgUpdate(os[i], u))
      && r.value.0 == os[i := ApplyOrgUpdate(os[i], u)]
  {
    if !OrgUpdateValid(u) then Err(InvalidBody)
    else
      var i := OrganizerIndex(os, caller);
      if i == -1 then Ok((os, None))
      else
        var o := ApplyOrgUpdate(os[i], u);
        Ok((os[i := o], Some(o)))
  }

  /** Applying the same update twice is applying it once. */
  lemma OrgUpdateIdempotent(o: Organizer, u: OrgUpdate)
    ensures ApplyOrgUpdate(ApplyOrgUpdate(o, u), u) == ApplyOrgUpdate(o, u)
  {
  }

  /** An accepted update keeps the required fields valid: a stored name
      and category that were non-empty stay non-empty. */
  lemma UpdateKeepsRequiredFields(os: seq<Organizer>, caller: Id, u: OrgUpdate)
    requires UpdateOwnProfile(os, caller, u).Ok?
    requires forall k :: 0 <= k < |os| ==> |os[k].name| >= 1 && |os[k].category| >= 1
    ensures var os' := UpdateOwnProfile(os, caller, u).value.0;
      forall k :: 0 <= k < |os'| ==> |os'[k].name| >= 1 && |os'[k].category| >= 1
  {
  }
}

=== FILE: profile.dfy ===
/** The participant profile page: the ids of the followed clubs, the
    interest toggle, and the client-side checks of the change-password
    card before its request. */
module ProfilePage {
  import opened Common
  import opened Models
  import opened Text
  import opened Sorting
  import Organizers
  import Users

  /** An entry of `following` as the profile endpoint returns it: a bare id
      or a populated organizer. */
  datatype FollowRef = IdRef(id: Id) | OrgRef(org: Organizer)

  function RefId(f: FollowRef): Id
  {
    match f
    case IdRef(id) => id
    case OrgRef(o) => o.id
  }

  /** The profile fields the page reads; `following` may be absent. */
  datatype Profile = Profile(following: Option<seq<FollowRef>>, interests: Option<seq<string>>)

  /** `getFollowingIds`: no ids without a profile or a `following` list,
      otherwise one id per entry, in order. */
  function FollowingIds(profile: Option<Profile>): (r: seq<Id>)
    ensures profile.None? || profile.value.following.None? ==> r == []
    ensures profile.Some? && profile.value.following.Some? ==>
      var fs := profile.value.following.value;
      |r| == |fs| && forall i :: 0 <= i < |fs| ==> r[i] == RefId(fs[i])
  {
    if profile.None? || profile.value.following.None? then []
    else RefIds(profile.value.following.value)
  }

  function RefIds(fs: seq<FollowRef>): (r: seq<Id>)
    ensures |r| == |fs| && forall i :: 0 <= i < |fs| ==> r[i] == RefId(fs[i])
  {
    if |fs| == 0 then [] else [RefId(fs[0])] + RefIds(fs[1..])
  }

  /** Unpopulated references give back the stored id list. */
  lemma BareIdsRoundTrip(ids: seq<Id>)
    ensures FollowingIds(Some(Profile(Some(BareRefs(ids)), None))) == ids
  {
  }

  function BareRefs(ids: seq<Id>): (r: seq<FollowRef>)
    ensures |r| == |ids| && forall i :: 0 <= i < |ids| ==> r[i] == IdRef(ids[i])
  {
    if |ids| == 0 then [] else [IdRef(ids[0])] + BareRefs(ids[1..])
  }

  /** `followedOrgs`: the listed clubs whose id is followed, in list order. */
  function FollowedOrgs(orgs: seq<Organizer>, ids: seq<Id>): (r: seq<Organizer>)
    ensures forall o :: o in r <==> o in orgs && o.id in ids
    ensures |r| <= |orgs|
  {
    Filter(orgs, (o: Organizer) => o.id in ids)
  }

  /** The page shows exactly the clubs the account follows after a toggle
      on the server: the toggled club appears or disappears, and no other
      club changes. */
  lemma UnfollowHidesClub(orgs: seq<Organizer>, ps: seq<Participant>, caller: Id, org: Organizer)
    requires Organizers.ToggleFollow(ps, caller, org.id).Ok?
    requires org in orgs
    ensures var ids := Organizers.ToggleFollow(ps, caller, org.id).value.1;
      var before := ps[ParticipantIndex(ps, caller)].following;
      org in FollowedOrgs(orgs, ids) <==> Count(before, org.id) != 1
  {
    var before := ps[ParticipantIndex(ps, caller)].following;
    Organizers.ToggleCount(before, org.id);
  }

  // ---------------------------------------------------------------------
  // toggleInterest

  /** `toggleInterest`: every occurrence of a listed interest removed, or an
      unlisted one appended. */
  function ToggleInterest(current: Option<seq<string>>, interest: string): (r: seq<string>)
    ensures var cur := current.GetOr([]);
      && (interest in cur ==> r == RemoveAll(cur, interest))
      && (interest !in cur ==> r == cur + [interest])
  {
    var cur := current.GetOr([]);
    if interest in cur then RemoveAll(cur, interest) else cur + [interest]
  }

  /** After the toggle the interest is listed exactly when it was not, and
      every other interest keeps its count. */
  lemma ToggleInterestFlips(current: Option<seq<string>>, interest: string, other: string)
    requires other != interest
    ensures interest in ToggleInterest(current, interest) <==> interest !in current.GetOr([])
    ensures Count(ToggleInterest(current, interest), other) == Count(current.GetOr([]), other)
  {
    var cur := current.GetOr([]);
    if interest in cur {
      RemoveAllSpec(cur, interest);
      RemoveAllKeepsOthers(cur, interest, other);
    } else {
      CountAppend(cur, [interest], other);
    }
  }

  lemma {:induction false} RemoveAllKeepsOthers(s: seq<string>, x: string, y: string)
    requires x != y
    ensures Count(RemoveAll(s, x), y) == Count(s, y)
    decreases |s|
  {
    if |s| > 0 {
      assert s == [s[0]] + s[1..];
      RemoveAllAppend([s[0]], s[1..], x);
      RemoveAllKeepsOthers(s[1..], x, y);
      CountAppend(RemoveAll([s[0]], x), RemoveAll(s[1..], x), y);
      assert RemoveAll([s[0]], x) == if s[0] == x then [] else [s[0]];
    }
  }

  /** Toggling twice: an unlisted interest leaves the list as it was; a
      listed one ends up once, at the end. */
  lemma ToggleInterestTwice(cur: seq<string>, interest: string)
    ensures interest !in cur ==> ToggleInterest(Some(ToggleInterest(Some(cur), interest)), interest) == cur
    ensures interest in cur ==>
      ToggleInterest(Some(ToggleInterest(Some(cur), interest)), interest) == RemoveAll(cur, interest) + [interest]
  {
    RemoveAllSpec(cur, interest);
    if interest !in cur {
      CountAppend(cur, [interest], interest);
      RemoveAllAppend(cur, [interest], interest);
      RemoveAllAbsent(cur, interest);
    }
  }

  lemma {:induction false} RemoveAllAbsent<T>(s: seq<T>, x: T)
    requires x !in s
    ensures RemoveAll(s, x) == s
    decreases |s|
  {
    if |s| > 0 {
      assert s == [s[0]] + s[1..];
      assert s[0] != x;
      RemoveAllAbsent(s[1..], x);
    }
  }

  /** On a list without repeats the page's toggle and the follow toggle of
      the server agree. */
  lemma InterestToggleMatchesFollowToggle(cur: seq<string>, interest: string)
    requires Count(cur, interest) <= 1
    ensures ToggleInterest(Some(cur), interest) == Organizers.Toggle(cur, interest)
  {
    if interest in cur {
      var i := IndexOf(cur, interest);
      assert Organizers.Toggle(cur, interest) == cur[..i] + cur[i + 1..] by {
        var t := Organizers.Toggle(cur, interest);
        assert t == t[..i] + t[i..];
      }
      RemoveFirstOnly(cur, i);
    }
  }

  /** Removing every copy of an entry that occurs once removes its position. */
  lemma {:induction false} RemoveFirstOnly<T>(s: seq<T>, i: nat)
    requires i < |s| && s[i] !in s[..i] && Count(s, s[i]) <= 1
    ensures RemoveAll(s, s[i]) == s[..i] + s[i + 1..]
    decreases i
  {
    var x, t := s[i], s[1..];
    if i == 0 {
      assert x !in t by {
        CountPositive(t, x);
      }
      RemoveAllAbsent(t, x);
      assert RemoveAll(s, x) == RemoveAll(t, x);
      assert s[..i] + s[i + 1..] == t;
    } else {
      assert s[0] != x by {
        assert s[0] == s[..i][0];
      }
      assert t[i - 1] == x && t[i - 1] !in t[..i - 1] by {
        assert t[..i - 1] == s[1..i];
        assert forall y :: y in s[1..i] ==> y in s[..i];
      }
      RemoveFirstOnly(t, i - 1);
      assert RemoveAll(s, x) == [s[0]] + RemoveAll(t, x);
      assert [s[0]] + (t[..i - 1] + t[i..]) == s[..i] + s[i + 1..] by {
        assert s[..i] == [s[0]] + t[..i - 1];
        assert t[i..] == s[i + 1..];
      }
    }
  }

  // ---------------------------------------------------------------------
  // ChangePassword.handleSubmit

  datatype PasswordForm = PasswordForm(current: string, newpass: string, confirm: string)

  /** The card after a submission: its fields, its messages, and the body it
      sent, if any. */
  datatype PasswordCard = PasswordCard(form: PasswordForm, error: string, success: string, sent: Option<(string, string)>)

  const Mismatch: string := "Passwords do not match"
  const TooShort: string := "Password must be at least 8 characters"

  /** `handleSubmit`: the mismatch check, then the length check, then the
      request; `reply` is the request's outcome, `None` for success or the
      thrown message. */
  function HandleSubmit(f: PasswordForm, reply: Option<string>): (r: PasswordCard)
    ensures f.newpass != f.confirm ==> r == PasswordCard(f, Mismatch, "", None)
    ensures f.newpass == f.confirm && Utf16Length(f.newpass) < 8 ==> r == PasswordCard(f, TooShort, "", None)
    ensures f.newpass == f.confirm && Utf16Length(f.newpass) >= 8 ==> r.sent == Some((f.current, f.newpass))
    ensures r.sent.Some? && reply.None? ==> r.form == PasswordForm("", "", "") && r.success == "Password changed" && r.error == ""
    ensures r.sent.Some? && reply.Some? ==> r.form == f && r.error == reply.value && r.success == ""
  {
    if f.newpass != f.confirm then PasswordCard(f, Mismatch, "", None)
    else if Utf16Length(f.newpass) < 8 then PasswordCard(f, TooShort, "", None)
    else
      var body := (f.current, f.newpass);
      match reply
      case None => PasswordCard(PasswordForm("", "", ""), "", "Password changed", Some(body))
      case Some(msg) => PasswordCard(f, msg, "", Some(body))
  }

  /** A body the card sends never fails the server's length rule: the
      server answers with the account lookup or the password comparison. */
  lemma SentPasswordPassesServerRule(f: PasswordForm, reply: Option<string>, ps: seq<Participant>, caller: Id,
                                     hash: string -> string, matches: (string, string) -> bool)
    requires HandleSubmit(f, reply).sent.Some?
    ensures var (current, newpass) := HandleSubmit(f, reply).sent.value;
      Users.ChangePassword(ps, caller, current, newpass, hash, matches) != Err(Users.InvalidBody)
  {
  }

  /** A short password typed twice differently is reported as a mismatch,
      not as too short. */
  lemma MismatchReportedFirst(f: PasswordForm, reply: Option<string>)
    requires f.newpass != f.confirm && Utf16Length(f.newpass) < 8
    ensures HandleSubmit(f, reply).error == Mismatch && HandleSubmit(f, reply).sent.None?
  {
  }
}

=== FILE: registration.dfy ===
/** The registration controller: `registerevent` (the ordered admission
    guards and the ticket it creates), `listparticipants` and
    `exportparticipants`. The clock and the ticket generator are inputs. */
module Registrations {
  import opened Common
  import opened Models
  import opened Sorting
  import Csv
  import opened EventMiddleware

  /** Why `registerevent` refuses, in the order the guards run. */
  datatype RegisterError =
    | NoSuchEvent                          // 404 event not found
    | NotOpen                              // 400 event not open for registration
    | DeadlinePassed                       // 400 registration deadline passed
    | EventFull                            // 400 event is full
    | AlreadyRegistered(ticketid: string)  // 400 already registered, with the existing ticket
    | DuplicateTicket                      // 400 already registered (unique-index violation)
  {
    function Code(): int
    {
      if NoSuchEvent? then 404 else 400
    }
  }

  /** The 201 answer: the new ticket and a snapshot of the event. */
  datatype Admission = Admission(db: Db, ticketid: string, name: string, dates: Dates)

  /** `findOne({ user, event, status: 'Registered' })`: the position of the
      first such registration in storage order, or -1. */
  function ExistingIndex(regs: seq<Registration>, user: Id, eventId: Id): (i: int)
    ensures -1 <= i < |regs|
    ensures i >= 0 ==> regs[i].user == user && regs[i].event == eventId && regs[i].status == Registered
    ensures i >= 0 ==> forall k :: 0 <= k < i ==> !(regs[k].user == user && regs[k].event == eventId && regs[k].status == Registered)
    ensures i == -1 <==> forall k :: 0 <= k < |regs| ==> !(regs[k].user == user && regs[k].event == eventId && regs[k].status == Registered)
  {
    if |regs| == 0 then -1
    else if regs[0].user == user && regs[0].event == eventId && regs[0].status == Registered then 0
    else
      var j := ExistingIndex(regs[1..], user, eventId);
      if j == -1 then -1 else j + 1
  }

  /** Whether the guards before the duplicate check all pass. */
  predicate Open(ev: Event, now: Timestamp)
  {
    ev.status == Published && now <= ev.dates.deadline && ev.regcount < ev.limit
  }

  /** `registerevent`: the body's form data has already passed the request
      schema; `now` is the clock and `ticket` the generated ticket id. */
  function Register(db: Db, user: Id, eventId: Id, formdata: Option<seq<Json>>, now: Timestamp, ticket: string): (r: Result<Admission, RegisterError>)
    ensures EventIndex(db.events, eventId) == -1 <==> r == Err(NoSuchEvent)
    ensures EventIndex(db.events, eventId) >= 0 ==>
      var i := EventIndex(db.events, eventId);
      var ev := db.events[i];
      && (r == Err(NotOpen) <==> ev.status != Published)
      && (r == Err(DeadlinePassed) <==> ev.status == Published && now > ev.dates.deadline)
      && (r == Err(EventFull) <==> ev.status == Published && now <= ev.dates.deadline && ev.regcount >= ev.limit)
      && (r.Err? && r.error.AlreadyRegistered? <==> Open(ev, now) && ExistingIndex(db.regs, user, eventId) >= 0)
      && (r.Err? && r.error.AlreadyRegistered? ==> r.error.ticketid == db.regs[ExistingIndex(db.regs, user, eventId)].ticketid)
      && (r == Err(DuplicateTicket) <==>
            Open(ev, now) && ExistingIndex(db.regs, user, eventId) == -1 && TicketIndex(db.regs, ticket) >= 0)
      && (r.Ok? <==> Open(ev, now) && ExistingIndex(db.regs, user, eventId) == -1 && TicketIndex(db.regs, ticket) == -1)
      && (r.Ok? ==>
            && r.value.ticketid == ticket && r.value.name == ev.name && r.value.dates == ev.dates
            && r.value.db.regs == db.regs + [NewRegistration(user, eventId, Registered, ticket, formdata, now)]
            && r.value.db.events == db.events[i := ev.(regcount := ev.regcount + 1)])
  {
    var i := EventIndex(db.events, eventId);
    if i == -1 then Err(NoSuchEvent)
    else
      var ev := db.events[i];
      if ev.status != Published then Err(NotOpen)
      else if now > ev.dates.deadline then Err(DeadlinePassed)
      else if ev.regcount >= ev.limit then Err(EventFull)
      else
        var k := ExistingIndex(db.regs, user, eventId);
        if k >= 0 then Err(AlreadyRegistered(db.regs[k].ticketid))
        else if TicketIndex(db.regs, ticket) >= 0 then Err(DuplicateTicket)
        else
          var reg := NewRegistration(user, eventId, Registered, ticket, formdata, now);
          Ok(Admission(Db(db.events[i := ev.(regcount := ev.regcount + 1)], db.regs + [reg]), ticket, ev.name, ev.dates))
  }

  /** Every event's counter is within its limit. */
  predicate WithinCapacity(events: seq<Event>)
  {
    forall k :: 0 <= k < |events| ==> events[k].regcount <= events[k].limit
  }

  /** At most one `Registered` registration per (user, event). */
  predicate OneRegisteredEach(regs: seq<Registration>)
  {
    forall i, j :: 0 <= i < j < |regs| && regs[i].status == Registered && regs[j].status == Registered ==>
      regs[i].user != regs[j].user || regs[i].event != regs[j].event
  }

  /** A sequential registration never pushes a counter past its limit (the
      concurrent case, where the read and the increment interleave, is not
      covered). */
  lemma RegisterKeepsCapacity(db: Db, user: Id, eventId: Id, formdata: Option<seq<Json>>, now: Timestamp, ticket: string)
    requires WithinCapacity(db.events)
    requires Register(db, user, eventId, formdata, now, ticket).Ok?
    ensures WithinCapacity(Register(db, user, eventId, formdata, now, ticket).value.db.events)
  {
    var i := EventIndex(db.events, eventId);
    var events' := Register(db, user, eventId, formdata, now, ticket).value.db.events;
    forall k | 0 <= k < |events'|
      ensures events'[k].regcount <= events'[k].limit
    {
      if k == i {
        assert events'[k].regcount == db.events[i].regcount + 1;
        assert db.events[i].regcount < db.events[i].limit;
      } else {
        assert events'[k] == db.events[k];
      }
    }
  }

  /** Registration keeps ticket ids unique and a user registered at most once
      per event. */
  lemma RegisterKeepsUniqueness(db: Db, user: Id, eventId: Id, formdata: Option<seq<Json>>, now: Timestamp, ticket: string)
    requires UniqueTickets(db.regs) && OneRegisteredEach(db.regs)
    requires Register(db, user, eventId, formdata, now, ticket).Ok?
    ensures UniqueTickets(Register(db, user, eventId, formdata, now, ticket).value.db.regs)
    ensures OneRegisteredEach(Register(db, user, eventId, formdata, now, ticket).value.db.regs)
  {
    var regs' := Register(db, user, eventId, formdata, now, ticket).value.db.regs;
    var n := |db.regs|;
    assert regs'[..n] == db.regs;
    forall i, j | 0 <= i < j < |regs'|
      ensures regs'[i].ticketid != regs'[j].ticketid
    {
      if j == n {
        assert regs'[i] == db.regs[i];
        assert TicketIndex(db.regs, ticket) == -1;
      }
    }
    forall i, j | 0 <= i < j < |regs'| && regs'[i].status == Registered && regs'[j].status == Registered
      ensures regs'[i].user != regs'[j].user || regs'[i].event != regs'[j].event
    {
      if j == n {
        assert regs'[i] == db.regs[i];
        assert ExistingIndex(db.regs, user, eventId) == -1;
      }
    }
  }

  /** A second registration of the same user for the same event never
      succeeds: once the guards pass it answers with the ticket that was
      issued the first time. */
  lemma SecondRegistrationReturnsTicket(db: Db, user: Id, eventId: Id, fd1: Option<seq<Json>>, t1: Timestamp, ticket1: string,
                                        fd2: Option<seq<Json>>, t2: Timestamp, ticket2: string)
    requires Register(db, user, eventId, fd1, t1, ticket1).Ok?
    ensures var db' := Register(db, user, eventId, fd1, t1, ticket1).value.db;
      && Register(db', user, eventId, fd2, t2, ticket2).Err?
      && (Register(db', user, eventId, fd2, t2, ticket2).error.AlreadyRegistered? ==>
            Register(db', user, eventId, fd2, t2, ticket2).error.ticketid == ticket1)
  {
    var db' := Register(db, user, eventId, fd1, t1, ticket1).value.db;
    var n := |db.regs|;
    assert db'.regs[n].ticketid == ticket1 && db'.regs[n].status == Registered;
    assert ExistingIndex(db.regs, user, eventId) == -1;
    assert db'.regs[..n] == db.regs;
    assert forall m :: 0 <= m < n ==> db'.regs[m] == db.regs[m];
    var k := ExistingIndex(db'.regs, user, eventId);
    assert k != -1;
    assert k >= n;
  }

  // ---------------------------------------------------------------------
  // Listing and export

  /** One entry of the participant listing. */
  datatype ParticipantEntry = ParticipantEntry(ticketid: string, user: Id, formdata: Option<seq<Json>>, checkin: bool, registeredat: Timestamp)

  datatype Listing = Listing(total: nat, participants: seq<ParticipantEntry>)

  function Entry(r: Registration): ParticipantEntry
  {
    ParticipantEntry(r.ticketid, r.user, r.formdata, r.checkin, r.createdAt)
  }

  function Entries(regs: seq<Registration>): (r: seq<ParticipantEntry>)
    ensures |r| == |regs|
    ensures forall i :: 0 <= i < |regs| ==> r[i] == Entry(regs[i])
  {
    if |regs| == 0 then [] else [Entry(regs[0])] + Entries(regs[1..])
  }

  /** An entry is listed exactly when it is the entry of a listed
      registration. */
  lemma EntriesMembers(regs: seq<Registration>)
    ensures forall x :: x in regs ==> Entry(x) in Entries(regs)
    ensures forall p :: p in Entries(regs) ==> exists x :: x in regs && p == Entry(x)
  {
    var entries := Entries(regs);
    forall x | x in regs ensures Entry(x) in entries {
      var i :| 0 <= i < |regs| && regs[i] == x;
      assert entries[i] == Entry(x);
    }
    forall p | p in entries ensures exists x :: x in regs && p == Entry(x) {
      var i :| 0 <= i < |entries| && entries[i] == p;
      assert regs[i] in regs;
    }
  }

  /** `find({ event, status: 'Registered' }).sort({ createdAt: 1 })`. */
  function RegisteredFor(regs: seq<Registration>, eventId: Id): (r: seq<Registration>)
    ensures forall x :: x in r <==> x in regs && x.event == eventId && x.status == Registered
    ensures forall i, j :: 0 <= i < j < |r| ==> r[i].createdAt <= r[j].createdAt
    ensures |r| == CountWhere(regs, (x: Registration) => x.event == eventId && x.status == Registered)
  {
    var kept := Filter(regs, (x: Registration) => x.event == eventId && x.status == Registered);
    var sorted := SortBy(kept, (x: Registration) => x.createdAt);
    CountWhereFilterSize(regs, (x: Registration) => x.event == eventId && x.status == Registered);
    assert forall x :: x in sorted <==> x in kept by {
      forall x { SortByMembers(kept, (x: Registration) => x.createdAt, x); }
    }
    sorted
  }

  /** `listparticipants`: the event's `Registered` registrations, oldest
      first, for its organizer only. */
  function ListParticipants(db: Db, eventId: Id, caller: Id): (r: Result<Listing, AccessError>)
    ensures r.Err? <==> OwnEvent(db.events, eventId, caller).Err?
    ensures r.Err? ==> r.error == OwnEvent(db.events, eventId, caller).error
    ensures r.Ok? ==>
      && r.value.total == |r.value.participants|
      && r.value.total == CountWhere(db.regs, (x: Registration) => x.event == eventId && x.status == Registered)
      && (forall i, j :: 0 <= i < j < |r.value.participants| ==>
            r.value.participants[i].registeredat <= r.value.participants[j].registeredat)
      && (forall x :: x in db.regs && x.event == eventId && x.status == Registered ==> Entry(x) in r.value.participants)
      && (forall p :: p in r.value.participants ==>
            exists x :: x in db.regs && x.event == eventId && x.status == Registered && p == Entry(x))
  {
    match OwnEvent(db.events, eventId, caller)
    case Err(e) => Err(e)
    case Ok(_) =>
      var regs := RegisteredFor(db.regs, eventId);
      var entries := Entries(regs);
      EntriesMembers(regs);
      Ok(Listing(|entries|, entries))
  }

  /** A successful registration joins the organizer's listing: one more
      participant, the new one among them, nobody dropped. */
  lemma RegisterJoinsListing(db: Db, user: Id, eventId: Id, formdata: Option<seq<Json>>, now: Timestamp, ticket: string, caller: Id)
    requires Register(db, user, eventId, formdata, now, ticket).Ok?
    requires OwnEvent(db.events, eventId, caller).Ok?
    ensures var db' := Register(db, user, eventId, formdata, now, ticket).value.db;
      var before := ListParticipants(db, eventId, caller);
      var after := ListParticipants(db', eventId, caller);
      && after.Ok?
      && after.value.total == before.value.total + 1
      && Entry(NewRegistration(user, eventId, Registered, ticket, formdata, now)) in after.value.participants
      && (forall p :: p in before.value.participants ==> p in after.value.participants)
  {
    var db' := Register(db, user, eventId, formdata, now, ticket).value.db;
    var reg := NewRegistration(user, eventId, Registered, ticket, formdata, now);
    var p := (x: Registration) => x.event == eventId && x.status == Registered;
    SameIdsSameIndex(db.events, db'.events, eventId);
    assert OwnEvent(db'.events, eventId, caller).Ok?;
    CountWhereAppend(db.regs, [reg], p);
    assert CountWhere([reg], p) == 1;
    assert reg in db'.regs;
    var after := ListParticipants(db', eventId, caller);
    forall q | q in ListParticipants(db, eventId, caller).value.participants
      ensures q in after.value.participants
    {
      var x :| x in db.regs && x.event == eventId && x.status == Registered && q == Entry(x);
      assert x in db'.regs;
    }
  }

  /** The failures of `exportparticipants`; `ServerError` is the 500 the
      handler answers when a registration's user no longer exists. */
  datatype ExportError = Access(e: AccessError) | ServerError

  const ParticipantHeaders: seq<string> :=
    ["ticketid", "firstname", "lastname", "email", "contact", "college", "type", "checkin", "registeredat"]

  /** `'yes'`/`'no'` for the check-in flag. */
  function YesNo(b: bool): string
  {
    if b then "yes" else "no"
  }

  /** Every listed registration still has its user. */
  predicate UsersPresent(regs: seq<Registration>, users: map<Id, Participant>)
  {
    forall i :: 0 <= i < |regs| ==> regs[i].user in users
  }

  /** The values of one export row, in header order. */
  function ParticipantRecord(r: Registration, u: Participant, iso: Timestamp -> string): (rec: seq<string>)
    ensures |rec| == |ParticipantHeaders|
  {
    [r.ticketid, u.firstName, u.lastName, u.email, u.contact, u.college, AffiliationName(u.affiliation), YesNo(r.checkin), iso(r.createdAt)]
  }

  function ParticipantRecords(regs: seq<Registration>, users: map<Id, Participant>, iso: Timestamp -> string): (recs: seq<seq<string>>)
    requires UsersPresent(regs, users)
    ensures |recs| == |regs|
    ensures forall i :: 0 <= i < |regs| ==> recs[i] == ParticipantRecord(regs[i], users[regs[i].user], iso)
  {
    if |regs| == 0 then [] else [ParticipantRecord(regs[0], users[regs[0].user], iso)] + ParticipantRecords(regs[1..], users, iso)
  }

  /** `exportparticipants`: the CSV text of the listing's registrations, with
      the fixed header columns, written with the closing quote the exporter's
      escape omits. `iso` renders a timestamp as `toISOString`. */
  function ExportParticipants(db: Db, users: map<Id, Participant>, eventId: Id, caller: Id, iso: Timestamp -> string): (r: Result<string, ExportError>)
    ensures OwnEvent(db.events, eventId, caller).Err? ==> r == Err(Access(OwnEvent(db.events, eventId, caller).error))
    ensures OwnEvent(db.events, eventId, caller).Ok? ==>
      (r.Ok? <==> UsersPresent(RegisteredFor(db.regs, eventId), users))
  {
    match OwnEvent(db.events, eventId, caller)
    case Err(e) => Err(Access(e))
    case Ok(_) =>
      var regs := RegisteredFor(db.regs, eventId);
      if UsersPresent(regs, users) then Ok(ParticipantCsv(regs, users, iso))
      else Err(ServerError)
  }

  function ParticipantCsv(regs: seq<Registration>, users: map<Id, Participant>, iso: Timestamp -> string): string
    requires UsersPresent(regs, users)
  {
    Csv.ToCsvRfc(Csv.RowsOf(ParticipantHeaders, ParticipantRecords(regs, users, iso)), ParticipantHeaders)
  }

  lemma ParticipantHeadersPlain()
    ensures Csv.DistinctHeaders(ParticipantHeaders)
    ensures forall j :: 0 <= j < |ParticipantHeaders| ==> !Csv.NeedsQuoting(ParticipantHeaders[j])
  {
  }

  /** Reading the participant export back gives the header row and then,
      oldest registration first, the ticket id, user fields, `yes`/`no`
      check-in and registration time of each `Registered` registration of
      the event, whatever the values hold. */
  lemma ExportParticipantsReadsBack(db: Db, users: map<Id, Participant>, eventId: Id, caller: Id, iso: Timestamp -> string)
    requires ExportParticipants(db, users, eventId, caller, iso).Ok?
    requires UsersPresent(RegisteredFor(db.regs, eventId), users)
    ensures Csv.ParseTable(ExportParticipants(db, users, eventId, caller, iso).value) ==
      [ParticipantHeaders] + ParticipantRecords(RegisteredFor(db.regs, eventId), users, iso)
  {
    ParticipantCsvReadsBack(RegisteredFor(db.regs, eventId), users, iso);
  }

  lemma ParticipantCsvReadsBack(regs: seq<Registration>, users: map<Id, Participant>, iso: Timestamp -> string)
    requires UsersPresent(regs, users)
    ensures Csv.ParseTable(ParticipantCsv(regs, users, iso)) == [ParticipantHeaders] + ParticipantRecords(regs, users, iso)
  {
    ParticipantHeadersPlain();
    Csv.RecordsReadBack(ParticipantHeaders, ParticipantRecords(regs, users, iso));
  }
}

=== FILE: schemas.dfy ===
/** The request schemas: the IIIT email pattern, participant and organizer
    sign-up bodies, and the event creation body. Email well-formedness
    (`z.email()`) is a parameter. JSON numbers are `real`, so that the
    `int()` checks are visible. */
module Schemas {
  import opened Common
  import opened Models
  import opened Text

  // ---------------------------------------------------------------------
  // /^[a-zA-Z0-9._%+-]+@((research|students)\.)?iiit\.ac\.in$/

  predicate LocalChar(c: char)
  {
    ('a' <= c <= 'z') || ('A' <= c <= 'Z') || ('0' <= c <= '9') || c in "._%+-"
  }

  /** The three accepted domains, case-sensitive. */
  predicate IiitDomain(d: string)
  {
    d == "iiit.ac.in" || d == "research.iiit.ac.in" || d == "students.iiit.ac.in"
  }

  /** The length of the longest prefix of `s` made of local-part
      characters. */
  function LocalRun(s: string): (n: nat)
    ensures n <= |s|
    ensures forall i :: 0 <= i < n ==> LocalChar(s[i])
    ensures n < |s| ==> !LocalChar(s[n])
  {
    if |s| == 0 || !LocalChar(s[0]) then 0 else 1 + LocalRun(s[1..])
  }

  /** The anchored pattern run left to right: a non-empty local part,
      greedily, then `@`, then one of the domains to the end. */
  predicate IiitEmail(s: string)
  {
    var n := LocalRun(s);
    n > 0 && n < |s| && s[n] == '@' && IiitDomain(s[n + 1..])
  }

  /** The pattern's language: some non-empty run of local characters, an
      `@`, and exactly one of the domains. */
  lemma IiitEmailLanguage(s: string)
    ensures IiitEmail(s) <==>
      exists n :: 0 < n < |s| && (forall i :: 0 <= i < n ==> LocalChar(s[i])) && s[n] == '@' && IiitDomain(s[n + 1..])
  {
    if exists n :: 0 < n < |s| && (forall i :: 0 <= i < n ==> LocalChar(s[i])) && s[n] == '@' && IiitDomain(s[n + 1..]) {
      var n :| 0 < n < |s| && (forall i :: 0 <= i < n ==> LocalChar(s[i])) && s[n] == '@' && IiitDomain(s[n + 1..]);
      IiitEmailFromSplit(s, n);
    }
  }

  /** A split of the address at `@` that fits the pattern is the one the
      greedy local part finds. */
  lemma IiitEmailFromSplit(s: string, n: nat)
    requires 0 < n < |s| && (forall i :: 0 <= i < n ==> LocalChar(s[i])) && s[n] == '@' && IiitDomain(s[n + 1..])
    ensures IiitEmail(s)
  {
    assert !LocalChar(s[n]);
    LocalRunStops(s, n);
  }

  /** Building addresses: any non-empty local part at any of the three
      domains is accepted. */
  lemma IiitEmailAccepts(local: string, domain: string)
    requires |local| > 0 && forall i :: 0 <= i < |local| ==> LocalChar(local[i])
    requires IiitDomain(domain)
    ensures IiitEmail(local + "@" + domain)
  {
    var s := local + "@" + domain;
    assert s[|local|] == '@';
    assert s[|local| + 1..] == domain;
    IiitEmailLanguage(s);
  }

  /** The local part ends at the first character outside its class. */
  lemma {:induction false} LocalRunStops(s: string, n: nat)
    requires n < |s| && !LocalChar(s[n])
    requires forall i :: 0 <= i < n ==> LocalChar(s[i])
    ensures LocalRun(s) == n
    decreases n
  {
    if n > 0 {
      LocalRunStops(s[1..], n - 1);
    }
  }

  /** With the local part `a`, the address is decided by its domain alone. */
  lemma SingleLetterLocal(domain: string)
    ensures IiitEmail("a@" + domain) <==> IiitDomain(domain)
  {
    var s := "a@" + domain;
    LocalRunStops(s, 1);
    assert s[2..] == domain;
  }

  /** The domain is matched case-sensitively and must end the address, and
      the local part cannot be empty. */
  lemma IiitEmailRejects()
    ensures !IiitEmail("a@IIIT.ac.in")
    ensures !IiitEmail("a@iiit.ac.in.evil.com")
    ensures !IiitEmail("a@cs.iiit.ac.in")
    ensures !IiitEmail("@iiit.ac.in")
  {
    RejectsUpperCase();
    RejectsLongerDomain();
    RejectsSubdomain();
    RejectsEmptyLocal();
  }

  lemma RejectsEmptyLocal()
    ensures !IiitEmail("@iiit.ac.in")
  {
    LocalRunStops("@iiit.ac.in", 0);
  }

  lemma RejectsUpperCase()
    ensures !IiitEmail("a@IIIT.ac.in")
  {
    SingleLetterLocal("IIIT.ac.in");
    assert "IIIT.ac.in"[0] != "iiit.ac.in"[0];
    assert |"IIIT.ac.in"| != |"research.iiit.ac.in"|;
  }

  lemma RejectsLongerDomain()
    ensures !IiitEmail("a@iiit.ac.in.evil.com")
  {
    SingleLetterLocal("iiit.ac.in.evil.com");
    assert "iiit.ac.in.evil.com"[0] != "research.iiit.ac.in"[0];
    assert "iiit.ac.in.evil.com"[0] != "students.iiit.ac.in"[0];
    assert |"iiit.ac.in.evil.com"| != |"iiit.ac.in"|;
  }

  lemma RejectsSubdomain()
    ensures !IiitEmail("a@cs.iiit.ac.in")
  {
    SingleLetterLocal("cs.iiit.ac.in");
    assert |"cs.iiit.ac.in"| == 13;
  }

  // ---------------------------------------------------------------------
  // Sign-up bodies

  datatype SchemaError = Invalid(field: string)

  /** A participant sign-up body; `type` is the discriminator. */
  datatype ParticipantBody = ParticipantBody(
    firstName: string,
    lastName: string,
    email: string,
    password: string,
    contact: string,
    college: string,
    kind: string,
    interests: Option<seq<string>>)

  /** The shared part: non-empty names and college, a password of at least
      eight and a contact of at least ten characters. */
  predicate ParticipantBaseValid(b: ParticipantBody)
  {
    Utf16Length(b.firstName) >= 1 && Utf16Length(b.lastName) >= 1 && Utf16Length(b.password) >= 8
    && Utf16Length(b.contact) >= 10 && Utf16Length(b.college) >= 1
  }

  /** `CreateParticipantSchema`: `IIIT` bodies need an IIIT address,
      `External` bodies any valid address; no other type is accepted. */
  function CreateParticipant(b: ParticipantBody, isEmail: string -> bool): (r: Result<ParticipantBody, SchemaError>)
    ensures r.Ok? ==> r.value == b
    ensures r.Ok? <==>
      && ParticipantBaseValid(b)
      && isEmail(b.email)
      && (b.kind == "IIIT" || b.kind == "External")
      && (b.kind == "IIIT" ==> IiitEmail(b.email))
  {
    if b.kind != "IIIT" && b.kind != "External" then Err(Invalid("type"))
    else if !isEmail(b.email) then Err(Invalid("email"))
    else if b.kind == "IIIT" && !IiitEmail(b.email) then Err(Invalid("email"))
    else if Utf16Length(b.firstName) < 1 then Err(Invalid("firstName"))
    else if Utf16Length(b.lastName) < 1 then Err(Invalid("lastName"))
    else if Utf16Length(b.password) < 8 then Err(Invalid("password"))
    else if Utf16Length(b.contact) < 10 then Err(Invalid("contact"))
    else if Utf16Length(b.college) < 1 then Err(Invalid("college"))
    else Ok(b)
  }

  /** The only difference between the branches is the address: the same
      body accepted as IIIT is accepted as External, and an External body
      is accepted as IIIT exactly when its address is an IIIT one. */
  lemma IiitBranchNarrowsEmail(b: ParticipantBody, isEmail: string -> bool)
    requires b.kind == "IIIT" || b.kind == "External"
    ensures CreateParticipant(b.(kind := "IIIT"), isEmail).Ok? <==>
      CreateParticipant(b.(kind := "External"), isEmail).Ok? && IiitEmail(b.email)
  {
  }

  /** The schema's `External` is not a stored affiliation name: the
      participant document only knows `IIIT` and `Non-IIIT`. */
  lemma ExternalIsNotStored(a: Affiliation)
    ensures AffiliationName(a) != "External"
  {
  }

  /** An organizer body; the password is optional. */
  datatype OrganizerBody = OrganizerBody(
    name: string,
    email: string,
    contact: string,
    password: Option<string>,
    category: string,
    description: Option<string>)

  /** `CreateOrganizerSchema`. */
  function CreateOrganizer(b: OrganizerBody, isEmail: string -> bool): (r: Result<OrganizerBody, SchemaError>)
    ensures r.Ok? ==> r.value == b
    ensures r.Ok? <==>
      && Utf16Length(b.name) >= 1 && isEmail(b.email) && Utf16Length(b.contact) >= 10 && Utf16Length(b.category) >= 1
      && (b.password.Some? ==> Utf16Length(b.password.value) >= 8)
  {
    if Utf16Length(b.name) < 1 then Err(Invalid("name"))
    else if !isEmail(b.email) then Err(Invalid("email"))
    else if Utf16Length(b.contact) < 10 then Err(Invalid("contact"))
    else if b.password.Some? && Utf16Length(b.password.value) < 8 then Err(Invalid("password"))
    else if Utf16Length(b.category) < 1 then Err(Invalid("category"))
    else Ok(b)
  }

  /** Leaving the password out never makes a body invalid; a short one
      always does. */
  lemma OrganizerPasswordOptional(b: OrganizerBody, isEmail: string -> bool)
    ensures CreateOrganizer(b, isEmail).Ok? ==> CreateOrganizer(b.(password := None), isEmail).Ok?
    ensures b.password.Some? && Utf16Length(b.password.value) < 8 ==> CreateOrganizer(b, isEmail).Err?
  {
  }

  // ---------------------------------------------------------------------
  // CreateEventSchema

  predicate IsInt(x: real)
  {
    x.Floor as real == x
  }

  /** A variant as this schema describes it (size/color/stock). */
  datatype VariantBody = VariantBody(size: string, color: string, stock: real)

  datatype KindBody =
    | NormalBody(fee: real, formSchema: Option<Json>)
    | MerchBody(variants: seq<VariantBody>, purchaseLimit: Option<real>)
    | OtherType(typeName: string)

  /** The event creation body; a date that is missing or does not parse is
      `None`. */
  datatype EventBody = EventBody(
    name: string,
    description: string,
    eligibility: string,
    start: Option<Timestamp>,
    end: Option<Timestamp>,
    deadline: Option<Timestamp>,
    limit: real,
    tags: seq<string>,
    kind: KindBody)

  datatype ParsedKind =
    | NormalData(fee: real, formSchema: Option<Json>)
    | MerchData(variants: seq<VariantBody>, purchaseLimit: int)

  /** The parsed body, with `purchaseLimit` defaulted. */
  datatype EventData = EventData(
    name: string,
    description: string,
    eligibility: string,
    dates: Dates,
    limit: int,
    tags: seq<string>,
    kind: ParsedKind)

  predicate VariantBodyValid(v: VariantBody)
  {
    IsInt(v.stock) && v.stock >= 0.0
  }

  /** Every rule of the schema. */
  predicate EventBodyValid(b: EventBody)
  {
    && |b.name| >= 1
    && b.start.Some? && b.end.Some? && b.deadline.Some?
    && IsInt(b.limit) && b.limit > 0.0
    && !b.kind.OtherType?
    && (b.kind.NormalBody? ==> b.kind.fee >= 0.0)
    && (b.kind.MerchBody? ==>
          && (forall i :: 0 <= i < |b.kind.variants| ==> VariantBodyValid(b.kind.variants[i]))
          && (b.kind.purchaseLimit.Some? ==> IsInt(b.kind.purchaseLimit.value)))
  }

  /** `CreateEventSchema.safeParse`. */
  function CreateEvent(b: EventBody): (r: Result<EventData, SchemaError>)
    ensures r.Ok? <==> EventBodyValid(b)
    ensures r.Ok? ==>
      && r.value.name == b.name && r.value.description == b.description && r.value.eligibility == b.eligibility
      && r.value.tags == b.tags
      && r.value.dates == Dates(b.start.value, b.end.value, b.deadline.value)
      && r.value.limit as real == b.limit && r.value.limit >= 1
      && (b.kind.NormalBody? ==> r.value.kind == NormalData(b.kind.fee, b.kind.formSchema))
      && (b.kind.MerchBody? ==>
            && r.value.kind.MerchData?
            && r.value.kind.variants == b.kind.variants
            && r.value.kind.purchaseLimit as real == (if b.kind.purchaseLimit.Some? then b.kind.purchaseLimit.value else 1.0))
  {
    if !EventBodyValid(b) then Err(Invalid("body"))
    else
      var kind :=
        match b.kind
        case NormalBody(fee, form) => NormalData(fee, form)
        case MerchBody(vs, pl) => MerchData(vs, if pl.Some? then pl.value.Floor else 1)
        case OtherType(_) => NormalData(0.0, None);
      Ok(EventData(b.name, b.description, b.eligibility, Dates(b.start.value, b.end.value, b.deadline.value),
                   b.limit.Floor, b.tags, kind))
  }

  /** A fractional or non-positive limit, and a negative or fractional
      stock, are refused. */
  lemma CreateEventRejects(b: EventBody, i: int)
    ensures !IsInt(b.limit) || b.limit <= 0.0 ==> CreateEvent(b).Err?
    ensures b.kind.MerchBody? && 0 <= i < |b.kind.variants| && !VariantBodyValid(b.kind.variants[i]) ==> CreateEvent(b).Err?
  {
  }
}

=== FILE: sorting.dfy ===
/** Filtering and ordering of query results: `find(filter)` over a
    collection in natural order, and `.sort({ key: 1 })` by one integer key
    (`-1` by negating the key). */
module Sorting {

  /** `s` is in ascending order of `key`. */
  ghost predicate SortedBy<T>(s: seq<T>, key: T -> int)
  {
    forall i, j :: 0 <= i < j < |s| ==> key(s[i]) <= key(s[j])
  }

  /** No element of `s` has a key below `k`. */
  ghost predicate AllAtLeast<T>(s: seq<T>, key: T -> int, k: int)
  {
    forall i :: 0 <= i < |s| ==> k <= key(s[i])
  }

  /** Insert `x` into the sorted `s` before the first element whose key is
      not smaller than its own. */
  function Insert<T>(x: T, s: seq<T>, key: T -> int): (r: seq<T>)
    requires SortedBy(s, key)
    ensures multiset(r) == multiset(s) + multiset{x}
    ensures |r| == |s| + 1
    ensures SortedBy(r, key)
    ensures forall k :: AllAtLeast(s, key, k) && k <= key(x) ==> AllAtLeast(r, key, k)
  {
    if |s| == 0 || key(x) <= key(s[0]) then
      InsertFront(x, s, key);
      [x] + s
    else
      var tail := Insert(x, s[1..], key);
      assert s == [s[0]] + s[1..];
      InsertStep(x, s, key, tail);
      [s[0]] + tail
  }

  lemma InsertStep<T>(x: T, s: seq<T>, key: T -> int, tail: seq<T>)
    requires |s| > 0 && SortedBy(s, key) && key(s[0]) < key(x)
    requires SortedBy(tail, key)
    requires forall k :: AllAtLeast(s[1..], key, k) && k <= key(x) ==> AllAtLeast(tail, key, k)
    ensures SortedBy([s[0]] + tail, key)
    ensures forall k :: AllAtLeast(s, key, k) && k <= key(x) ==> AllAtLeast([s[0]] + tail, key, k)
  {
    assert AllAtLeast(s[1..], key, key(s[0]));
    SortedCons(s[0], tail, key);
    forall k | AllAtLeast(s, key, k) && k <= key(x)
      ensures AllAtLeast([s[0]] + tail, key, k)
    {
      assert AllAtLeast(s[1..], key, k);
      ConsAtLeast(s[0], tail, key, k);
    }
  }

  lemma ConsAtLeast<T>(a: T, t: seq<T>, key: T -> int, k: int)
    requires k <= key(a) && AllAtLeast(t, key, k)
    ensures AllAtLeast([a] + t, key, k)
  {
    var r := [a] + t;
    forall i | 0 <= i < |r|
      ensures k <= key(r[i])
    {
      if i > 0 {
        assert r[i] == t[i - 1];
      }
    }
  }

  lemma InsertFront<T>(x: T, s: seq<T>, key: T -> int)
    requires SortedBy(s, key)
    requires |s| == 0 || key(x) <= key(s[0])
    ensures SortedBy([x] + s, key)
    ensures forall k :: AllAtLeast(s, key, k) && k <= key(x) ==> AllAtLeast([x] + s, key, k)
  {
    SortedCons(x, s, key);
    forall k | AllAtLeast(s, key, k) && k <= key(x)
      ensures AllAtLeast([x] + s, key, k)
    {
      ConsAtLeast(x, s, key, k);
    }
  }

  /** A smallest element in front of a sorted sequence keeps it sorted. */
  lemma SortedCons<T>(a: T, t: seq<T>, key: T -> int)
    requires SortedBy(t, key) && AllAtLeast(t, key, key(a))
    ensures SortedBy([a] + t, key)
  {
    var r := [a] + t;
    forall i, j | 0 <= i < j < |r|
      ensures key(r[i]) <= key(r[j])
    {
      assert r[j] == t[j - 1];
      if i > 0 {
        assert r[i] == t[i - 1];
      }
    }
  }

  /** A stable insertion sort: the result holds the same elements, in
      ascending key order. */
  function SortBy<T>(s: seq<T>, key: T -> int): (r: seq<T>)
    ensures multiset(r) == multiset(s)
    ensures |r| == |s|
    ensures SortedBy(r, key)
  {
    if |s| == 0 then []
    else
      assert s == [s[0]] + s[1..];
      Insert(s[0], SortBy(s[1..], key), key)
  }

  /** The elements whose key is `k`. */
  function KeyIs<T>(key: T -> int, k: int): T -> bool
  {
    (x: T) => key(x) == k
  }

  /** `Insert` puts `x` after nothing of its own key: among the elements
      with one key, `x` comes first and the rest keep their order. */
  lemma {:induction false} InsertStable<T(!new)>(x: T, s: seq<T>, key: T -> int, k: int)
    requires SortedBy(s, key)
    ensures Filter(Insert(x, s, key), KeyIs(key, k)) ==
      if key(x) == k then [x] + Filter(s, KeyIs(key, k)) else Filter(s, KeyIs(key, k))
  {
    if |s| == 0 || key(x) <= key(s[0]) {
      assert ([x] + s)[1..] == s;
    } else {
      assert SortedBy(s[1..], key);
      InsertStable(x, s[1..], key, k);
      var tail := Insert(x, s[1..], key);
      assert ([s[0]] + tail)[1..] == tail;
    }
  }

  /** The sort is stable: the elements that share a key keep their input
      order. */
  lemma {:induction false} SortByStable<T(!new)>(s: seq<T>, key: T -> int, k: int)
    ensures Filter(SortBy(s, key), KeyIs(key, k)) == Filter(s, KeyIs(key, k))
  {
    if |s| > 0 {
      SortByStable(s[1..], key, k);
      InsertStable(s[0], SortBy(s[1..], key), key, k);
    }
  }

  /** Sorting only permutes: an element is in the result iff it is in the
      input. */
  lemma SortByMembers<T>(s: seq<T>, key: T -> int, x: T)
    ensures x in SortBy(s, key) <==> x in s
  {
    var r := SortBy(s, key);
    assert x in r <==> x in multiset(r);
    assert x in s <==> x in multiset(s);
  }

  /** `s.map(f)`. */
  function MapSeq<A, B>(s: seq<A>, f: A -> B): (r: seq<B>)
    ensures |r| == |s|
    ensures forall i :: 0 <= i < |s| ==> r[i] == f(s[i])
  {
    if |s| == 0 then [] else [f(s[0])] + MapSeq(s[1..], f)
  }

  /** The elements of `s` that satisfy `p`, in their original order. */
  function Filter<T(!new)>(s: seq<T>, p: T -> bool): (r: seq<T>)
    ensures |r| <= |s|
    ensures forall x :: x in r <==> x in s && p(x)
    ensures forall i :: 0 <= i < |r| ==> p(r[i])
  {
    if |s| == 0 then []
    else if p(s[0]) then [s[0]] + Filter(s[1..], p)
    else Filter(s[1..], p)
  }

  /** A sorted suffix orders the positions it covers. */
  lemma SortedSuffix<T>(s: seq<T>, n: nat, key: T -> int)
    requires n <= |s| && SortedBy(s[n..], key)
    ensures forall i, j :: n <= i < j < |s| ==> key(s[i]) <= key(s[j])
  {
    forall i, j | n <= i < j < |s|
      ensures key(s[i]) <= key(s[j])
    {
      assert s[i] == s[n..][i - n] && s[j] == s[n..][j - n];
    }
  }

  /** Filtering keeps the order: a filtered sorted sequence is sorted. */
  lemma {:induction false} FilterSorted<T(!new)>(s: seq<T>, p: T -> bool, key: T -> int)
    requires SortedBy(s, key)
    ensures SortedBy(Filter(s, p), key)
  {
    if |s| > 0 {
      assert SortedBy(s[1..], key);
      FilterSorted(s[1..], p, key);
      var rest := Filter(s[1..], p);
      if p(s[0]) {
        forall i | 0 <= i < |rest|
          ensures key(s[0]) <= key(rest[i])
        {
          assert rest[i] in s[1..];
          var m :| 0 <= m < |s[1..]| && s[1..][m] == rest[i];
          assert s[m + 1] == rest[i];
        }
        SortedCons(s[0], rest, key);
      }
    }
  }

  /** Filtering keeps a sequence whose every element passes. */
  lemma {:induction false} FilterAll<T(!new)>(s: seq<T>, p: T -> bool)
    requires forall i :: 0 <= i < |s| ==> p(s[i])
    ensures Filter(s, p) == s
  {
    if |s| > 0 {
      FilterAll(s[1..], p);
      assert [s[0]] + s[1..] == s;
    }
  }

  /** The position of the first element of `s` that fails `p`, or -1. */
  function FirstFailing<T>(s: seq<T>, p: T -> bool): (k: int)
    ensures -1 <= k < |s|
    ensures k == -1 <==> forall j :: 0 <= j < |s| ==> p(s[j])
    ensures k >= 0 ==> !p(s[k]) && forall j :: 0 <= j < k ==> p(s[j])
  {
    if |s| == 0 then -1
    else if !p(s[0]) then 0
    else
      var k := FirstFailing(s[1..], p);
      assert forall j :: 1 <= j < |s| ==> s[j] == s[1..][j - 1];
      if k == -1 then -1 else k + 1
  }

  /** Number of elements of `s` that satisfy `p`. */
  function CountWhere<T(!new)>(s: seq<T>, p: T -> bool): (n: nat)
  {
    if |s| == 0 then 0 else (if p(s[0]) then 1 else 0) + CountWhere(s[1..], p)
  }

  lemma CountWhereAtMost<T(!new)>(s: seq<T>, p: T -> bool)
    ensures CountWhere(s, p) <= |s|
  {
    CountWhereFilterSize(s, p);
  }

  /** Counting is the size of the filtered sequence. */
  lemma {:induction false} CountWhereFilterSize<T(!new)>(s: seq<T>, p: T -> bool)
    ensures CountWhere(s, p) == |Filter(s, p)|
  {
    if |s| > 0 {
      CountWhereFilterSize(s[1..], p);
    }
  }

  lemma {:induction false} CountWhereAppend<T(!new)>(a: seq<T>, b: seq<T>, p: T -> bool)
    ensures CountWhere(a + b, p) == CountWhere(a, p) + CountWhere(b, p)
  {
    if |a| > 0 {
      assert (a + b)[1..] == a[1..] + b;
      CountWhereAppend(a[1..], b, p);
    } else {
      assert a + b == b;
    }
  }

  /** Counting does not depend on the order: a sorted copy has as many
      matches as the original. */
  lemma {:induction false} CountWherePermutation<T(!new)>(s: seq<T>, t: seq<T>, p: T -> bool)
    requires multiset(s) == multiset(t)
    ensures CountWhere(s, p) == CountWhere(t, p)
    decreases |s|
  {
    if |s| > 0 {
      var x := s[0];
      assert x in multiset(t);
      var k :| 0 <= k < |t| && t[k] == x;
      var rest := t[..k] + t[k + 1..];
      RemoveAtMultiset(t, k);
      assert s == [x] + s[1..];
      assert multiset(s[1..]) == multiset(s) - multiset{x};
      CountWherePermutation(s[1..], rest, p);
      RemoveAtCount(t, k, p);
    }
  }

  lemma RemoveAtMultiset<T>(t: seq<T>, k: nat)
    requires k < |t|
    ensures multiset(t[..k] + t[k + 1..]) == multiset(t) - multiset{t[k]}
  {
    assert t == t[..k] + [t[k]] + t[k + 1..];
  }

  lemma RemoveAtCount<T(!new)>(t: seq<T>, k: nat, p: T -> bool)
    requires k < |t|
    ensures CountWhere(t, p) == CountWhere(t[..k] + t[k + 1..], p) + (if p(t[k]) then 1 else 0)
  {
    SplitAround(t, k);
    MiddleCount(t[..k], t[k], t[k + 1..], p);
  }

  lemma SplitAround<T>(t: seq<T>, k: nat)
    requires k < |t|
    ensures t == t[..k] + [t[k]] + t[k + 1..]
  {
  }

  lemma MiddleCount<T(!new)>(a: seq<T>, x: T, b: seq<T>, p: T -> bool)
    ensures CountWhere(a + [x] + b, p) == CountWhere(a + b, p) + (if p(x) then 1 else 0)
  {
    CountWhereAppend(a + [x], b, p);
    CountWhereAppend(a, [x], p);
    CountWhereAppend(a, b, p);
    assert [x][1..] == [];
  }

  /** Replacing one element changes the count only by what the old and the
      new element contribute. */
  lemma {:induction false} CountWhereUpdate<T(!new)>(s: seq<T>, i: nat, x: T, p: T -> bool)
    requires i < |s|
    ensures CountWhere(s[i := x], p) == CountWhere(s, p) - (if p(s[i]) then 1 else 0) + (if p(x) then 1 else 0)
  {
    assert s == s[..i] + [s[i]] + s[i + 1..];
    assert s[i := x] == s[..i] + [x] + s[i + 1..];
    CountWhereAppend(s[..i] + [s[i]], s[i + 1..], p);
    CountWhereAppend(s[..i], [s[i]], p);
    CountWhereAppend(s[..i] + [x], s[i + 1..], p);
    CountWhereAppend(s[..i], [x], p);
  }

  /** Counting `q` among the elements that satisfy `p` is counting `pq`, their
      conjunction, over the whole sequence. */
  lemma {:induction false} CountWhereFilter<T(!new)>(s: seq<T>, p: T -> bool, q: T -> bool, pq: T -> bool)
    requires forall x :: pq(x) == (p(x) && q(x))
    ensures CountWhere(Filter(s, p), q) == CountWhere(s, pq)
  {
    if |s| > 0 {
      CountWhereFilter(s[1..], p, q, pq);
      if p(s[0]) {
        assert ([s[0]] + Filter(s[1..], p))[1..] == Filter(s[1..], p);
      }
    }
  }

  /** No two positions of `s` share an `f`-value (no id appears twice). */
  predicate DistinctBy<T, K(==)>(s: seq<T>, f: T -> K)
  {
    forall i, j :: 0 <= i < j < |s| ==> f(s[i]) != f(s[j])
  }

  /** Putting an element whose key is new in front keeps keys distinct. */
  lemma DistinctCons<T, K>(a: T, t: seq<T>, f: T -> K)
    requires DistinctBy(t, f)
    requires forall k :: 0 <= k < |t| ==> f(t[k]) != f(a)
    ensures DistinctBy([a] + t, f)
  {
    var r := [a] + t;
    forall i, j | 0 <= i < j < |r|
      ensures f(r[i]) != f(r[j])
    {
      assert r[j] == t[j - 1];
      if i > 0 {
        assert r[i] == t[i - 1];
      }
    }
  }

  /** The key of the first element of a distinct sequence is not found in its
      rest. */
  lemma DistinctHead<T, K>(s: seq<T>, f: T -> K, y: T)
    requires |s| > 0 && DistinctBy(s, f) && y in s[1..]
    ensures f(y) != f(s[0])
  {
    var m :| 0 <= m < |s[1..]| && s[1..][m] == y;
    assert s[m + 1] == y;
  }

  /** Filtering keeps distinct keys distinct. */
  lemma {:induction false} FilterDistinct<T(!new), K>(s: seq<T>, p: T -> bool, f: T -> K)
    requires DistinctBy(s, f)
    ensures DistinctBy(Filter(s, p), f)
  {
    if |s| > 0 {
      assert DistinctBy(s[1..], f);
      FilterDistinct(s[1..], p, f);
      var rest := Filter(s[1..], p);
      if p(s[0]) {
        forall k | 0 <= k < |rest|
          ensures f(rest[k]) != f(s[0])
        {
          assert rest[k] in s[1..];
          DistinctHead(s, f, rest[k]);
        }
        DistinctCons(s[0], rest, f);
      }
    }
  }

  /** Sorting keeps distinct keys distinct. */
  lemma {:induction false} SortDistinct<T, K>(s: seq<T>, key: T -> int, f: T -> K)
    requires DistinctBy(s, f)
    ensures DistinctBy(SortBy(s, key), f)
  {
    if |s| > 0 {
      assert DistinctBy(s[1..], f);
      SortDistinct(s[1..], key, f);
      var sorted := SortBy(s[1..], key);
      forall y | y in sorted
        ensures f(y) != f(s[0])
      {
        SortByMembers(s[1..], key, y);
        DistinctHead(s, f, y);
      }
      InsertDistinct(s[0], sorted, key, f);
    }
  }

  /** An element is in the result of `Insert` iff it is the inserted one or
      was there before. */
  lemma InsertMembers<T>(x: T, s: seq<T>, key: T -> int, y: T)
    requires SortedBy(s, key)
    ensures y in Insert(x, s, key) <==> y == x || y in s
  {
    var r := Insert(x, s, key);
    assert y in r <==> y in multiset(r);
    assert y in s <==> y in multiset(s);
  }

  lemma {:induction false} InsertDistinct<T, K>(x: T, s: seq<T>, key: T -> int, f: T -> K)
    requires SortedBy(s, key) && DistinctBy(s, f)
    requires forall y :: y in s ==> f(y) != f(x)
    ensures DistinctBy(Insert(x, s, key), f)
  {
    if |s| == 0 || key(x) <= key(s[0]) {
      assert forall k :: 0 <= k < |s| ==> s[k] in s;
      DistinctCons(x, s, f);
    } else {
      assert SortedBy(s[1..], key) && DistinctBy(s[1..], f);
      assert forall y :: y in s[1..] ==> y in s;
      InsertDistinct(x, s[1..], key, f);
      var tail := Insert(x, s[1..], key);
      forall k | 0 <= k < |tail|
        ensures f(tail[k]) != f(s[0])
      {
        InsertMembers(x, s[1..], key, tail[k]);
        if tail[k] != x {
          DistinctHead(s, f, tail[k]);
        } else {
          assert s[0] in s;
        }
      }
      DistinctCons(s[0], tail, f);
    }
  }
}

=== FILE: text.dfy ===
/** String operations the JavaScript sources rely on (`join`, `split`,
    `trim`, `includes`, `indexOf`), written as functions over `seq<char>`
    together with the facts the other modules need about them. */
module Text {

  /** `xs.join(sep)`. */
  function Join(xs: seq<string>, sep: string): string
  {
    if |xs| == 0 then ""
    else if |xs| == 1 then xs[0]
    else xs[0] + sep + Join(xs[1..], sep)
  }

  lemma JoinCons(x: string, rest: seq<string>, sep: string)
    requires |rest| >= 1
    ensures Join([x] + rest, sep) == x + sep + Join(rest, sep)
  {
    assert ([x] + rest)[1..] == rest;
  }

  /** `s.split(sep)` for a one-character separator: the maximal separator-free
      pieces, always at least one. */
  function Split(s: string, sep: char): (r: seq<string>)
    ensures |r| >= 1
    decreases |s|
  {
    if |s| == 0 then [""]
    else
      var rest := Split(s[1..], sep);
      if s[0] == sep then [""] + rest
      else [[s[0]] + rest[0]] + rest[1..]
  }

  /** The position of the first `x` in `s`, or -1 (`Array.prototype.indexOf`). */
  function IndexOf<T(==)>(s: seq<T>, x: T): (i: int)
    ensures -1 <= i < |s|
    ensures i == -1 <==> x !in s
    ensures i >= 0 ==> s[i] == x && x !in s[..i]
  {
    if |s| == 0 then -1
    else if s[0] == x then 0
    else
      var j := IndexOf(s[1..], x);
      if j == -1 then -1 else j + 1
  }

  /** Number of occurrences of `x` in `s`. */
  function Count<T(==)>(s: seq<T>, x: T): nat
  {
    if |s| == 0 then 0
    else (if s[0] == x then 1 else 0) + Count(s[1..], x)
  }

  /** `s` without its element at position `i` (`filter((_, j) => j !== i)`). */
  function RemoveAt<T>(s: seq<T>, i: nat): (r: seq<T>)
    requires i < |s|
    ensures |r| == |s| - 1
    ensures forall j :: 0 <= j < i ==> r[j] == s[j]
    ensures forall j :: i <= j < |r| ==> r[j] == s[j + 1]
  {
    s[..i] + s[i + 1..]
  }

  /** Every element of `s` other than `x`, in order (`filter(v => v !== x)`). */
  function RemoveAll<T(==)>(s: seq<T>, x: T): seq<T>
  {
    if |s| == 0 then []
    else if s[0] == x then RemoveAll(s[1..], x)
    else [s[0]] + RemoveAll(s[1..], x)
  }

  /** The filter keeps exactly the elements other than `x`, each as often
      as `s` has it, and drops one place per occurrence of `x`. */
  lemma {:induction false} RemoveAllSpec<T>(s: seq<T>, x: T)
    ensures x !in RemoveAll(s, x)
    ensures forall y :: y in RemoveAll(s, x) <==> y in s && y != x
    ensures forall y :: y != x ==> Count(RemoveAll(s, x), y) == Count(s, y)
    ensures |RemoveAll(s, x)| == |s| - Count(s, x)
    decreases |s|
  {
    if |s| > 0 {
      RemoveAllSpec(s[1..], x);
      assert s == [s[0]] + s[1..];
      if s[0] != x {
        var r := RemoveAll(s, x);
        assert r[1..] == RemoveAll(s[1..], x);
      }
    }
  }

  /** `s.includes(c)` for a character. */
  predicate HasChar(s: string, c: char)
  {
    c in s
  }

  /** The whitespace and line terminators that `String.prototype.trim`
      strips, as listed in section 12.2 and 12.3 of ECMA-262. */
  predicate IsSpace(c: char)
  {
    || c == ' ' || c == '\t' || c == '\n' || c == '\r'
    || c == '\U{000B}' || c == '\U{000C}' || c == '\U{00A0}' || c == '\U{1680}'
    || ('\U{2000}' <= c <= '\U{200A}')
    || c == '\U{2028}' || c == '\U{2029}' || c == '\U{202F}' || c == '\U{205F}'
    || c == '\U{3000}' || c == '\U{FEFF}'
  }

  /** Every character of `s` is whitespace (vacuously true for ""). */
  predicate Blank(s: string)
  {
    forall i :: 0 <= i < |s| ==> IsSpace(s[i])
  }

  /** `s` neither starts nor ends with whitespace. */
  predicate Trimmed(s: string)
  {
    |s| == 0 || (!IsSpace(s[0]) && !IsSpace(s[|s| - 1]))
  }

  function TrimStart(s: string): (r: string)
    ensures |r| <= |s| && r == s[|s| - |r|..]
    ensures Blank(s[..|s| - |r|])
    ensures |r| > 0 ==> !IsSpace(r[0])
  {
    if |s| > 0 && IsSpace(s[0]) then TrimStart(s[1..]) else s
  }

  function TrimEnd(s: string): (r: string)
    ensures |r| <= |s| && r == s[..|r|]
    ensures Blank(s[|r|..])
    ensures |r| > 0 ==> !IsSpace(r[|r| - 1])
  {
    if |s| > 0 && IsSpace(s[|s| - 1]) then TrimEnd(s[..|s| - 1]) else s
  }

  /** `s.trim()`: `s` without leading and trailing whitespace. */
  function Trim(s: string): (r: string)
  {
    TrimEnd(TrimStart(s))
  }

  /** `trim()` removes a whitespace prefix and suffix and nothing else: the
      result is a trimmed infix of `s` whose surroundings are blank. */
  lemma TrimSpec(s: string)
    ensures Trimmed(Trim(s))
    ensures exists i, j :: 0 <= i <= j <= |s| && Trim(s) == s[i..j] && Blank(s[..i]) && Blank(s[j..])
  {
    var t := TrimStart(s);
    var r := TrimEnd(t);
    var i := |s| - |t|;
    var j := i + |r|;
    assert s[i..j] == r;
    assert s[j..] == t[|r|..];
    if |r| > 0 {
      assert r[0] == t[0];
    }
  }

  /** A string trims to "" exactly when it is all whitespace. */
  lemma TrimEmptyIffBlank(s: string)
    ensures Trim(s) == "" <==> Blank(s)
  {
    var t := TrimStart(s);
    if Blank(s) {
      TrimStartBlank(s);
    }
    if Trim(s) == "" {
      var n := |s| - |t|;
      assert Blank(t) by { assert t[|TrimEnd(t)|..] == t; }
      assert s == s[..n] + t;
      BlankAppend(s[..n], t);
    }
  }

  lemma {:induction false} TrimStartBlank(s: string)
    requires Blank(s)
    ensures TrimStart(s) == ""
    decreases |s|
  {
    if |s| > 0 {
      assert IsSpace(s[0]);
      assert Blank(s[1..]) by { assert forall k :: 0 <= k < |s| - 1 ==> s[1..][k] == s[k + 1]; }
      TrimStartBlank(s[1..]);
    }
  }

  lemma BlankAppend(a: string, b: string)
    requires Blank(a) && Blank(b)
    ensures Blank(a + b)
  {
    forall k | 0 <= k < |a + b|
      ensures IsSpace((a + b)[k])
    {
      if k < |a| {
        assert (a + b)[k] == a[k];
      } else {
        assert (a + b)[k] == b[k - |a|];
      }
    }
  }

  lemma {:induction false} TrimStartBlankPrefix(pre: string, t: string)
    requires Blank(pre)
    requires |t| == 0 || !IsSpace(t[0])
    ensures TrimStart(pre + t) == t
    decreases |pre|
  {
    if |pre| > 0 {
      assert (pre + t)[1..] == pre[1..] + t;
      TrimStartBlankPrefix(pre[1..], t);
    } else {
      assert pre + t == t;
    }
  }

  lemma {:induction false} TrimEndBlankSuffix(t: string, post: string)
    requires Blank(post)
    requires |t| == 0 || !IsSpace(t[|t| - 1])
    ensures TrimEnd(t + post) == t
    decreases |post|
  {
    if |post| > 0 {
      assert (t + post)[..|t + post| - 1] == t + post[..|post| - 1];
      TrimEndBlankSuffix(t, post[..|post| - 1]);
    } else {
      assert t + post == t;
    }
  }

  /** Trimming a trimmed string surrounded by whitespace gives it back. */
  lemma TrimPadded(pre: string, t: string, post: string)
    requires Blank(pre) && Blank(post) && Trimmed(t) && t != ""
    ensures Trim(pre + t + post) == t
  {
    assert pre + t + post == pre + (t + post);
    TrimStartBlankPrefix(pre, t + post);
    TrimEndBlankSuffix(t, post);
  }

  /** A trimmed non-empty string trims to itself. */
  lemma TrimTrimmed(t: string)
    requires Trimmed(t) && t != ""
    ensures Trim(t) == t
  {
    TrimPadded("", t, "");
    assert "" + t + "" == t;
  }

  /** A separator-free string does not split. */
  lemma {:induction false} SplitNoSep(s: string, sep: char)
    requires sep !in s
    ensures Split(s, sep) == [s]
    decreases |s|
  {
    if |s| > 0 {
      assert sep !in s[1..];
      SplitNoSep(s[1..], sep);
      assert [s[0]] + s[1..] == s;
    }
  }

  /** Splitting at the first separator. */
  lemma {:induction false} SplitAtSep(x: string, sep: char, y: string)
    requires sep !in x
    ensures Split(x + [sep] + y, sep) == [x] + Split(y, sep)
    decreases |x|
  {
    if |x| == 0 {
      assert x + [sep] + y == [sep] + y;
      assert ([sep] + y)[1..] == y;
    } else {
      assert (x + [sep] + y)[1..] == x[1..] + [sep] + y;
      assert sep !in x[1..];
      SplitAtSep(x[1..], sep, y);
      assert [x[0]] + x[1..] == x;
    }
  }

  /** The first piece of a split holds only characters of the string. */
  lemma {:induction false} SplitHeadChars(s: string, sep: char, c: char)
    requires c !in s
    ensures c !in Split(s, sep)[0]
    decreases |s|
  {
    if |s| > 0 {
      SplitHeadChars(s[1..], sep, c);
    }
  }

  /** `split` undoes `join` when no piece contains the separator. */
  lemma {:induction false} SplitJoin(xs: seq<string>, sep: char)
    requires |xs| >= 1
    requires forall i :: 0 <= i < |xs| ==> sep !in xs[i]
    ensures Split(Join(xs, [sep]), sep) == xs
    decreases |xs|
  {
    if |xs| == 1 {
      SplitNoSep(xs[0], sep);
    } else {
      SplitJoin(xs[1..], sep);
      SplitAtSep(xs[0], sep, Join(xs[1..], [sep]));
    }
  }

  /** Joining pieces with a separator never invents a character that is in
      neither the pieces nor the separator. */
  lemma {:induction false} JoinChars(xs: seq<string>, sep: string, c: char)
    requires forall i :: 0 <= i < |xs| ==> c !in xs[i]
    requires c !in sep
    ensures c !in Join(xs, sep)
    decreases |xs|
  {
    if |xs| > 1 {
      JoinChars(xs[1..], sep, c);
    }
  }

  /** `s` contains `t` as a contiguous piece (`String.prototype.includes`). */
  predicate Contains(s: string, t: string)
    decreases |s|
  {
    (|t| <= |s| && s[..|t|] == t) || (|s| > 0 && Contains(s[1..], t))
  }

  /** ASCII upper case folded to lower case; other characters unchanged. */
  function LowerChar(c: char): char
  {
    if 'A' <= c <= 'Z' then (c as int + 32) as char else c
  }

  function Lower(s: string): (r: string)
    ensures |r| == |s|
    ensures forall i :: 0 <= i < |s| ==> r[i] == LowerChar(s[i])
  {
    if |s| == 0 then "" else [LowerChar(s[0])] + Lower(s[1..])
  }

  /** The UTF-16 code units of one character: two for a character outside
      the Basic Multilingual Plane (a surrogate pair), one otherwise. */
  function CodeUnits(c: char): nat
  {
    if c as int >= 0x1_0000 then 2 else 1
  }

  /** `s.length` in JavaScript, which counts UTF-16 code units rather than
      characters. */
  function Utf16Length(s: string): (n: nat)
    ensures |s| <= n <= 2 * |s|
  {
    if |s| == 0 then 0 else CodeUnits(s[0]) + Utf16Length(s[1..])
  }

  /** Lengths add up over concatenation. */
  lemma {:induction false} Utf16LengthAppend(a: string, b: string)
    ensures Utf16Length(a + b) == Utf16Length(a) + Utf16Length(b)
  {
    if |a| > 0 {
      assert (a + b)[1..] == a[1..] + b;
      Utf16LengthAppend(a[1..], b);
    } else {
      assert a + b == b;
    }
  }

  /** Within the Basic Multilingual Plane the two lengths agree. */
  lemma {:induction false} BmpUtf16Length(s: string)
    requires forall i :: 0 <= i < |s| ==> s[i] as int < 0x1_0000
    ensures Utf16Length(s) == |s|
  {
    if |s| > 0 {
      BmpUtf16Length(s[1..]);
    }
  }

  /** Four emoji are four characters but eight code units, enough for an
      eight-unit minimum. */
  lemma EmojiCountTwice()
    ensures var s := "\U{1F600}\U{1F600}\U{1F600}\U{1F600}"; |s| == 4 && Utf16Length(s) == 8
  {
    var s := "\U{1F600}\U{1F600}\U{1F600}\U{1F600}";
    assert s[1..][1..][1..][1..] == [];
  }

  /** Decimal rendering of a natural number (`${n}` in a template string). */
  function NatToString(n: nat): (r: string)
    ensures |r| >= 1
    ensures forall i :: 0 <= i < |r| ==> '0' <= r[i] <= '9'
    decreases n
  {
    var d := ['0' + (n % 10) as char];
    if n < 10 then d else NatToString(n / 10) + d
  }

  /** Replace every element `x` of `s` by the sequence `f(x)`: the shape of
      a global one-character `replace`, of a sequence of them, and of a
      document built block by block. */
  function Expand<A, B>(s: seq<A>, f: A -> seq<B>): seq<B>
  {
    if |s| == 0 then [] else f(s[0]) + Expand(s[1..], f)
  }

  lemma {:induction false} ExpandAppend<A, B>(a: seq<A>, b: seq<A>, f: A -> seq<B>)
    ensures Expand(a + b, f) == Expand(a, f) + Expand(b, f)
    decreases |a|
  {
    if |a| > 0 {
      assert (a + b)[1..] == a[1..] + b;
      ExpandAppend(a[1..], b, f);
    } else {
      assert a + b == b;
    }
  }

  /** Two successive expansions are one expansion by the composed map. */
  lemma {:induction false} ExpandCompose(s: string, f: char -> string, g: char -> string)
    ensures Expand(Expand(s, f), g) == Expand(s, c => Expand(f(c), g))
    decreases |s|
  {
    if |s| > 0 {
      ExpandAppend(f(s[0]), Expand(s[1..], f), g);
      ExpandCompose(s[1..], f, g);
    }
  }

  lemma {:induction false} CountAppend<T>(a: seq<T>, b: seq<T>, x: T)
    ensures Count(a + b, x) == Count(a, x) + Count(b, x)
    decreases |a|
  {
    if |a| > 0 {
      assert (a + b)[1..] == a[1..] + b;
      CountAppend(a[1..], b, x);
    } else {
      assert a + b == b;
    }
  }

  lemma CountPositive<T>(s: seq<T>, x: T)
    ensures x in s <==> Count(s, x) > 0
  {
    if x in s {
      var i := IndexOf(s, x);
      assert s == s[..i] + [x] + s[i + 1..];
      CountAppend(s[..i] + [x], s[i + 1..], x);
      CountAppend(s[..i], [x], x);
    } else if Count(s, x) > 0 {
      CountAbsent(s, x);
    }
  }

  lemma {:induction false} CountAbsent<T>(s: seq<T>, x: T)
    requires x !in s
    ensures Count(s, x) == 0
    decreases |s|
  {
    if |s| > 0 {
      CountAbsent(s[1..], x);
    }
  }

  /** The filter works piece by piece, so what it keeps stays in the order
      of `s`. */
  lemma {:induction false} RemoveAllAppend<T>(a: seq<T>, b: seq<T>, x: T)
    ensures RemoveAll(a + b, x) == RemoveAll(a, x) + RemoveAll(b, x)
    decreases |a|
  {
    if |a| > 0 {
      assert (a + b)[1..] == a[1..] + b;
      RemoveAllAppend(a[1..], b, x);
    } else {
      assert a + b == b;
    }
  }

  /** Expansions by maps that agree on every character agree. */
  lemma {:induction false} ExpandExt(s: string, f: char -> string, g: char -> string)
    requires forall c :: f(c) == g(c)
    ensures Expand(s, f) == Expand(s, g)
    decreases |s|
  {
    if |s| > 0 {
      ExpandExt(s[1..], f, g);
    }
  }

  /** A map that keeps every character of `s` keeps `s`. */
  lemma {:induction false} ExpandPlain(s: string, f: char -> string)
    requires forall i :: 0 <= i < |s| ==> f(s[i]) == [s[i]]
    ensures Expand(s, f) == s
    decreases |s|
  {
    if |s| > 0 {
      ExpandPlain(s[1..], f);
      assert [s[0]] + s[1..] == s;
    }
  }
}

=== FILE: trending.dfy ===
/** `trendingevents`: the events with the most registrations in the last
    day, published ones only, at most five, topped up by overall
    registration count. */
module Trending {
  import opened Common
  import opened Models
  import opened Sorting
  import opened Text
  import Events
  import Browse

  /** One day in milliseconds. */
  const Day: int := 24 * 60 * 60 * 1000

  /** A `$group` output row: an event and its number of registrations. */
  datatype Group = Group(event: Id, count: nat)

  function CreatedSince(since: Timestamp): Registration -> bool
  {
    (r: Registration) => r.createdAt >= since
  }

  /** `$match: { createdAt: { $gte: now - 1 day } }`. */
  function Recent(regs: seq<Registration>, now: Timestamp): (r: seq<Registration>)
    ensures forall x :: x in r <==> x in regs && x.createdAt >= now - Day
  {
    Filter(regs, CreatedSince(now - Day))
  }

  /** The event of each registration, in order. */
  function EventIds(regs: seq<Registration>): (r: seq<Id>)
    ensures |r| == |regs|
    ensures forall i :: 0 <= i < |regs| ==> r[i] == regs[i].event
  {
    if |regs| == 0 then [] else [regs[0].event] + EventIds(regs[1..])
  }

  predicate Distinct(ids: seq<Id>)
  {
    forall i, j :: 0 <= i < j < |ids| ==> ids[i] != ids[j]
  }

  /** Each id once, in order of first appearance: the order in which
      `$group` is taken to emit its keys. */
  function FirstAppearances(ids: seq<Id>): (r: seq<Id>)
    ensures forall x :: x in r <==> x in ids
    ensures Distinct(r)
  {
    if |ids| == 0 then []
    else
      var init := ids[..|ids| - 1];
      var d := FirstAppearances(init);
      var last := ids[|ids| - 1];
      assert ids == init + [last];
      if last in d then d else d + [last]
  }

  /** One group per key, counting the occurrences in `ids`. */
  function GroupsOf(keys: seq<Id>, ids: seq<Id>): (r: seq<Group>)
    ensures |r| == |keys|
    ensures forall i :: 0 <= i < |keys| ==> r[i] == Group(keys[i], Count(ids, keys[i]))
  {
    if |keys| == 0 then [] else [Group(keys[0], Count(ids, keys[0]))] + GroupsOf(keys[1..], ids)
  }

  function ByCountDesc(g: Group): int
  {
    -(g.count as int)
  }

  function Take<T>(s: seq<T>, n: nat): (r: seq<T>)
    ensures |r| == if |s| <= n then |s| else n
    ensures r == s[..|r|]
  {
    if |s| <= n then s else s[..n]
  }

  /** The groups by descending count, all of them before the `$limit`. */
  function RankedGroups(regs: seq<Registration>, now: Timestamp): (r: seq<Group>)
    ensures SortedBy(r, ByCountDesc)
  {
    var ids := EventIds(Recent(regs, now));
    SortBy(GroupsOf(FirstAppearances(ids), ids), ByCountDesc)
  }

  /** The recent registrations of one event. */
  function RecentCount(regs: seq<Registration>, now: Timestamp, id: Id): nat
  {
    Count(EventIds(Recent(regs, now)), id)
  }

  /** Ranking keeps one group per recently registered event, with its true
      count. */
  lemma RankedGroupsSpec(regs: seq<Registration>, now: Timestamp)
    ensures forall g :: g in RankedGroups(regs, now) <==>
      g.event in EventIds(Recent(regs, now)) && g.count == RecentCount(regs, now, g.event)
  {
    var ids := EventIds(Recent(regs, now));
    var keys := FirstAppearances(ids);
    var groups := GroupsOf(keys, ids);
    forall g
      ensures g in RankedGroups(regs, now) <==> g in groups
    {
      SortByMembers(groups, ByCountDesc, g);
    }
    forall g: Group | g.event in ids && g.count == RecentCount(regs, now, g.event)
      ensures g in groups
    {
      var i :| 0 <= i < |keys| && keys[i] == g.event;
      assert groups[i] == g;
    }
  }

  /** The stage's output: at most 20 groups, by descending count. */
  function TopGroups(regs: seq<Registration>, now: Timestamp): (r: seq<Group>)
    ensures |r| <= 20
    ensures SortedBy(r, ByCountDesc)
  {
    Take(RankedGroups(regs, now), 20)
  }

  /** Ranking is by count: a group left out by the limit has no more
      registrations than the last one kept. */
  lemma TopGroupsAreTop(regs: seq<Registration>, now: Timestamp, g: Group)
    requires g in RankedGroups(regs, now) && g !in TopGroups(regs, now)
    ensures |TopGroups(regs, now)| == 20
    ensures g.count <= TopGroups(regs, now)[19].count
  {
    var ranked := RankedGroups(regs, now);
    var k :| 0 <= k < |ranked| && ranked[k] == g;
    assert k >= 20;
  }

  function GroupIds(gs: seq<Group>): (r: seq<Id>)
    ensures |r| == |gs|
    ensures forall i :: 0 <= i < |gs| ==> r[i] == gs[i].event
  {
    if |gs| == 0 then [] else [gs[0].event] + GroupIds(gs[1..])
  }

  function IsPublished(e: Event): bool
  {
    e.status == Published
  }

  /** `ids.map(id => events.find(...)).filter(Boolean)` over the published
      events among those ids. */
  function Picks(pub: seq<Event>, ids: seq<Id>): (r: seq<Event>)
    ensures |r| <= |ids|
    ensures forall e :: e in r ==> e in pub && e.id in ids
  {
    if |ids| == 0 then []
    else
      var rest := Picks(pub, ids[1..]);
      match FindEvent(pub, ids[0])
      case None => rest
      case Some(e) => [e] + rest
  }

  /** Nothing is dropped: every id that names a published event yields
      that event. */
  lemma {:induction false} PicksComplete(pub: seq<Event>, ids: seq<Id>)
    ensures forall i :: 0 <= i < |ids| && FindEvent(pub, ids[i]).Some? ==>
      FindEvent(pub, ids[i]).value in Picks(pub, ids)
  {
    if |ids| > 0 {
      PicksComplete(pub, ids[1..]);
      forall i | 1 <= i < |ids| && FindEvent(pub, ids[i]).Some?
        ensures FindEvent(pub, ids[i]).value in Picks(pub, ids)
      {
        assert ids[i] == ids[1..][i - 1];
      }
    }
  }

  /** The picks follow the ids' order: when a score never increases along
      the ids, it never increases along the picks. */
  lemma {:induction false} PicksFollowOrder(pub: seq<Event>, ids: seq<Id>, score: Id -> int)
    requires forall i, j :: 0 <= i < j < |ids| ==> score(ids[i]) >= score(ids[j])
    ensures forall i, j :: 0 <= i < j < |Picks(pub, ids)| ==>
      score(Picks(pub, ids)[i].id) >= score(Picks(pub, ids)[j].id)
  {
    if |ids| > 0 {
      var tail := ids[1..];
      var rest := Picks(pub, tail);
      PicksFollowOrder(pub, tail, score);
      match FindEvent(pub, ids[0])
      case None =>
      case Some(e) =>
        assert forall k :: 0 <= k < |tail| ==> score(tail[k]) <= score(e.id) by {
          forall k | 0 <= k < |tail|
            ensures score(tail[k]) <= score(e.id)
          {
            assert tail[k] == ids[k + 1];
          }
        }
        PicksScoreBelow(pub, tail, score, score(e.id));
        assert Picks(pub, ids) == [e] + rest;
    }
  }

  /** A bound on the score of every id bounds the score of every pick. */
  lemma PicksScoreBelow(pub: seq<Event>, ids: seq<Id>, score: Id -> int, bound: int)
    requires forall k :: 0 <= k < |ids| ==> score(ids[k]) <= bound
    ensures forall e :: e in Picks(pub, ids) ==> score(e.id) <= bound
  {
  }

  /** Distinct ids and unique event ids give distinct picks. */
  lemma {:induction false} PicksDistinct(pub: seq<Event>, ids: seq<Id>)
    requires Distinct(ids)
    ensures UniqueEventIds(Picks(pub, ids))
  {
    if |ids| > 0 {
      var rest := Picks(pub, ids[1..]);
      assert Distinct(ids[1..]);
      PicksDistinct(pub, ids[1..]);
      if FindEvent(pub, ids[0]).Some? {
        var e := FindEvent(pub, ids[0]).value;
        assert Picks(pub, ids) == [e] + rest;
        forall k | 0 <= k < |rest|
          ensures IdOf(rest[k]) != IdOf(e)
        {
          assert rest[k] in rest;
          HeadIdFresh(ids, rest[k].id);
        }
        DistinctCons(e, rest, IdOf);
      }
    }
  }

  /** The first id of a repeat-free list does not occur again. */
  lemma HeadIdFresh(ids: seq<Id>, x: Id)
    requires |ids| > 0 && Distinct(ids) && x in ids[1..]
    ensures x != ids[0]
  {
    var m :| 0 <= m < |ids[1..]| && ids[1..][m] == x;
    assert ids[m + 1] == x;
  }

  function Ids(s: seq<Event>): (r: seq<Id>)
    ensures |r| == |s|
    ensures forall i :: 0 <= i < |s| ==> r[i] == s[i].id
  {
    if |s| == 0 then [] else [s[0].id] + Ids(s[1..])
  }

  function NotAmong(ids: seq<Id>): Event -> bool
  {
    (e: Event) => e.id !in ids
  }

  function ByRegcountDesc(e: Event): int
  {
    -e.regcount
  }

  /** `find({ status: 'published', _id: { $nin } }).sort({ regcount: -1 })`
      before the limit. */
  function BackfillPool(pub: seq<Event>, picked: seq<Event>): (r: seq<Event>)
    ensures SortedBy(r, ByRegcountDesc)
    ensures forall e :: e in r <==> e in pub && !HasId(picked, e.id)
    ensures UniqueEventIds(pub) ==> UniqueEventIds(r)
  {
    var kept := Filter(pub, NotAmong(Ids(picked)));
    var r := SortBy(kept, ByRegcountDesc);
    assert forall e :: e in r <==> e in kept by {
      forall e { SortByMembers(kept, ByRegcountDesc, e); }
    }
    assert forall e: Event :: e.id in Ids(picked) <==> HasId(picked, e.id) by {
      forall e: Event
        ensures e.id in Ids(picked) <==> HasId(picked, e.id)
      {
        if e.id in Ids(picked) {
          var k :| 0 <= k < |Ids(picked)| && Ids(picked)[k] == e.id;
          assert picked[k].id == e.id;
        }
        if HasId(picked, e.id) {
          var k :| 0 <= k < |picked| && picked[k].id == e.id;
          assert Ids(picked)[k] == e.id;
        }
      }
    }
    assert UniqueEventIds(pub) ==> UniqueEventIds(r) by {
      if UniqueEventIds(pub) {
        FilterDistinct(pub, NotAmong(Ids(picked)), IdOf);
        SortDistinct(kept, ByRegcountDesc, IdOf);
      }
    }
    r
  }

  /** The first up-to-five published trending events, in ranking order. */
  function Ordered(events: seq<Event>, regs: seq<Registration>, now: Timestamp): (r: seq<Event>)
    ensures |r| <= 5
    ensures forall e :: e in r ==> e in events && e.status == Published
  {
    var pub := Filter(events, IsPublished);
    Take(Picks(pub, GroupIds(TopGroups(regs, now))), 5)
  }

  /** The picks, then, when there are fewer than five, the head of the
      backfill pool up to five in all. */
  function TopUp(ordered: seq<Event>, pool: seq<Event>): (r: seq<Event>)
    ensures |ordered| <= 5 ==> |r| <= 5
    ensures |ordered| <= |r| <= |ordered| + |pool| && r[..|ordered|] == ordered
    ensures forall i :: |ordered| <= i < |r| ==> r[i] == pool[i - |ordered|]
    ensures forall e :: e in r ==> e in ordered || e in pool
  {
    if |ordered| < 5 then
      var r := ordered + Take(pool, 5 - |ordered|);
      assert r[..|ordered|] == ordered;
      r
    else ordered
  }

  /** A short result has taken the whole pool. */
  lemma TopUpShort(ordered: seq<Event>, pool: seq<Event>, e: Event)
    requires |TopUp(ordered, pool)| < 5
    requires HasId(ordered, e.id) || e in pool
    ensures HasId(TopUp(ordered, pool), e.id)
  {
    var r := TopUp(ordered, pool);
    if HasId(ordered, e.id) {
      var k :| 0 <= k < |ordered| && ordered[k].id == e.id;
      assert r[k] == ordered[k];
    } else {
      assert |r| == |ordered| + |pool|;
      var k :| 0 <= k < |pool| && pool[k] == e;
      assert r[|ordered| + k] == e;
    }
  }

  /** Topping up repeats no id when the pool holds only new ids. */
  lemma TopUpDistinct(ordered: seq<Event>, pool: seq<Event>)
    requires UniqueEventIds(ordered) && UniqueEventIds(pool)
    requires forall e :: e in pool ==> !HasId(ordered, e.id)
    ensures UniqueEventIds(TopUp(ordered, pool))
  {
    var r := TopUp(ordered, pool);
    var n := |ordered|;
    forall i, j | 0 <= i < j < |r|
      ensures IdOf(r[i]) != IdOf(r[j])
    {
      if j < n {
        assert r[i] == ordered[i] && r[j] == ordered[j];
      } else if i < n {
        assert r[j] == pool[j - n];
        assert r[i] == ordered[i];
      }
    }
  }

  /** The stored events `trendingevents` chooses: the ordered picks, then,
      when there are fewer than five, the most registered published events
      not already picked. */
  function TrendingChoice(events: seq<Event>, regs: seq<Registration>, now: Timestamp): (r: seq<Event>)
    ensures |r| <= 5
    ensures forall e :: e in r ==> e in events && e.status == Published
    ensures |Ordered(events, regs, now)| <= |r|
    ensures r[..|Ordered(events, regs, now)|] == Ordered(events, regs, now)
  {
    var ordered := Ordered(events, regs, now);
    TopUp(ordered, BackfillPool(Filter(events, IsPublished), ordered))
  }

  /** `trendingevents`: the chosen events as both queries return them,
      without their form (`select('-formschema')`). */
  function TrendingEvents(events: seq<Event>, regs: seq<Registration>, now: Timestamp): (r: seq<Event>)
    ensures |r| <= 5 && |r| == |TrendingChoice(events, regs, now)|
    ensures forall i :: 0 <= i < |r| ==> r[i] == Events.Public(TrendingChoice(events, regs, now)[i])
    ensures forall x :: x in r ==> exists e :: e in events && e.status == Published && x == Events.Public(e)
    ensures forall x :: x in r && x.kind.Normal? ==> x.kind.formschema.None?
    ensures |Ordered(events, regs, now)| <= |r|
    ensures forall i :: 0 <= i < |Ordered(events, regs, now)| ==> r[i] == Events.Public(Ordered(events, regs, now)[i])
  {
    var c := TrendingChoice(events, regs, now);
    PublicViews(c, events, Ordered(events, regs, now));
    Browse.PublicAll(c)
  }

  /** The views of published events of `events` that begin with `prefix`
      begin with the views of `prefix`. */
  lemma PublicViews(c: seq<Event>, events: seq<Event>, prefix: seq<Event>)
    requires forall e :: e in c ==> e in events && e.status == Published
    requires |prefix| <= |c| && c[..|prefix|] == prefix
    ensures forall x :: x in Browse.PublicAll(c) ==> exists e :: e in events && e.status == Published && x == Events.Public(e)
    ensures forall i :: 0 <= i < |prefix| ==> Browse.PublicAll(c)[i] == Events.Public(prefix[i])
  {
    var r := Browse.PublicAll(c);
    forall x | x in r
      ensures exists e :: e in events && e.status == Published && x == Events.Public(e)
    {
      var i :| 0 <= i < |r| && r[i] == x;
      assert c[i] in c;
    }
    forall i | 0 <= i < |prefix|
      ensures r[i] == Events.Public(prefix[i])
    {
      assert c[i] == c[..|prefix|][i];
    }
  }

  /** The answer names the same events, in the same places, as the choice. */
  lemma AnswerIds(events: seq<Event>, regs: seq<Registration>, now: Timestamp, id: Id)
    ensures HasId(TrendingEvents(events, regs, now), id) <==> HasId(TrendingChoice(events, regs, now), id)
  {
    AnswerKeeps(events, regs, now);
    SameIds(TrendingEvents(events, regs, now), TrendingChoice(events, regs, now), id);
  }

  /** Two lists with the same id in every place name the same ids. */
  lemma SameIds(r: seq<Event>, c: seq<Event>, id: Id)
    requires |r| == |c| && forall i :: 0 <= i < |c| ==> r[i].id == c[i].id
    ensures HasId(r, id) <==> HasId(c, id)
  {
    if HasId(c, id) {
      var k :| 0 <= k < |c| && c[k].id == id;
      assert r[k].id == id;
    }
    if HasId(r, id) {
      var k :| 0 <= k < |r| && r[k].id == id;
      assert c[k].id == id;
    }
  }

  /** `s` is by descending number of registrations in the last day. */
  ghost predicate ByRecentCount(s: seq<Event>, regs: seq<Registration>, now: Timestamp)
  {
    forall i, j :: 0 <= i < j < |s| ==> RecentCount(regs, now, s[i].id) >= RecentCount(regs, now, s[j].id)
  }

  /** All the picks, before the cut to five, by descending number of
      registrations in the last day. */
  lemma AllPicksRanked(events: seq<Event>, regs: seq<Registration>, now: Timestamp)
    ensures ByRecentCount(Picks(Filter(events, IsPublished), GroupIds(TopGroups(regs, now))), regs, now)
  {
    var top := TopGroups(regs, now);
    var ids := GroupIds(top);
    var score := (id: Id) => RecentCount(regs, now, id);
    RankedGroupsSpec(regs, now);
    forall i | 0 <= i < |top|
      ensures top[i].count == score(ids[i])
    {
      assert top[i] in RankedGroups(regs, now);
    }
    var pub := Filter(events, IsPublished);
    PicksFollowOrder(pub, ids, score);
  }

  /** The picks come first and by descending number of registrations in
      the last day. */
  lemma PicksRankedByRecentCount(events: seq<Event>, regs: seq<Registration>, now: Timestamp)
    ensures forall i, j :: 0 <= i < j < |Ordered(events, regs, now)| ==>
      RecentCount(regs, now, Ordered(events, regs, now)[i].id) >= RecentCount(regs, now, Ordered(events, regs, now)[j].id)
  {
    var picks := Picks(Filter(events, IsPublished), GroupIds(TopGroups(regs, now)));
    var ordered := Ordered(events, regs, now);
    assert ordered == picks[..|ordered|];
    AllPicksRanked(events, regs, now);
    assert ByRecentCount(picks, regs, now);
    forall i, j | 0 <= i < j < |ordered|
      ensures RecentCount(regs, now, ordered[i].id) >= RecentCount(regs, now, ordered[j].id)
    {
      assert ordered[i] == picks[i] && ordered[j] == picks[j];
    }
  }

  /** With unique ids, looking an event's id up finds that event. */
  lemma FindOwnId(events: seq<Event>, e: Event)
    requires UniqueEventIds(events) && e in events
    ensures FindEvent(events, e.id) == Some(e)
  {
    var k :| 0 <= k < |events| && events[k] == e;
    var i := EventIndex(events, e.id);
    assert i != -1 && IdOf(events[i]) == IdOf(events[k]);
  }

  /** A published event whose id is among the ids is picked. */
  lemma PublishedIsPicked(events: seq<Event>, pub: seq<Event>, ids: seq<Id>, e: Event)
    requires UniqueEventIds(events) && pub == Filter(events, IsPublished)
    requires e in events && e.status == Published && e.id in ids
    ensures e in Picks(pub, ids)
  {
    FilterDistinct(events, IsPublished, IdOf);
    FindOwnId(pub, e);
    var i :| 0 <= i < |ids| && ids[i] == e.id;
    PicksComplete(pub, ids);
  }

  /** In a ranked list, each of the first five outranks a later entry. */
  lemma PrefixOutranks(s: seq<Event>, regs: seq<Registration>, now: Timestamp, k: nat)
    requires ByRecentCount(s, regs, now) && 5 <= k < |s|
    ensures forall x :: x in Take(s, 5) ==> RecentCount(regs, now, x.id) >= RecentCount(regs, now, s[k].id)
  {
    forall x | x in Take(s, 5)
      ensures RecentCount(regs, now, x.id) >= RecentCount(regs, now, s[k].id)
    {
      var m :| 0 <= m < 5 && s[..5][m] == x;
      assert x == s[m];
    }
  }

  /** Every published event among the twenty top groups is picked: it is
      among the first five, or five picks outrank it in registrations in
      the last day. */
  lemma OrderedComplete(events: seq<Event>, regs: seq<Registration>, now: Timestamp, e: Event)
    requires UniqueEventIds(events)
    requires e in events && e.status == Published
    requires e.id in GroupIds(TopGroups(regs, now))
    ensures var ordered := Ordered(events, regs, now);
      || e in ordered
      || (|ordered| == 5 && forall x :: x in ordered ==> RecentCount(regs, now, x.id) >= RecentCount(regs, now, e.id))
  {
    var pub := Filter(events, IsPublished);
    var ids := GroupIds(TopGroups(regs, now));
    var picks := Picks(pub, ids);
    var ordered := Ordered(events, regs, now);
    assert ordered == picks[..|ordered|];
    assert e in picks by {
      PublishedIsPicked(events, pub, ids, e);
    }
    var k :| 0 <= k < |picks| && picks[k] == e;
    if k >= 5 {
      AllPicksRanked(events, regs, now);
      PrefixOutranks(picks, regs, now, k);
    } else {
      assert ordered[k] == e;
    }
  }

  /** A published event missing from a full list is outranked: by five
      picks with at least as many registrations in the last day when it
      was among the top groups, and by every backfilled event in overall
      registrations. */
  lemma TrendingLeftOutIsOutranked(events: seq<Event>, regs: seq<Registration>, now: Timestamp, e: Event)
    requires UniqueEventIds(events)
    requires e in events && e.status == Published
    requires !HasId(TrendingEvents(events, regs, now), e.id)
    ensures |TrendingEvents(events, regs, now)| == 5
    ensures var ordered := Ordered(events, regs, now);
      e.id in GroupIds(TopGroups(regs, now)) ==>
        |ordered| == 5 && forall x :: x in ordered ==> RecentCount(regs, now, x.id) >= RecentCount(regs, now, e.id)
    ensures forall i :: |Ordered(events, regs, now)| <= i < 5 ==>
      TrendingEvents(events, regs, now)[i].regcount >= e.regcount
  {
    AnswerIds(events, regs, now, e.id);
    if |TrendingChoice(events, regs, now)| < 5 {
      ShortListHasEveryPublished(events, regs, now, e);
    }
    LeftOutNotOrdered(events, regs, now, e);
    if e.id in GroupIds(TopGroups(regs, now)) {
      OrderedComplete(events, regs, now, e);
    }
    LeftOutOfBackfill(events, regs, now, e);
    AnswerKeeps(events, regs, now);
  }

  /** The answer keeps the id and regcount of each chosen event. */
  lemma AnswerKeeps(events: seq<Event>, regs: seq<Registration>, now: Timestamp)
    ensures forall i :: 0 <= i < |TrendingChoice(events, regs, now)| ==>
      && TrendingEvents(events, regs, now)[i].id == TrendingChoice(events, regs, now)[i].id
      && TrendingEvents(events, regs, now)[i].regcount == TrendingChoice(events, regs, now)[i].regcount
  {
  }

  /** An event missing from the answer is not among the ordered picks. */
  lemma LeftOutNotOrdered(events: seq<Event>, regs: seq<Registration>, now: Timestamp, e: Event)
    requires !HasId(TrendingChoice(events, regs, now), e.id)
    ensures !HasId(Ordered(events, regs, now), e.id) && e !in Ordered(events, regs, now)
  {
    var ordered := Ordered(events, regs, now);
    var r := TrendingChoice(events, regs, now);
    forall k | 0 <= k < |ordered| ensures ordered[k].id != e.id {
      assert r[k] == ordered[k];
    }
  }

  /** A published event missing from the answer has no more overall
      registrations than any backfilled event. */
  lemma LeftOutOfBackfill(events: seq<Event>, regs: seq<Registration>, now: Timestamp, e: Event)
    requires e in events && e.status == Published
    requires !HasId(TrendingChoice(events, regs, now), e.id)
    ensures forall i :: |Ordered(events, regs, now)| <= i < |TrendingChoice(events, regs, now)| ==>
      TrendingChoice(events, regs, now)[i].regcount >= e.regcount
  {
    var ordered := Ordered(events, regs, now);
    var pool := BackfillPool(Filter(events, IsPublished), ordered);
    ChoiceIsTopUp(events, regs, now);
    LeftOutNotOrdered(events, regs, now, e);
    LeftOutInPool(events, ordered, e);
    BackfillOutranks(ordered, pool, e);
  }

  /** The choice tops up the ordered picks from the backfill pool. */
  lemma ChoiceIsTopUp(events: seq<Event>, regs: seq<Registration>, now: Timestamp)
    ensures TrendingChoice(events, regs, now) ==
      TopUp(Ordered(events, regs, now), BackfillPool(Filter(events, IsPublished), Ordered(events, regs, now)))
  {
  }

  /** A published event with an id not yet picked is in the backfill pool. */
  lemma LeftOutInPool(events: seq<Event>, ordered: seq<Event>, e: Event)
    requires e in events && e.status == Published && !HasId(ordered, e.id)
    ensures e in BackfillPool(Filter(events, IsPublished), ordered)
  {
    assert IsPublished(e);
    assert e in Filter(events, IsPublished);
  }

  /** An event of the pool that topping up left out has no more overall
      registrations than any event taken from the pool. */
  lemma BackfillOutranks(ordered: seq<Event>, pool: seq<Event>, e: Event)
    requires SortedBy(pool, ByRegcountDesc) && e in pool
    requires !HasId(TopUp(ordered, pool), e.id)
    ensures forall i :: |ordered| <= i < |TopUp(ordered, pool)| ==> TopUp(ordered, pool)[i].regcount >= e.regcount
  {
    var r := TopUp(ordered, pool);
    var m :| 0 <= m < |pool| && pool[m] == e;
    forall j | 0 <= j < |r| - |ordered| ensures pool[j].id != e.id {
      assert r[|ordered| + j] == pool[j];
    }
    assert |r| - |ordered| <= m;
    forall i | |ordered| <= i < |r|
      ensures r[i].regcount >= e.regcount
    {
      assert r[i] == pool[i - |ordered|];
    }
  }

  /** The backfill comes after the picks, by descending overall
      registration count, and repeats none of them. */
  lemma BackfillRankedAndNew(events: seq<Event>, regs: seq<Registration>, now: Timestamp)
    ensures var n := |Ordered(events, regs, now)|;
      var r := TrendingEvents(events, regs, now);
      && (forall i, j :: n <= i < j < |r| ==> r[i].regcount >= r[j].regcount)
      && (forall i :: n <= i < |r| ==> !HasId(Ordered(events, regs, now), r[i].id))
  {
    ChoiceBackfillRanked(events, regs, now);
    AnswerKeeps(events, regs, now);
  }

  /** The same of the chosen stored events. */
  lemma ChoiceBackfillRanked(events: seq<Event>, regs: seq<Registration>, now: Timestamp)
    ensures var n := |Ordered(events, regs, now)|;
      var c := TrendingChoice(events, regs, now);
      && (forall i, j :: n <= i < j < |c| ==> c[i].regcount >= c[j].regcount)
      && (forall i :: n <= i < |c| ==> !HasId(Ordered(events, regs, now), c[i].id))
  {
    var ordered := Ordered(events, regs, now);
    ChoiceIsTopUp(events, regs, now);
    TopUpTail(ordered, BackfillPool(Filter(events, IsPublished), ordered));
  }

  /** What topping up takes from a pool sorted by regcount and new to the
      picks comes sorted by regcount and repeats no pick. */
  lemma TopUpTail(ordered: seq<Event>, pool: seq<Event>)
    requires SortedBy(pool, ByRegcountDesc)
    requires forall e :: e in pool ==> !HasId(ordered, e.id)
    ensures var r := TopUp(ordered, pool);
      && (forall i, j :: |ordered| <= i < j < |r| ==> r[i].regcount >= r[j].regcount)
      && (forall i :: |ordered| <= i < |r| ==> !HasId(ordered, r[i].id))
  {
    var r := TopUp(ordered, pool);
    forall i | |ordered| <= i < |r|
      ensures r[i] in pool
    {
    }
  }

  /** Fewer than five results means every published event made it in. */
  lemma ShortListHasEveryPublished(events: seq<Event>, regs: seq<Registration>, now: Timestamp, e: Event)
    requires |TrendingEvents(events, regs, now)| < 5
    requires e in events && e.status == Published
    ensures HasId(TrendingEvents(events, regs, now), e.id)
  {
    AnswerIds(events, regs, now, e.id);
    var ordered := Ordered(events, regs, now);
    var pool := BackfillPool(Filter(events, IsPublished), ordered);
    assert TopUp(ordered, pool) == TrendingChoice(events, regs, now);
    TopUpShort(ordered, pool, e);
  }

  function GroupEvent(g: Group): Id
  {
    g.event
  }

  /** The ranked groups name each event once. */
  lemma TopIdsDistinct(regs: seq<Registration>, now: Timestamp)
    ensures Distinct(GroupIds(TopGroups(regs, now)))
  {
    var rids := EventIds(Recent(regs, now));
    var groups := GroupsOf(FirstAppearances(rids), rids);
    SortDistinct(groups, ByCountDesc, GroupEvent);
    var ranked := RankedGroups(regs, now);
    var top := TopGroups(regs, now);
    var ids := GroupIds(top);
    forall i, j | 0 <= i < j < |ids|
      ensures ids[i] != ids[j]
    {
      assert top[i] == ranked[i] && top[j] == ranked[j];
      assert GroupEvent(ranked[i]) != GroupEvent(ranked[j]);
    }
  }

  /** With unique event ids no event is listed twice. */
  lemma TrendingHasNoDuplicates(events: seq<Event>, regs: seq<Registration>, now: Timestamp)
    requires UniqueEventIds(events)
    ensures UniqueEventIds(TrendingEvents(events, regs, now))
  {
    var pub := Filter(events, IsPublished);
    FilterDistinct(events, IsPublished, IdOf);
    var ids := GroupIds(TopGroups(regs, now));
    TopIdsDistinct(regs, now);
    PicksDistinct(pub, ids);
    var picks := Picks(pub, ids);
    var ordered := Ordered(events, regs, now);
    assert UniqueEventIds(ordered) by {
      forall i, j | 0 <= i < j < |ordered|
        ensures IdOf(ordered[i]) != IdOf(ordered[j])
      {
        assert ordered[i] == picks[i] && ordered[j] == picks[j];
      }
    }
    var pool := BackfillPool(pub, ordered);
    TopUpDistinct(ordered, pool);
    ChoiceIsTopUp(events, regs, now);
    Browse.PublicKeepsIds(TrendingChoice(events, regs, now));
  }
}

=== FILE: users.dfy ===
/** The participant controller: profile updates (`updateprofile`) with the
    rule that IIIT students keep their college, and password changes
    (`changepassword`) against an abstract hash. */
module Users {
  import opened Common
  import opened Models
  import opened Text

  /** The accepted body: each field optional. */
  datatype ProfileUpdate = ProfileUpdate(
    firstName: Option<string>,
    lastName: Option<string>,
    contact: Option<string>,
    college: Option<string>,
    interests: Option<seq<string>>,
    following: Option<seq<Id>>)

  /** The update schema: given names and college are non-empty and a given
      contact has at least ten characters. */
  predicate ProfileUpdateValid(u: ProfileUpdate)
  {
    && (u.firstName.Some? ==> Utf16Length(u.firstName.value) >= 1)
    && (u.lastName.Some? ==> Utf16Length(u.lastName.value) >= 1)
    && (u.contact.Some? ==> Utf16Length(u.contact.value) >= 10)
    && (u.college.Some? ==> Utf16Length(u.college.value) >= 1)
  }

  datatype UserError = InvalidBody | NotFound | CollegeLocked | WrongPassword
  {
    function Code(): int
    {
      match this
      case InvalidBody => 400
      case NotFound => 404
      case CollegeLocked => 403
      case WrongPassword => 401
    }
  }

  /** An IIIT student asking for a different college. */
  predicate ChangesLockedCollege(p: Participant, u: ProfileUpdate)
  {
    p.affiliation == IIIT && GivenText(u.college) && u.college.value != p.college
  }

  /** `$set` of the given fields. */
  function ApplyProfile(p: Participant, u: ProfileUpdate): (r: Participant)
    ensures r.id == p.id && r.email == p.email && r.password == p.password && r.affiliation == p.affiliation
    ensures r.firstName == u.firstName.GetOr(p.firstName) && r.lastName == u.lastName.GetOr(p.lastName)
    ensures r.contact == u.contact.GetOr(p.contact) && r.college == u.college.GetOr(p.college)
    ensures r.interests == u.interests.GetOr(p.interests) && r.following == u.following.GetOr(p.following)
  {
    p.(firstName := u.firstName.GetOr(p.firstName),
       lastName := u.lastName.GetOr(p.lastName),
       contact := u.contact.GetOr(p.contact),
       college := u.college.GetOr(p.college),
       interests := u.interests.GetOr(p.interests),
       following := u.following.GetOr(p.following))
  }

  /** `updateprofile`: 400 for an invalid body, 404 for a missing account,
      403 when an IIIT student asks for another college; otherwise the
      account is updated and returned. */
  function UpdateProfile(ps: seq<Participant>, caller: Id, u: ProfileUpdate): (r: Result<(seq<Participant>, Participant), UserError>)
    ensures !ProfileUpdateValid(u) ==> r == Err(InvalidBody)
    ensures ProfileUpdateValid(u) && ParticipantIndex(ps, caller) == -1 ==> r == Err(NotFound)
    ensures ProfileUpdateValid(u) && ParticipantIndex(ps, caller) >= 0 ==>
      var i := ParticipantIndex(ps, caller);
      && (r == Err(CollegeLocked) <==> ChangesLockedCollege(ps[i], u))
      && (r.Ok? <==> !ChangesLockedCollege(ps[i], u))
      && (r.Ok? ==> r.value.1 == ApplyProfile(ps[i], u) && r.value.0 == ps[i := r.value.1])
  {
    if !ProfileUpdateValid(u) then Err(InvalidBody)
    else
      var i := ParticipantIndex(ps, caller);
      if i == -1 then Err(NotFound)
      else if ChangesLockedCollege(ps[i], u) then Err(CollegeLocked)
      else
        var p := ApplyProfile(ps[i], u);
        Ok((ps[i := p], p))
  }

  /** No accepted update moves an IIIT student to another college, and no
      update changes anyone's affiliation, email or password. */
  lemma IiitCollegeIsFixed(ps: seq<Participant>, caller: Id, u: ProfileUpdate)
    requires UpdateProfile(ps, caller, u).Ok?
    ensures var ps' := UpdateProfile(ps, caller, u).value.0;
      && |ps'| == |ps|
      && forall k :: 0 <= k < |ps| ==>
        && ps'[k].affiliation == ps[k].affiliation
        && ps'[k].email == ps[k].email
        && ps'[k].password == ps[k].password
        && (ps[k].affiliation == IIIT ==> ps'[k].college == ps[k].college)
  {
    var i := ParticipantIndex(ps, caller);
    var ps' := UpdateProfile(ps, caller, u).value.0;
    assert ps'[i] == ApplyProfile(ps[i], u);
  }

  /** An IIIT student resubmitting the stored college, and anyone else
      submitting any college, passes the rule. */
  lemma SameCollegeAccepted(ps: seq<Participant>, caller: Id, u: ProfileUpdate)
    requires ProfileUpdateValid(u) && ParticipantIndex(ps, caller) >= 0
    requires var p := ps[ParticipantIndex(ps, caller)];
      p.affiliation == NonIIIT || u.college.None? || u.college == Some(p.college)
    ensures UpdateProfile(ps, caller, u).Ok?
  {
  }

  // ---------------------------------------------------------------------
  // changepassword

  /** `changepassword` with `hash` and `matches` standing for `bcrypt.hash`
      and `bcrypt.compare`: 400 for a new password under eight characters,
      404 for a missing account, 401 for a wrong current password; otherwise
      the stored hash becomes the new password's. */
  function ChangePassword(ps: seq<Participant>, caller: Id, current: string, newpass: string,
                          hash: string -> string, matches: (string, string) -> bool): (r: Result<seq<Participant>, UserError>)
    ensures Utf16Length(newpass) < 8 ==> r == Err(InvalidBody)
    ensures Utf16Length(newpass) >= 8 && ParticipantIndex(ps, caller) == -1 ==> r == Err(NotFound)
    ensures Utf16Length(newpass) >= 8 && ParticipantIndex(ps, caller) >= 0 ==>
      var i := ParticipantIndex(ps, caller);
      && (r == Err(WrongPassword) <==> !matches(current, ps[i].password))
      && (r.Ok? <==> matches(current, ps[i].password))
      && (r.Ok? ==> r.value == ps[i := ps[i].(password := hash(newpass))])
  {
    if Utf16Length(newpass) < 8 then Err(InvalidBody)
    else
      var i := ParticipantIndex(ps, caller);
      if i == -1 then Err(NotFound)
      else if !matches(current, ps[i].password) then Err(WrongPassword)
      else Ok(ps[i := ps[i].(password := hash(newpass))])
  }

  /** When the hash and the comparison agree, the new password is the one
      that now passes the check: changing it again from the new password
      is not refused as a wrong password. */
  lemma NewPasswordIsCurrent(ps: seq<Participant>, caller: Id, current: string, newpass: string, next: string,
                             hash: string -> string, matches: (string, string) -> bool)
    requires forall p :: matches(p, hash(p))
    requires ChangePassword(ps, caller, current, newpass, hash, matches).Ok?
    ensures ChangePassword(ChangePassword(ps, caller, current, newpass, hash, matches).value,
                           caller, newpass, next, hash, matches) != Err(WrongPassword)
  {
    var ps' := ChangePassword(ps, caller, current, newpass, hash, matches).value;
    var i := ParticipantIndex(ps, caller);
    assert forall k :: 0 <= k < |ps| ==> ps'[k].id == ps[k].id;
    assert ParticipantIndex(ps', caller) == i by {
      ParticipantIndexSameIds(ps, ps', caller);
    }
    assert ps'[i].password == hash(newpass);
  }

  /** Lookup by id depends only on the ids. */
  lemma {:induction false} ParticipantIndexSameIds(ps: seq<Participant>, qs: seq<Participant>, id: Id)
    requires |ps| == |qs|
    requires forall k :: 0 <= k < |ps| ==> ps[k].id == qs[k].id
    ensures ParticipantIndex(ps, id) == ParticipantIndex(qs, id)
    decreases |ps|
  {
    if |ps| > 0 {
      ParticipantIndexSameIds(ps[1..], qs[1..], id);
    }
  }
}
